=== FILE: README.md ===
# CRM dashboards: a Dafny model

This project models the data logic behind the real-estate CRM's dashboards:

- **Call analytics.** Every staff member's call-log sheet is turned into normalised call records. Those records are counted by call type and by staff member, and the call-log table is filtered.
- **Route call dashboard.** It filters calls, computes the headline metrics and counts the calls in each duration range.
- **Telecaller dashboard.** It reads the lead sheet, counts the frequency tables, the lead types, the visits and the feedback, filters and sorts the lead table, and computes the conversion rate per telecaller.
- **Home dashboard.** It reads the three lead sheets and summarises them: distinct leads, converted deals, visits, leads by source and by project, and the newest recent leads.
- **Salesman dashboard.** It reads the sales and achievements sheets into deals and a summary. When loading fails it falls back to the built-in sample data. It also filters the deal list.
- **Sales-coordinator dashboard.** It filters the site visits and moves the calendar between months.

How the model treats JavaScript:

- Strings are `seq<char>`.
- `trim`, `split`, `includes`, `padStart`, `toLowerCase`, `findIndex` and `indexOf` are written out with the JavaScript semantics: `Text` and `Table` hold them.
- `row[i]` on a row that is too short gives `undefined`. The model writes this as `Table.Cell`, which returns an `Option`.
- `Array.prototype.sort` with a consistent comparator is the stable insertion sort in `Sorting`; its stability is `Sorting.SortByStable`. With an inconsistent comparator the engine's order is implementation-defined, and the model gives one possible order.
- Fetching, the clock and `new Date(...)` are parameters:
  - a fetched sheet arrives as its text or as a failure;
  - a date text is read by an oracle that gives milliseconds, or `None` for an invalid date.
- Floating-point averages and percentages are `real`. `Math.round` is `Common.Round` and `Math.ceil` is `RouteCalls.CeilDiv`. A rounded percentage is promised only to be a nearest whole percentage (`Common.IsNearestPercent`), which the page's double arithmetic also meets.

Module layout:

| file | module | contents |
|---|---|---|
| common.dfy | `Common` | filtering, counting, sums, frequency tables, means and percentages |
| text.dfy | `Text` | JavaScript string operations |
| table.dfy | `Table` | cells, lines, header location, column lookup |
| sorting.dfy | `Sorting` | a stable sort with a comparator |
| duration.dfy | `Duration` | `parseDuration` and the clock renderings |
| call_records.dfy | `CallRecords` | the per-staff pipeline of the call-analytics page |
| call_metrics.dfy | `CallMetrics` | `calculateMetrics` and `filteredCallLogs` of that page |
| route_calls.dfy | `RouteCalls` | the route-level call dashboard |
| telecaller.dfy | `Telecaller` | the telecaller dashboard |
| home.dfy | `Home` | the home dashboard |
| salesman.dfy | `Salesman` | the salesman dashboard |
| coordinator.dfy | `Coordinator` | the sales-coordinator dashboard |

Where the pages behave in a way a reader may not expect, the model follows the code:

- `parseDuration` reads only the `HHh MMm SSs` form. Any text without an `h`, such as `MM:SS` or `HH:MM:SS`, reads as 0 (`Duration.ParseDurationNeedsH`).
- `formatDuration` has no guard for negative input (`Duration.FormatDurationNegative`).
- A call with no type in its sheet is given a direction first. If it was made from the staff member's phone, it becomes `Outgoing`, and it stays `Outgoing` even with a zero duration, because the keyword test runs before the zero-duration test (`CallRecords.ZeroOutgoingStaysOutgoing`). It never becomes `Did Not Connect`.
- The call-analytics page reads slash dates month-first (`CallRecords.SlashDateFields`). The home page reads them day-first (`Home.ReadLeadDateDayFirst`).
- The call-analytics metrics window ends at the exclusive end of the day after the end date. Its call-log table ends inclusively at the end date (`CallMetrics.LogRangeInWindow`).

## Model

| member | source | states |
|---|---|---|
| CallRecords.StaffNames | src/scripts/callAnalytics.jsx:64-131 | the names of the nine configured staff members, in table order |
| CallRecords.SplitLineRule | src/scripts/callAnalytics.jsx:219-228 | a line splits on commas when it has one, else on tabs when it has one, else is a single cell; joining the cells with the separator gives the line back |
| CallRecords.SheetRows | src/scripts/callAnalytics.jsx:219-228 | one row per line of the trimmed sheet, each split by its own separator |
| CallRecords.MapColumns | src/scripts/callAnalytics.jsx:253-262 | the date column is the first header mentioning `Date` but not `Date Time`, or -1 exactly when there is none |
| CallRecords.NormaliseType | src/scripts/callAnalytics.jsx:300-310 | the lower-cased type is searched for `incoming`, `outgoing` and `missed` in that order, and the first keyword found gives its label; with no keyword, a zero duration gives `Did Not Connect` and any other duration keeps the original type |
| CallRecords.NormaliseTypeIdempotent | src/scripts/callAnalytics.jsx:300-310 | normalising an already normalised type changes nothing |
| CallRecords.ZeroOutgoingStaysOutgoing | src/scripts/callAnalytics.jsx:291-310 | a call from the staff phone with no type and a zero duration stays `Outgoing` |
| CallRecords.SlashDate | src/scripts/callAnalytics.jsx:314-326 | a non-empty date stays non-empty; a date with no slash, or one that does not split into exactly three parts, is kept as it is |
| CallRecords.SlashDateFields | src/scripts/callAnalytics.jsx:314-326 | `M/D/Y` becomes year, padded month and padded day joined with dashes; a two-digit year gains `20`; the three fields split back out |
| CallRecords.RowDateFound | src/scripts/callAnalytics.jsx:272-284 | a row has a date exactly when its date cell or its date-and-time cell holds text |
| CallRecords.ProcessRow | src/scripts/callAnalytics.jsx:265-289 | a kept row has at least three cells and a date, and its record carries the staff member's name, role and the row's serial number |
| CallRecords.ProcessRowKept | src/scripts/callAnalytics.jsx:265-372 | a row is kept exactly when it has three cells and a dated cell; its type is the normalised direction; its status is `Not Reached` exactly for missed and unconnected calls; its seconds are read from its duration |
| CallRecords.ProcessRows | src/scripts/callAnalytics.jsx:265-373 | at most one record per data row, each dated and attributed to the staff member |
| CallRecords.ProcessRowsExact | src/scripts/callAnalytics.jsx:265-373 | the records are exactly the records of the kept rows (`.filter(Boolean)`), in sheet order, each numbered by its position among all data rows |
| CallRecords.ProcessRowsComplete | src/scripts/callAnalytics.jsx:265-373 | no kept row's record is missing |
| CallRecords.StaffRecords | src/scripts/callAnalytics.jsx:206-244 | a failed fetch or a blank sheet gives no records; every record is dated and attributed to its staff member |
| CallRecords.NoHeaderNoRecords | src/scripts/callAnalytics.jsx:230-241 | a sheet without a row containing `Date`, `Sr.No` or `From Number` gives no records |
| CallRecords.AllRecords | src/scripts/callAnalytics.jsx:390-404 | the records of all staff members are dated and belong to configured staff |
| Duration.ParseDurationOfPrefix | src/scripts/callAnalytics.jsx:541-555 | where the pattern `(\d+)h\s+(\d+)m\s+(\d+)s` matches at the start, the result is `h*3600 + m*60 + s` |
| Duration.MatchPrefixReads | src/scripts/callAnalytics.jsx:544-554 | the pattern reads `<h>h <m>m <s>s` as `h*3600 + m*60 + s` |
| Duration.MatchPrefixZero | src/scripts/callAnalytics.jsx:542 | the early return for `00h 00m 00s` agrees with what the pattern reads |
| Duration.ParseDurationNeedsH | src/scripts/callAnalytics.jsx:541-555 | text without an `h` reads as 0 |
| Duration.ParseHmsText | src/scripts/callAnalytics.jsx:541-555 | a duration written as `HHh MMm SSs` reads back as its seconds |
| Duration.FormatDuration | src/scripts/callAnalytics.jsx:648-659 | zero seconds render as `00:00` |
| Duration.FormatDurationIsClock | src/scripts/callAnalytics.jsx:648-659 | `MM:SS` below an hour and `HH:MM:SS` from an hour on, each field zero-padded |
| Duration.FormatDurationReadsBack | src/scripts/callAnalytics.jsx:648-659 | the rendering splits into two or three numeric fields whose base-60 value is the seconds, with minutes and seconds under 60 |
| Duration.FormatDurationNegative | src/scripts/callAnalytics.jsx:648-659 | a negative count does not render as `00:00` |
| Duration.FormatTotalDurationIsClock | src/scripts/callAnalytics.jsx:662-668 | the total is always three padded fields: hours, minutes, seconds |
| Duration.FormatTotalDurationReadsBack | src/scripts/callAnalytics.jsx:662-668 | the total reads back as three fields whose base-60 value is the seconds |
| Duration.FormatMinSecIsText | src/routes/CallAnalyticsDashboard.jsx:402-406 | unpadded minutes, a colon, and the seconds padded to two digits |
| Duration.FormatMinSecReadsBack | src/routes/CallAnalyticsDashboard.jsx:402-406 | the `M:SS` text reads back as `minutes*60 + seconds`, with the seconds exactly two digits |
| CallMetrics.Windowed | src/scripts/callAnalytics.jsx:558-564 | a record is in the window exactly when its date is valid and lies between the start and one day after the end |
| CallMetrics.AddCall | src/scripts/callAnalytics.jsx:601-615 | adding a call raises the staff member's call count by one and their talk time by the seconds of a connected call, and keeps the per-type counts within the total |
| CallMetrics.Seed | src/scripts/callAnalytics.jsx:583-594 | the table starts with every configured name at zero |
| CallMetrics.PerStaffKeys | src/scripts/callAnalytics.jsx:583-599 | the table ends with its starting names plus every name met |
| CallMetrics.CalculateMetrics | src/scripts/callAnalytics.jsx:557-645 | the total is the window's size; the average is 0 without connected calls |
| CallMetrics.MetricsTypeBound | src/scripts/callAnalytics.jsx:570-573 | the four type counts never exceed the total |
| CallMetrics.MetricsTalkTime | src/scripts/callAnalytics.jsx:575-576 | the total seconds are those of the window's incoming and outgoing calls only |
| CallMetrics.MetricsAverage | src/scripts/callAnalytics.jsx:643 | the average is the total seconds per connected call, or 0 |
| CallMetrics.MetricsStaffKeys | src/scripts/callAnalytics.jsx:583-599 | the per-staff table lists every configured staff member and every other name in the window |
| CallMetrics.MetricsStaffTotal | src/scripts/callAnalytics.jsx:597-615 | the per-staff call counts add up to the window's total |
| CallMetrics.MetricsStaffEntry | src/scripts/callAnalytics.jsx:597-615 | each entry counts exactly that person's calls in the window, and its type counts stay within them |
| CallMetrics.FilteredCallLogs | src/scripts/callAnalytics.jsx:898-913 | a record is listed exactly when it is in the inclusive date range and matches the role, staff and search criteria |
| CallMetrics.LogWildcards | src/scripts/callAnalytics.jsx:898-913 | with empty role, staff and search the log is exactly the date-range records in order |
| CallMetrics.LogIdempotent | src/scripts/callAnalytics.jsx:898-913 | filtering the log again changes nothing |
| CallMetrics.LogRangeInWindow | src/scripts/callAnalytics.jsx:558-564 | a record in the log's date range is inside the metrics window for the same dates |
| RouteCalls.FilterCallData | src/routes/CallAnalyticsDashboard.jsx:177-198 | a call is shown exactly when it is in the date range through the end day, matches the telecaller (`all` is the wildcard) and matches the lower-cased search |
| RouteCalls.ResetShowsRange | src/routes/CallAnalyticsDashboard.jsx:390-399 | after a reset the dashboard shows exactly the calls in the date range, in order |
| RouteCalls.SearchIgnoresQueryCase | src/routes/CallAnalyticsDashboard.jsx:191-194 | a query and its lower-cased form select the same calls |
| RouteCalls.CeilDiv | src/routes/CallAnalyticsDashboard.jsx:162 | `Math.ceil(a / b)`: the least whole multiple of `b` that reaches `a` |
| RouteCalls.DayDiff | src/routes/CallAnalyticsDashboard.jsx:162 | at least one, and the whole days the range spans, rounded up |
| RouteCalls.RouteCounts | src/routes/CallAnalyticsDashboard.jsx:144-153 | incoming, outgoing and missed stay within the total; the resolution rate is a percentage, 0 without calls |
| RouteCalls.RouteAverage | src/routes/CallAnalyticsDashboard.jsx:155-157 | the average is over the calls with a positive duration only, and 0 when there are none |
| RouteCalls.CalculateRouteMetrics | src/routes/CallAnalyticsDashboard.jsx:144-174 | the total counts the filtered calls; calls per day exists exactly when both range dates are valid, and is then the total divided by a day count of at least one (the days the range spans, rounded up) |
| RouteCalls.Bucket | src/routes/CallAnalyticsDashboard.jsx:316-326 | every duration falls in one of the five ranges |
| RouteCalls.BucketBounds | src/routes/CallAnalyticsDashboard.jsx:316-326 | a positive duration lies between the limits around its range |
| RouteCalls.DurationRanges | src/routes/CallAnalyticsDashboard.jsx:304-327 | the chart has five bars |
| RouteCalls.RangesCount | src/routes/CallAnalyticsDashboard.jsx:313-327 | each bar counts exactly the calls of non-zero duration in its range |
| RouteCalls.RangesTotal | src/routes/CallAnalyticsDashboard.jsx:313-327 | the bars add up to the number of calls with a non-zero duration |
| Telecaller.SeedLeadTypes | src/scripts/telecallerDashboard.jsx:113-119 | the lead-type chart starts with the five statuses at zero |
| Telecaller.BumpKnown | src/scripts/telecallerDashboard.jsx:129-131 | only a status already in the chart is counted; no key is added |
| Telecaller.CountRowsGroups | src/scripts/telecallerDashboard.jsx:121-167 | the single pass over the rows computes each counter group as its own fold would |
| Telecaller.TablesTally | src/scripts/telecallerDashboard.jsx:121-136 | the five frequency tables are the tallies of their columns' non-empty trimmed values |
| Telecaller.ValuesCount | src/scripts/telecallerDashboard.jsx:121-136 | a value is tallied once per row whose trimmed cell is that value |
| Telecaller.FrequencyTable | src/scripts/telecallerDashboard.jsx:121-136 | a frequency table's keys are non-empty values, each counting the rows that carry it, summing to at most the rows; an absent column leaves it empty |
| Telecaller.TelecallerTable | src/scripts/telecallerDashboard.jsx:122-123 | the telecaller table counts, for each telecaller, the rows naming them |
| Telecaller.LeadTypesSeeded | src/scripts/telecallerDashboard.jsx:113-132 | the lead types keep the five seeded keys and no other |
| Telecaller.LeadTypesCounted | src/scripts/telecallerDashboard.jsx:126-132 | each lead type counts the rows whose trimmed status is exactly that type |
| Telecaller.VisitsCount | src/scripts/telecallerDashboard.jsx:144-166 | each visit counter counts the rows passing its test |
| Telecaller.VisitCounters | src/scripts/telecallerDashboard.jsx:144-166 | first visits done never exceed visits done, which never exceed the rows; scheduled counts the rows with any visit date |
| Telecaller.FeedbackCount | src/scripts/telecallerDashboard.jsx:138-142 | each feedback counter counts exactly the rows whose trimmed lower-cased feedback is its word |
| Telecaller.FeedbackBound | src/scripts/telecallerDashboard.jsx:138-142 | the four feedback counters together count at most one per row |
| Telecaller.LoadLeadsError | src/scripts/telecallerDashboard.jsx:58-60 | the sheet fails to load exactly when no row has a cell that is exactly `DATE/TIME` |
| Telecaller.LoadLeadsRows | src/scripts/telecallerDashboard.jsx:58-63 | the data are all the rows under the first header row |
| Telecaller.LoadLeadsDateColumn | src/scripts/telecallerDashboard.jsx:62-67 | a loaded sheet always has its date column |
| Telecaller.HandleSort | src/scripts/telecallerDashboard.jsx:390-399 | clicking a column makes it the sort field and changes nothing else |
| Telecaller.HandleSortTwice | src/scripts/telecallerDashboard.jsx:390-399 | clicking the current sort column twice restores the state; a new column starts ascending |
| Telecaller.DoneExcludesPending | src/scripts/telecallerDashboard.jsx:458-468 | the `done` and `pending` visit filters select disjoint rows |
| Telecaller.RowOrderAsymmetric | src/scripts/telecallerDashboard.jsx:473-500 | the comparator never puts two rows each before the other |
| Telecaller.FilteredDataRows | src/scripts/telecallerDashboard.jsx:402-503 | the table holds exactly the matching rows, each as often as in the sheet |
| Telecaller.FilteredDataStable | src/scripts/telecallerDashboard.jsx:472-501 | rows with the same sort key keep their sheet order |
| Telecaller.FilteredDataOrdered | src/scripts/telecallerDashboard.jsx:472-501 | with a sort field the table is ordered by that field's key in the chosen direction |
| Telecaller.UnknownSortFieldKeepsOrder | src/scripts/telecallerDashboard.jsx:493-494 | an unknown sort field leaves the rows in sheet order |
| Telecaller.ResetShowsAll | src/scripts/telecallerDashboard.jsx:368-379 | after a reset the table shows every row in sheet order |
| Telecaller.ConversionRate | src/scripts/telecallerDashboard.jsx:1260 | 0 without leads; otherwise a nearest whole percentage of converted leads, between 0 and 100 when the converted leads are among them |
| Telecaller.ConversionRateBounded | src/scripts/telecallerDashboard.jsx:1253-1260 | a telecaller's converted leads are among their leads, so the rate is a percentage |
| Home.LoadSourceSkipped | src/scripts/home.jsx:62-75 | a sheet is skipped exactly when no row mentions `DATE`, `NAME` or `NUMBER` in a non-empty cell |
| Home.LoadSourcesEmpty | src/scripts/home.jsx:57-89 | no sheet is loaded exactly when every fetch failed or had no header |
| Home.FetchDashboardError | src/scripts/home.jsx:51-53 | the dashboard errors exactly when no sheet is loaded, and with the all-sources message when every fetch failed |
| Home.PhoneColumn | src/scripts/home.jsx:107 | the phone column is the first header mentioning `NUMBER`, `PHONE` or `MOBILE` |
| Home.RowsOf | src/scripts/home.jsx:122-127 | the counted rows are exactly the rows of the sheet that reach the phone column and carry a trimmed phone of ten characters or more, in sheet order |
| Home.AllRowsHavePhones | src/scripts/home.jsx:122-127 | every counted row has a phone of at least ten characters |
| Home.NoPhoneColumnNoRows | src/scripts/home.jsx:117-120 | a sheet without a phone column contributes no rows |
| Home.Phones | src/scripts/home.jsx:126-128 | the distinct leads are exactly the phones of the counted rows |
| Home.ReadLeadDateDayFirst | src/scripts/home.jsx:173-179 | a date with three slash-separated parts is read as day, month and year |
| Home.SummaryCounts | src/scripts/home.jsx:97-148 | distinct leads and converted deals are at most the counted rows; completed visits are among the scheduled ones |
| Home.FieldValuesCount | src/scripts/home.jsx:150-164 | a non-empty value is collected once per counted row whose trimmed cell holds it |
| Home.SummaryChartCounts | src/scripts/home.jsx:150-164 | a non-empty source or project is on its chart exactly when a counted row names it, and then counts those rows |
| Home.SummaryTables | src/scripts/home.jsx:150-164 | the source and project charts count only non-empty values and each sums to at most the counted rows |
| Home.RecentEntriesRecent | src/scripts/home.jsx:166-202 | the recent-lead entries are exactly the entries of the rows dated less than seven whole days ago: each entry comes from such a row and each such row gives an entry |
| Home.RecentLeadsShown | src/scripts/home.jsx:207-215 | five recent leads, or all of them when there are fewer, newest first, each an entry of a recent row |
| Salesman.HeaderFound | src/scripts/salesmanDashboard.jsx:94-108 | a sheet has a header exactly when a row mentions one of its markers |
| Salesman.LoadFails | src/scripts/salesmanDashboard.jsx:72-112 | loading fails exactly when a sheet does not arrive or has no header row; with both sheets in, the message is the missing-header one |
| Salesman.Dashboard | src/scripts/salesmanDashboard.jsx:226-232 | with an error the sample data is shown |
| Salesman.DashboardFallsBack | src/scripts/salesmanDashboard.jsx:70-232 | no error exactly when both sheets arrive with a header row |
| Salesman.DashboardLoaded | src/scripts/salesmanDashboard.jsx:114-223 | once loaded, the deals come from the rows below the sales header and the summary is theirs |
| Salesman.Max | src/scripts/salesmanDashboard.jsx:142 | the largest of the column indices, one of them |
| Salesman.KeptRows | src/scripts/salesmanDashboard.jsx:141-142 | a row is read exactly when it reaches every mapped column, in sheet order |
| Salesman.CleanNumber | src/scripts/salesmanDashboard.jsx:149 | only digits, dots and minus signs remain, and every such character of the input |
| Salesman.CleanNumberStable | src/scripts/salesmanDashboard.jsx:149 | cleaning is idempotent and leaves clean text alone |
| Salesman.ValueText | src/scripts/salesmanDashboard.jsx:149 | the text handed to `parseFloat` is non-empty and clean |
| Salesman.StatusOf | src/scripts/salesmanDashboard.jsx:148 | a status is non-empty and lower case |
| Salesman.Deals | src/scripts/salesmanDashboard.jsx:141-152 | one deal per kept row, numbered after the filtering |
| Salesman.DealIds | src/scripts/salesmanDashboard.jsx:144 | the deal numbers run 1, 2, 3, … without gaps |
| Salesman.DealFieldsFilled | src/scripts/salesmanDashboard.jsx:145-151 | every text field of a deal is filled and the status is lower case |
| Salesman.DealDefaults | src/scripts/salesmanDashboard.jsx:145-151 | a field takes its default exactly when its trimmed cell is blank |
| Common.RoundPercent | src/scripts/salesmanDashboard.jsx:218 | `Math.round` of a percentage, on exact reals, rounds halves up and is a nearest whole percentage |
| Common.HalfUpIsNearest | src/scripts/salesmanDashboard.jsx:218 | a half-up rounded percentage is a nearest whole percentage |
| Common.NearestPercentBounds | src/scripts/salesmanDashboard.jsx:218 | a nearest whole percentage of a part of the whole lies between 0 and 100 |
| Salesman.ConversionRate | src/scripts/salesmanDashboard.jsx:218 | 0 without deals, otherwise a nearest whole percentage of completed deals, between 0 and 100 |
| Salesman.ProjectsOf | src/scripts/salesmanDashboard.jsx:196 | the projects are exactly those of the deals |
| Salesman.DealsByProjectTally | src/scripts/salesmanDashboard.jsx:196-204 | the per-project counts are the frequency table of the deals' projects |
| Salesman.DealsByProjectKeys | src/scripts/salesmanDashboard.jsx:196-204 | the chart's keys are exactly the deals' projects |
| Salesman.DealsByProjectTotal | src/scripts/salesmanDashboard.jsx:196-204 | the per-project counts add up to the number of deals |
| Salesman.StatusPartition | src/scripts/salesmanDashboard.jsx:170-171 | every deal is exactly one of completed, lost or pending |
| Salesman.SummaryConsistent | src/scripts/salesmanDashboard.jsx:207-222 | completed, pending and lost add up to the total; the rate is a nearest whole percentage of completed deals; the project counts sum to the total |
| Salesman.FilteredDeals | src/scripts/salesmanDashboard.jsx:357-372 | a deal is listed exactly when it matches the search, status and project |
| Salesman.ResetShowsAllDeals | src/scripts/salesmanDashboard.jsx:688-694 | after a reset every deal is listed in order |
| Salesman.ProjectFilterMatchesChart | src/scripts/salesmanDashboard.jsx:369 | picking a project lists as many deals as the chart gives it |
| Salesman.StatusFilterNarrows | src/scripts/salesmanDashboard.jsx:366 | setting a status never lists more deals than `all` |
| Coordinator.FilteredVisits | src/scripts/salesCoordinatorDashboard.jsx:184-198 | a visit is listed exactly when it matches the search, status and project |
| Coordinator.FilteredVisitsInOrder | src/scripts/salesCoordinatorDashboard.jsx:184-198 | the listed visits keep their order |
| Coordinator.ResetShowsAllVisits | src/scripts/salesCoordinatorDashboard.jsx:592-596 | after a reset every visit is listed in order |
| Coordinator.DropDownsSelect | src/scripts/salesCoordinatorDashboard.jsx:192-195 | with an empty search a project or status choice lists exactly those visits |
| Coordinator.SearchIgnoresNameCase | src/scripts/salesCoordinatorDashboard.jsx:186-189 | the name and project search ignores the case of the query |
| Coordinator.PrevMonth | src/scripts/salesCoordinatorDashboard.jsx:305-312 | "previous" keeps the month valid and moves back one month |
| Coordinator.NextMonth | src/scripts/salesCoordinatorDashboard.jsx:318-325 | "next" keeps the month valid and moves on one month |
| Coordinator.NavigationRoundTrip | src/scripts/salesCoordinatorDashboard.jsx:305-325 | next undoes previous and previous undoes next |
| Coordinator.ForwardCount | src/scripts/salesCoordinatorDashboard.jsx:318-325 | `n` presses of next move the month number on by `n` |
| Coordinator.ForwardYears | src/scripts/salesCoordinatorDashboard.jsx:318-325 | twelve presses per year reach the same month that many years later |
| Text.TrimSpec | src/scripts/callAnalytics.jsx:214-219 | `trim` drops exactly the leading and trailing white space |
| Text.TrimEmptyIffBlank | src/scripts/callAnalytics.jsx:214 | a text trims to nothing exactly when it is all white space |
| Text.JoinSplit | src/scripts/callAnalytics.jsx:219-228 | joining the pieces of a split gives the text back |
| Text.SplitJoin | src/scripts/callAnalytics.jsx:315-324 | splitting pieces that lack the separator gives them back |
| Text.ContainsIff | src/scripts/callAnalytics.jsx:232-238 | `includes` is "occurs at some position" |
| Text.NatToString | src/scripts/callAnalytics.jsx:655-658 | the decimal rendering of a number is all digits, reads back as that number, and has no leading zero |
| Text.Pad2Value | src/scripts/callAnalytics.jsx:655-658 | the zero-padded rendering reads back as the number |
| Table.FindIndex | src/scripts/callAnalytics.jsx:253-262 | the first index passing the test, or -1 exactly when none does |
| Table.IndexOf | src/scripts/telecallerDashboard.jsx:66-94 | the first position holding exactly the value, or -1 exactly when absent |
| Table.ColumnWith | src/scripts/home.jsx:107-114 | the first header containing any key, or -1 exactly when none does |
| Table.LocateHeaderFirst | src/scripts/salesmanDashboard.jsx:94-119 | no header exactly when no row qualifies; otherwise the first qualifying row, trimmed, with every row below it as data |
| Sorting.SortByOrdered | src/scripts/telecallerDashboard.jsx:472-501 | the sorted rows are in comparator order |
| Sorting.SortByStable | src/scripts/telecallerDashboard.jsx:472-501 | elements the comparator never orders among themselves, such as rows with equal keys, keep their input order |
| Sorting.SortByUnordered | src/scripts/telecallerDashboard.jsx:493-494 | a comparator that orders nothing leaves the rows as they are |
| Common.FilterSubsequence | src/scripts/salesCoordinatorDashboard.jsx:184-198 | a filter keeps its elements in their order |
| Common.TallyTotal | src/scripts/telecallerDashboard.jsx:121-136 | a frequency table sums to the number of values tallied |
| Common.Percent | src/routes/CallAnalyticsDashboard.jsx:152 | the share of the part in the whole, in percent |

## Left out

- CallRecords.AllRecords: when no staff sheet yields a record, or no fetch succeeded, the page replaces the empty list with generated sample records (callAnalytics.jsx:400-403); the model gives the empty list, because the sample generator is random and is not part of this model.

- Network fetching, `Promise.allSettled`, and `setInterval`/`setTimeout` refreshes are left out. A fetch outcome is an input: the text, or a failure with its status.
- Charts, the audio player, recording file names and URLs, and the random sample-data generators are left out, because they are display or randomness.
- `determineCallStatus` picks one of four outcomes at random. The model keeps only whether a call is `Not Reached`.
- `new Date(...)` and the clock are oracles.
- CallMetrics.InMetricsWindow and RouteCalls.InRange: the end of each window is a fixed offset from the end instant (one day, and 23:59:59). The page sets local-time fields instead, so the model agrees with it only when the end instant is local midnight of a 24-hour day. Across a daylight-saving change, or for a `YYYY-MM-DD` end parsed as UTC midnight in a zone other than UTC, the page's bound differs.
- The call-analytics newest-first sort of all records, and the home page's sort for invalid dates, depend on `Date` comparison. The home sort is modelled with an oracle comparator; the call-analytics one is left out.
- Salesman.ConversionRate: the model rounds the exact quotient, halves up. The page rounds a double, which can fall just below an exact half: 29 of 200 is `14.499999999999998` on the page, shown as 14, where the model gives 15. The contract therefore promises only a nearest whole percentage, which both meet.
- Telecaller.ConversionRate: the same half-case difference as the salesman rate; the contract likewise promises only a nearest whole percentage.
- Common.Tally, Home.Summarise, Telecaller.FrequencyTable and Salesman.DealsByProject: the page counts into plain objects, which inherit from `Object.prototype`. A cell literally `constructor`, `toString` or `valueOf` starts from an inherited function rather than 0, and `__proto__` is never stored. The model's maps treat these as ordinary keys.
- Floating-point sums and `parseFloat` are left out: deal values, revenue, revenue per project, `totalRevenue`, `revenueThisMonth`, currency formatting.
- Salesman.Deals: the deal keeps its cleaned value text (`valueText`), not the parsed number, because `parseFloat` is not modelled.
- The salesman achievements rows, `targetThisMonth`, `dealsThisMonth` and `averageDealCycle` depend on floats and the current month, so they are left out.
- The salesman dashboard's leads are always the sample leads. The model does not carry them.
- Salesman.SampleData: the fixture's summary numbers are copied as they are. They are not consistent with its five deals, so `SummaryConsistent` is stated only for computed summaries.
- Salesman.DealsByProject: the key order of the chart object (insertion order) is not modelled; a map has none.
- Home.RecentLeadsShown: a recent lead whose date text `new Date` cannot read, such as a day-first `15/03/2024` that the day-first branch accepts as recent, makes the comparator answer `NaN`. The comparator is then inconsistent, so the page's order, and with it which five leads it shows, is engine-defined. The model gives one possible order.
- The coordinator's data load is a simulated delay over built-in sample data, and the calendar day grid is rendering, so both are left out.
- `toLowerCase`/`toUpperCase` cover ASCII letters only, and strings are sequences of characters rather than UTF-16 code units, so string order differs for characters outside the Basic Multilingual Plane.
- Telecaller: the page stores the lead-type counts inside the status table under the key `leadTypes`. The model keeps the two tables apart, so it does not model a sheet status literally named `leadTypes` being replaced.
- Telecaller: the top-five slice of the telecaller table is display only, and is left out.
- The route dashboard's mock data generator is left out.

=== FILE: call_metrics.dfy ===
/** The call-analytics page's summary: the records inside the chosen date
    window counted by call type, the seconds of connected calls, the
    per-staff breakdown seeded with every configured staff member, and the
    filter behind the call-log table. Dates are read by an oracle that gives
    the instant (in milliseconds) a date text denotes, or `None` for an
    invalid date, which compares false with everything. */
module CallMetrics {
  import opened Common
  import opened Text
  import opened CallRecords

  /** One day in milliseconds: the end of the window is moved one day on. */
  const DayMillis: int := 86400000

  /** `callDate >= startDate && callDate < endDate + 1 day`. */
  predicate InMetricsWindow(instantOf: string -> Option<int>, date: string, start: string, end: string)
  {
    var d := instantOf(date);
    var s := instantOf(start);
    var e := instantOf(end);
    d.Some? && s.Some? && e.Some? && s.value <= d.value < e.value + DayMillis
  }

  /** The records of `data` inside the window, in their order. */
  function Windowed(data: seq<CallRecord>, instantOf: string -> Option<int>, start: string, end: string): (w: seq<CallRecord>)
    ensures forall rec :: rec in w <==> rec in data && InMetricsWindow(instantOf, rec.date, start, end)
  {
    Filter(data, (rec: CallRecord) => InMetricsWindow(instantOf, rec.date, start, end))
  }

  predicate IsIncoming(rec: CallRecord) { rec.callType == "Incoming" }
  predicate IsOutgoing(rec: CallRecord) { rec.callType == "Outgoing" }
  predicate IsMissed(rec: CallRecord) { rec.callType == "Missed" }
  predicate IsUnconnected(rec: CallRecord) { rec.callType == "Did Not Connect" }

  /** `calls.reduce((t, c) => t + c.durationSeconds, 0)`. */
  function Seconds(xs: seq<CallRecord>): nat
    decreases |xs|
  {
    if xs == [] then 0 else xs[0].durationSeconds + Seconds(xs[1..])
  }

  lemma {:induction false} SecondsAppend(a: seq<CallRecord>, b: seq<CallRecord>)
    ensures Seconds(a + b) == Seconds(a) + Seconds(b)
    decreases |a|
  {
    if a == [] {
      assert a + b == b;
    } else {
      assert (a + b)[1..] == a[1..] + b;
      SecondsAppend(a[1..], b);
    }
  }

  /** The seconds a record adds to the talk time: those of a connected
      (incoming or outgoing) call, nothing for any other. */
  function TalkSeconds(rec: CallRecord): nat
  {
    if IsIncoming(rec) || IsOutgoing(rec) then rec.durationSeconds else 0
  }

  function TalkTime(xs: seq<CallRecord>): nat
    decreases |xs|
  {
    if xs == [] then 0 else TalkSeconds(xs[0]) + TalkTime(xs[1..])
  }

  /** One staff member's counters. */
  datatype Perf = Perf(
    totalCalls: nat,
    incoming: nat,
    outgoing: nat,
    missed: nat,
    didNotConnect: nat,
    totalDuration: nat)

  const ZeroPerf: Perf := Perf(0, 0, 0, 0, 0, 0)

  /** The per-type counters never add up to more than the calls counted. */
  predicate PerfConsistent(p: Perf)
  {
    p.incoming + p.outgoing + p.missed + p.didNotConnect <= p.totalCalls
  }

  /** One call added to a staff member's counters. */
  function AddCall(p: Perf, rec: CallRecord): (q: Perf)
    ensures q.totalCalls == p.totalCalls + 1
    ensures PerfConsistent(p) ==> PerfConsistent(q)
    ensures q.totalDuration == p.totalDuration + TalkSeconds(rec)
  {
    var p1 := p.(totalCalls := p.totalCalls + 1);
    if IsIncoming(rec) then
      p1.(incoming := p1.incoming + 1, totalDuration := p1.totalDuration + rec.durationSeconds)
    else if IsOutgoing(rec) then
      p1.(outgoing := p1.outgoing + 1, totalDuration := p1.totalDuration + rec.durationSeconds)
    else if IsMissed(rec) then p1.(missed := p1.missed + 1)
    else if IsUnconnected(rec) then p1.(didNotConnect := p1.didNotConnect + 1)
    else p1
  }

  /** A staff member's average talk time: 0 without a connected call. */
  function AvgDuration(p: Perf): real
  {
    Average(p.totalDuration, p.incoming + p.outgoing)
  }

  /** Every configured staff member at zero. */
  function Seed(names: seq<string>): (m: map<string, Perf>)
    ensures m.Keys == set n | n in names
    ensures forall k :: k in m ==> m[k] == ZeroPerf
  {
    map n | n in names :: ZeroPerf
  }

  /** The calls counted into the per-staff table, in order; a name not yet in
      the table enters it at zero. */
  function PerStaff(m: map<string, Perf>, xs: seq<CallRecord>): map<string, Perf>
    decreases |xs|
  {
    if xs == [] then m
    else
      var k := xs[0].telecaller;
      var p := if k in m then m[k] else ZeroPerf;
      PerStaff(m[k := AddCall(p, xs[0])], xs[1..])
  }

  /** The table ends up with its starting names and every name met. */
  lemma {:induction false} PerStaffKeys(m: map<string, Perf>, xs: seq<CallRecord>)
    ensures PerStaff(m, xs).Keys == m.Keys + set i | 0 <= i < |xs| :: xs[i].telecaller
    decreases |xs|
  {
    if xs != [] {
      var k := xs[0].telecaller;
      var p := if k in m then m[k] else ZeroPerf;
      PerStaffKeys(m[k := AddCall(p, xs[0])], xs[1..]);
      assert (set i | 0 <= i < |xs| :: xs[i].telecaller) == {k} + set i | 0 <= i < |xs[1..]| :: xs[1..][i].telecaller by {
        forall j | 0 <= j < |xs[1..]|
          ensures xs[1..][j].telecaller == xs[j + 1].telecaller
        {
        }
      }
    }
  }

  /** The summary the page shows. */
  datatype Metrics = Metrics(
    totalCalls: nat,
    incomingCalls: nat,
    outgoingCalls: nat,
    missedCalls: nat,
    didNotConnectCalls: nat,
    totalDuration: nat,
    avgDuration: real,
    perStaff: map<string, Perf>)

  /** `calculateMetrics`: the window's records counted by exact type, the
      seconds of the incoming and outgoing calls, their average, and the
      per-staff counters over the configured names. */
  function CalculateMetrics(data: seq<CallRecord>, instantOf: string -> Option<int>, start: string, end: string): (m: Metrics)
    ensures m.totalCalls == |Windowed(data, instantOf, start, end)|
    ensures m.incomingCalls + m.outgoingCalls == 0 ==> m.avgDuration == 0.0
  {
    var w := Windowed(data, instantOf, start, end);
    var incoming := Filter(w, IsIncoming);
    var outgoing := Filter(w, IsOutgoing);
    var completed := incoming + outgoing;
    var total := Seconds(completed);
    Metrics(
      |w|,
      |incoming|,
      |outgoing|,
      |Filter(w, IsMissed)|,
      |Filter(w, IsUnconnected)|,
      total,
      Average(total, |completed|),
      PerStaff(Seed(StaffNames()), w))
  }

  /** The four type counts of a list of calls never exceed its length: a
      call has at most one type. */
  lemma {:induction false} TypeCountsBound(xs: seq<CallRecord>)
    ensures |Filter(xs, IsIncoming)| + |Filter(xs, IsOutgoing)| + |Filter(xs, IsMissed)| + |Filter(xs, IsUnconnected)| <= |xs|
    decreases |xs|
  {
    if xs != [] {
      TypeCountsBound(xs[1..]);
    }
  }

  /** The seconds of the incoming calls plus those of the outgoing calls are
      the talk time of the whole list. */
  lemma {:induction false} ConnectedSeconds(xs: seq<CallRecord>)
    ensures Seconds(Filter(xs, IsIncoming)) + Seconds(Filter(xs, IsOutgoing)) == TalkTime(xs)
    decreases |xs|
  {
    if xs != [] {
      ConnectedSeconds(xs[1..]);
      var x := xs[0];
      if IsIncoming(x) {
        assert Filter(xs, IsIncoming) == [x] + Filter(xs[1..], IsIncoming);
        assert Seconds([x] + Filter(xs[1..], IsIncoming)) == x.durationSeconds + Seconds(Filter(xs[1..], IsIncoming));
      } else if IsOutgoing(x) {
        assert Filter(xs, IsOutgoing) == [x] + Filter(xs[1..], IsOutgoing);
        assert Seconds([x] + Filter(xs[1..], IsOutgoing)) == x.durationSeconds + Seconds(Filter(xs[1..], IsOutgoing));
      }
    }
  }

  /** The four type counts stay within the total: a call has one type. */
  lemma MetricsTypeBound(data: seq<CallRecord>, instantOf: string -> Option<int>, start: string, end: string)
    ensures var m := CalculateMetrics(data, instantOf, start, end);
      m.incomingCalls + m.outgoingCalls + m.missedCalls + m.didNotConnectCalls <= m.totalCalls
  {
    TypeCountsBound(Windowed(data, instantOf, start, end));
  }

  /** The total seconds are the talk time of the window: missed and
      unconnected calls add nothing. */
  lemma MetricsTalkTime(data: seq<CallRecord>, instantOf: string -> Option<int>, start: string, end: string)
    ensures CalculateMetrics(data, instantOf, start, end).totalDuration == TalkTime(Windowed(data, instantOf, start, end))
  {
    var w := Windowed(data, instantOf, start, end);
    SecondsAppend(Filter(w, IsIncoming), Filter(w, IsOutgoing));
    ConnectedSeconds(w);
  }

  /** The average is the total seconds per connected call, or 0 without one. */
  lemma MetricsAverage(data: seq<CallRecord>, instantOf: string -> Option<int>, start: string, end: string)
    ensures var m := CalculateMetrics(data, instantOf, start, end);
      IsMean(m.avgDuration, m.totalDuration, m.incomingCalls + m.outgoingCalls)
  {
    var w := Windowed(data, instantOf, start, end);
    var completed := Filter(w, IsIncoming) + Filter(w, IsOutgoing);
    assert |completed| == |Filter(w, IsIncoming)| + |Filter(w, IsOutgoing)|;
  }

  // -------------------------------------------------------- per-staff table

  /** The calls column of the per-staff table. */
  ghost function CallTotals(m: map<string, Perf>): (t: map<string, nat>)
    ensures t.Keys == m.Keys
    ensures forall k :: k in m ==> t[k] == m[k].totalCalls
  {
    map k | k in m :: m[k].totalCalls
  }

  lemma CallTotalsStep(m: map<string, Perf>, k: string, q: Perf)
    ensures CallTotals(m[k := q]) == CallTotals(m)[k := q.totalCalls]
  {
  }

  /** Counting calls into the table adds exactly one call per record. */
  lemma {:induction false} PerStaffTotal(m: map<string, Perf>, xs: seq<CallRecord>)
    ensures MapSum(CallTotals(PerStaff(m, xs))) == MapSum(CallTotals(m)) + |xs|
    decreases |xs|
  {
    if xs != [] {
      var k := xs[0].telecaller;
      var p := if k in m then m[k] else ZeroPerf;
      var m' := m[k := AddCall(p, xs[0])];
      PerStaffTotal(m', xs[1..]);
      CallTotalsStep(m, k, AddCall(p, xs[0]));
      MapSumUpdate(CallTotals(m), k, p.totalCalls + 1);
    }
  }

  /** Each name's counters are its starting counters plus its own calls, and
      stay consistent. */
  lemma {:induction false} PerStaffOf(m: map<string, Perf>, xs: seq<CallRecord>, name: string)
    requires name in m ==> PerfConsistent(m[name])
    ensures name in PerStaff(m, xs) ==>
      && PerStaff(m, xs)[name].totalCalls == (if name in m then m[name].totalCalls else 0) + Count(xs, (rec: CallRecord) => rec.telecaller == name)
      && PerfConsistent(PerStaff(m, xs)[name])
    decreases |xs|
  {
    if xs != [] {
      var k := xs[0].telecaller;
      var p := if k in m then m[k] else ZeroPerf;
      PerStaffOf(m[k := AddCall(p, xs[0])], xs[1..], name);
    }
  }

  /** The per-staff table lists every configured staff member and every
      other name met in the window. */
  lemma MetricsStaffKeys(data: seq<CallRecord>, instantOf: string -> Option<int>, start: string, end: string)
    ensures var w := Windowed(data, instantOf, start, end);
      CalculateMetrics(data, instantOf, start, end).perStaff.Keys
        == (set n | n in StaffNames()) + set i | 0 <= i < |w| :: w[i].telecaller
  {
    PerStaffKeys(Seed(StaffNames()), Windowed(data, instantOf, start, end));
  }

  /** The per-staff call counts add up to the window's total. */
  lemma MetricsStaffTotal(data: seq<CallRecord>, instantOf: string -> Option<int>, start: string, end: string)
    ensures var m := CalculateMetrics(data, instantOf, start, end);
      MapSum(CallTotals(m.perStaff)) == m.totalCalls
  {
    var w := Windowed(data, instantOf, start, end);
    var seed := Seed(StaffNames());
    PerStaffTotal(seed, w);
    MapSumZero(CallTotals(seed));
  }

  /** Each entry counts exactly that person's calls in the window, and its
      type counts stay within them. */
  lemma MetricsStaffEntry(data: seq<CallRecord>, instantOf: string -> Option<int>, start: string, end: string, name: string)
    ensures var m := CalculateMetrics(data, instantOf, start, end);
      name in m.perStaff ==>
        && m.perStaff[name].totalCalls == Count(Windowed(data, instantOf, start, end), (rec: CallRecord) => rec.telecaller == name)
        && PerfConsistent(m.perStaff[name])
  {
    PerStaffOf(Seed(StaffNames()), Windowed(data, instantOf, start, end), name);
  }

  // ------------------------------------------------------------- call log

  /** `new Date(call.date)` between the start and the end date, both ends
      included. */
  predicate InLogRange(instantOf: string -> Option<int>, date: string, start: string, end: string)
  {
    var d := instantOf(date);
    var s := instantOf(start);
    var e := instantOf(end);
    d.Some? && s.Some? && e.Some? && s.value <= d.value <= e.value
  }

  /** The role filter: empty, or the record's role equal ignoring case. */
  predicate RoleMatches(rec: CallRecord, role: string)
  {
    role == "" || (rec.role != "" && ToLower(rec.role) == ToLower(role))
  }

  /** The staff filter: empty, or exactly the record's staff member. */
  predicate StaffMatches(rec: CallRecord, telecaller: string)
  {
    telecaller == "" || rec.telecaller == telecaller
  }

  /** The search box: empty, or found in the customer name or the notes
      ignoring case, or in either number as typed. */
  predicate SearchMatches(rec: CallRecord, query: string)
  {
    || query == ""
    || Contains(ToLower(rec.customerName), ToLower(query))
    || Contains(rec.fromNumber, query)
    || Contains(rec.toNumber, query)
    || (rec.notes != "" && Contains(ToLower(rec.notes), ToLower(query)))
  }

  /** The criteria of the call-log table. */
  datatype LogCriteria = LogCriteria(start: string, end: string, role: string, telecaller: string, query: string)

  predicate LogMatches(instantOf: string -> Option<int>, c: LogCriteria, rec: CallRecord)
  {
    && InLogRange(instantOf, rec.date, c.start, c.end)
    && RoleMatches(rec, c.role)
    && StaffMatches(rec, c.telecaller)
    && SearchMatches(rec, c.query)
  }

  /** `filteredCallLogs`. */
  function FilteredCallLogs(data: seq<CallRecord>, instantOf: string -> Option<int>, c: LogCriteria): (r: seq<CallRecord>)
    ensures |r| <= |data|
    ensures forall rec :: rec in r <==> rec in data && LogMatches(instantOf, c, rec)
  {
    Filter(data, (rec: CallRecord) => LogMatches(instantOf, c, rec))
  }

  /** With the role, staff and search criteria empty, the log shows exactly
      the records in the date range, in their order. */
  lemma LogWildcards(data: seq<CallRecord>, instantOf: string -> Option<int>, start: string, end: string)
    ensures FilteredCallLogs(data, instantOf, LogCriteria(start, end, "", "", ""))
         == Filter(data, (rec: CallRecord) => InLogRange(instantOf, rec.date, start, end))
  {
    FilterCongruent(data, (rec: CallRecord) => LogMatches(instantOf, LogCriteria(start, end, "", "", ""), rec),
                    (rec: CallRecord) => InLogRange(instantOf, rec.date, start, end));
  }

  /** Filtering the log again with the same criteria changes nothing. */
  lemma LogIdempotent(data: seq<CallRecord>, instantOf: string -> Option<int>, c: LogCriteria)
    ensures FilteredCallLogs(FilteredCallLogs(data, instantOf, c), instantOf, c) == FilteredCallLogs(data, instantOf, c)
  {
    FilterIdempotent(data, (rec: CallRecord) => LogMatches(instantOf, c, rec));
  }

  /** Every record in the log's date range is inside the metrics window for
      the same dates: the log's inclusive end lies before the window's
      exclusive end one day later. */
  lemma LogRangeInWindow(instantOf: string -> Option<int>, date: string, start: string, end: string)
    requires InLogRange(instantOf, date, start, end)
    ensures InMetricsWindow(instantOf, date, start, end)
  {
  }
}

=== FILE: call_records.dfy ===
/** The call-analytics page's per-staff pipeline: a staff member's call-log
    sheet becomes a list of normalised call records. Lines split on a comma
    or a tab, the header row is found by marker substrings, columns are
    looked up by header substrings, and each data row is dropped or turned
    into a record with a date, an inferred call type and a status. */
module CallRecords {
  import opened Common
  import opened Text
  import opened Table
  import Duration

  /** One configured staff member: display name, own phone number, role. */
  datatype Staff = Staff(name: string, phone: string, role: string)

  /** The staff whose call logs the page loads, in the order it lists them. */
  const StaffTable: seq<Staff> := [
    Staff("Simran", "8556896739", "telecaller"),
    Staff("Raman", "9876543210", "telecaller"),
    Staff("Rupali", "9876543211", "telecaller"),
    Staff("Gagan", "9876543212", "salesCoordinator"),
    Staff("Aman", "9876543213", "salesCoordinator"),
    Staff("Arsh", "9876543214", "salesCoordinator"),
    Staff("Arun", "9876543215", "salesman"),
    Staff("Jaskaran", "9876543216", "salesman"),
    Staff("Daljeet", "9876543217", "crm")
  ]

  /** The names of the configured staff. */
  function StaffNames(): (r: seq<string>)
    ensures |r| == |StaffTable|
    ensures forall i :: 0 <= i < |r| ==> r[i] == StaffTable[i].name
  {
    seq(|StaffTable|, i requires 0 <= i < |StaffTable| => StaffTable[i].name)
  }

  /** The status of a call: unreachable, or one of the four outcomes the page
      picks at random (`Completed`, `Follow-up Required`, `Interested`,
      `Not Interested`), which the model does not choose between. */
  datatype CallStatus = NotReached | RandomlyAssigned

  /** A normalised call record. */
  datatype CallRecord = CallRecord(
    srNo: nat,
    name: string,
    fromNumber: string,
    toNumber: string,
    date: string,
    time: string,
    dateTime: string,
    duration: string,
    durationSeconds: nat,
    callType: string,
    telecaller: string,
    role: string,
    customerName: string,
    status: CallStatus,
    notes: string)

  // ---------------------------------------------------------------- lines

  /** The separator of one line: a comma when the line has one, otherwise a
      tab when it has one, otherwise a comma. */
  function Separator(line: string): char
  {
    if ',' in line then ',' else if '\t' in line then '\t' else ','
  }

  /** One line of the sheet, split into cells. */
  function SplitLine(line: string): Row
  {
    Split(line, Separator(line))
  }

  /** Commas win over tabs; a line with neither is a single cell; and the
      cells joined with the separator give the line back. */
  lemma SplitLineRule(line: string)
    ensures ',' in line ==> SplitLine(line) == Split(line, ',')
    ensures ',' !in line && '\t' in line ==> SplitLine(line) == Split(line, '\t')
    ensures ',' !in line && '\t' !in line ==> SplitLine(line) == [line]
    ensures Join(SplitLine(line), Separator(line)) == line
  {
    if ',' !in line && '\t' !in line {
      SplitWithout(line, ',');
    }
    JoinSplit(line, Separator(line));
  }

  /** `csvText.trim().split('\n')` with every line split into cells. */
  function SheetRows(text: string): (r: seq<Row>)
    ensures |r| == |Lines(text)|
    ensures forall i :: 0 <= i < |r| ==> r[i] == SplitLine(Lines(text)[i])
  {
    var ls := Lines(text);
    seq(|ls|, i requires 0 <= i < |ls| => SplitLine(ls[i]))
  }

  // --------------------------------------------------------------- header

  /** A cell that marks the header row: not empty, and containing `Date`,
      `Sr.No` or `From Number`. */
  predicate IsCallMarker(cell: string)
  {
    cell != "" && (Contains(cell, "Date") || Contains(cell, "Sr.No") || Contains(cell, "From Number"))
  }

  predicate IsCallHeader(row: Row)
  {
    Any(row, IsCallMarker)
  }

  /** The column index of every field of a call record, -1 when absent. */
  datatype Columns = Columns(
    date: int,
    time: int,
    dateTime: int,
    fromNumber: int,
    toNumber: int,
    duration: int,
    callType: int,
    name: int)

  predicate IsDateHeader(h: string)
  {
    Contains(h, "Date") && !Contains(h, "Date Time")
  }

  /** The column map: each field is the first header containing its marker. */
  function MapColumns(headers: Row): (c: Columns)
    ensures -1 <= c.date < |headers|
    ensures c.date == -1 <==> forall i :: 0 <= i < |headers| ==> !IsDateHeader(headers[i])
    ensures c.date >= 0 ==> IsDateHeader(headers[c.date])
    ensures forall i :: 0 <= i < c.date ==> !IsDateHeader(headers[i])
  {
    Columns(
      FindIndex(headers, IsDateHeader),
      FindIndex(headers, h => Contains(h, "Time")),
      FindIndex(headers, h => Contains(h, "Date Time")),
      FindIndex(headers, h => Contains(h, "From Number") || Contains(h, "From") || Contains(h, "Source")),
      FindIndex(headers, h => Contains(h, "To Number") || Contains(h, "To") || Contains(h, "Destination")),
      FindIndex(headers, h => Contains(h, "Duration")),
      FindIndex(headers, h => Contains(h, "Type") || Contains(h, "Call Type")),
      FindIndex(headers, h => Contains(h, "Name") || Contains(h, "Customer") || Contains(h, "Contact")))
  }

  // ------------------------------------------------------------ call type

  /** The duration text a sheet without a duration column gets. */
  const NoDuration: string := "00h 00m 00s"

  /** The three spellings of a call that lasted nothing. */
  predicate IsZeroDuration(d: string)
  {
    d == NoDuration || d == "0:00" || d == "00:00:00"
  }

  /** The call type before normalisation: the sheet's own, or, when it has
      none, `Incoming` if the call went to the staff member's phone and
      `Outgoing` if it came from it. */
  function Direction(callType: string, fromNumber: string, toNumber: string, phone: string): string
  {
    if callType != "" then callType
    else if toNumber == phone then "Incoming"
    else if fromNumber == phone then "Outgoing"
    else ""
  }

  /** Keyword normalisation: `incoming`, `outgoing` and `missed`, looked for in
      that order in the lower-cased type; a call with none of them and a zero
      duration did not connect; anything else keeps its type. */
  function NormaliseType(callType: string, duration: string): (r: string)
    ensures || r in {"Incoming", "Outgoing", "Missed"}
            || (r == "Did Not Connect" && IsZeroDuration(duration))
            || (r == callType && !IsZeroDuration(duration)
                && !Contains(ToLower(callType), "incoming")
                && !Contains(ToLower(callType), "outgoing")
                && !Contains(ToLower(callType), "missed"))
    ensures Contains(ToLower(callType), "incoming") ==> r == "Incoming"
    ensures !Contains(ToLower(callType), "incoming") && Contains(ToLower(callType), "outgoing") ==> r == "Outgoing"
    ensures (!Contains(ToLower(callType), "incoming") && !Contains(ToLower(callType), "outgoing")
             && Contains(ToLower(callType), "missed")) ==> r == "Missed"
    ensures (!Contains(ToLower(callType), "incoming") && !Contains(ToLower(callType), "outgoing")
             && !Contains(ToLower(callType), "missed")) ==>
            r == (if IsZeroDuration(duration) then "Did Not Connect" else callType)
  {
    var t := ToLower(callType);
    if Contains(t, "incoming") then "Incoming"
    else if Contains(t, "outgoing") then "Outgoing"
    else if Contains(t, "missed") then "Missed"
    else if IsZeroDuration(duration) then "Did Not Connect"
    else callType
  }

  /** The deterministic branch of `determineCallStatus`. */
  function StatusOf(callType: string): CallStatus
  {
    if callType == "Missed" || callType == "Did Not Connect" then NotReached else RandomlyAssigned
  }

  /** A text lacking one character of a keyword does not contain it. */
  lemma Lacks(s: string, t: string, j: nat)
    requires j < |t| && t[j] !in s
    ensures !Contains(s, t)
  {
    if Contains(s, t) {
      ContainsCharsIn(s, t);
    }
  }

  /** Normalising a normalised type changes nothing. */
  lemma NormaliseTypeIdempotent(callType: string, duration: string)
    ensures NormaliseType(NormaliseType(callType, duration), duration) == NormaliseType(callType, duration)
  {
    var r := NormaliseType(callType, duration);
    if r == "Incoming" {
      IncomingStays(duration);
    } else if r == "Outgoing" {
      OutgoingStays(duration);
    } else if r == "Missed" {
      MissedStays(duration);
    } else if r == "Did Not Connect" && r != callType {
      UnconnectedStays(duration);
    }
  }

  lemma IncomingStays(duration: string)
    ensures NormaliseType("Incoming", duration) == "Incoming"
  {
    assert ToLower("Incoming") == "incoming";
    assert "incoming" <= "incoming";
  }

  lemma OutgoingStays(duration: string)
    ensures NormaliseType("Outgoing", duration) == "Outgoing"
  {
    var t := ToLower("Outgoing");
    assert t == "outgoing";
    Lacks(t, "incoming", 2);
    assert "outgoing" <= t;
  }

  lemma MissedStays(duration: string)
    ensures NormaliseType("Missed", duration) == "Missed"
  {
    var t := ToLower("Missed");
    assert t == "missed";
    Lacks(t, "incoming", 1);
    Lacks(t, "outgoing", 0);
    assert "missed" <= t;
  }

  lemma UnconnectedStays(duration: string)
    requires IsZeroDuration(duration)
    ensures NormaliseType("Did Not Connect", duration) == "Did Not Connect"
  {
    assert ToLower("Did Not Connect") == "did not connect";
    assert 'm' !in "did not connect" && 'u' !in "did not connect";
    KeywordsAbsent("did not connect");
  }

  /** A text without `m` and `u` holds none of the three keywords. */
  lemma KeywordsAbsent(t: string)
    requires 'm' !in t && 'u' !in t
    ensures !Contains(t, "incoming") && !Contains(t, "outgoing") && !Contains(t, "missed")
  {
    Lacks(t, "incoming", 4);
    Lacks(t, "outgoing", 1);
    Lacks(t, "missed", 0);
  }

  /** With no type in the sheet, a call from the staff member's phone with a
      zero duration stays `Outgoing`: the keyword test runs before the
      zero-duration test. */
  lemma ZeroOutgoingStaysOutgoing(fromNumber: string, toNumber: string, phone: string, duration: string)
    requires toNumber != phone && fromNumber == phone && IsZeroDuration(duration)
    ensures NormaliseType(Direction("", fromNumber, toNumber, phone), duration) == "Outgoing"
  {
    OutgoingStays(duration);
  }

  // ----------------------------------------------------------------- date

  /** A two-digit year is read as 20xx. */
  function Year(y: string): string
  {
    if |y| == 2 then "20" + y else y
  }

  /** Month-first slash dates become `YYYY-MM-DD`; any other text is kept. */
  function SlashDate(date: string): (r: string)
    ensures date != "" ==> r != ""
    ensures '/' !in date || |Split(date, '/')| != 3 ==> r == date
  {
    if '/' in date then
      var parts := Split(date, '/');
      if |parts| == 3 then
        Year(parts[2]) + "-" + PadStart(parts[0], 2, '0') + "-" + PadStart(parts[1], 2, '0')
      else date
    else date
  }

  /** `M/D/Y` becomes the year, the zero-padded month and the zero-padded
      day, joined with dashes; when no part holds a dash the three ISO fields
      come back out of the result. */
  lemma SlashDateFields(m: string, d: string, y: string)
    requires '/' !in m && '/' !in d && '/' !in y
    ensures SlashDate(m + "/" + d + "/" + y) == Year(y) + "-" + Pad2(m) + "-" + Pad2(d)
    ensures '-' !in m && '-' !in d && '-' !in y ==>
      Split(SlashDate(m + "/" + d + "/" + y), '-') == [Year(y), Pad2(m), Pad2(d)]
  {
    var s := m + "/" + d + "/" + y;
    JoinThree(m, d, y, '/');
    SplitJoin([m, d, y], '/');
    assert s[|m|] == '/';
    var r := Year(y) + "-" + Pad2(m) + "-" + Pad2(d);
    if '-' !in m && '-' !in d && '-' !in y {
      assert '-' !in Pad2(m) by {
        assert forall k :: 0 <= k < |Pad2(m)| - |m| ==> Pad2(m)[k] == '0';
        assert Pad2(m)[|Pad2(m)| - |m|..] == m;
        forall k | 0 <= k < |Pad2(m)|
          ensures Pad2(m)[k] != '-'
        {
          if k >= |Pad2(m)| - |m| {
            assert Pad2(m)[k] == m[k - (|Pad2(m)| - |m|)];
          }
        }
      }
      assert '-' !in Pad2(d) by {
        forall k | 0 <= k < |Pad2(d)|
          ensures Pad2(d)[k] != '-'
        {
          if k >= |Pad2(d)| - |d| {
            assert Pad2(d)[|Pad2(d)| - |d|..] == d;
            assert Pad2(d)[k] == d[k - (|Pad2(d)| - |d|)];
          }
        }
      }
      assert '-' !in Year(y);
      JoinThree(Year(y), Pad2(m), Pad2(d), '-');
      SplitJoin([Year(y), Pad2(m), Pad2(d)], '-');
    }
  }

  // ------------------------------------------------------------------ rows

  /** The date of a row: its own date cell, or else the text before the first
      space of its date-and-time cell. */
  function RowDate(row: Row, cols: Columns): string
  {
    var date := CellOr(row, cols.date, "");
    var dateTime := CellOr(row, cols.dateTime, "");
    if date == "" && dateTime != "" then Split(dateTime, ' ')[0] else date
  }

  /** A date is found exactly when the date cell or the date-and-time cell
      holds more than white space. */
  lemma RowDateFound(row: Row, cols: Columns)
    ensures RowDate(row, cols) != "" <==> CellOr(row, cols.date, "") != "" || CellOr(row, cols.dateTime, "") != ""
  {
    var dateTime := CellOr(row, cols.dateTime, "");
    if CellOr(row, cols.date, "") == "" && dateTime != "" {
      var raw := row[cols.dateTime];
      TrimSpec(raw);
      assert !IsSpace(dateTime[0]);
      SplitFirstPiece(dateTime, ' ');
    }
  }

  /** The record for the data row at position `index`, or `None` when the row
      has fewer than three cells or no date. */
  function ProcessRow(staff: Staff, cols: Columns, row: Row, index: nat): (r: Option<CallRecord>)
    ensures r.Some? ==> |row| >= 3 && r.value.date != ""
    ensures r.Some? ==> r.value.telecaller == staff.name && r.value.role == staff.role && r.value.srNo == index + 1
  {
    if |row| < 3 then None
    else
      var date := RowDate(row, cols);
      if date == "" then None else Some(RowRecord(staff, cols, row, index, date))
  }

  /** The record of a kept row whose date is `date`. When the time cell is
      blank and the date-and-time cell holds no space, the page's time is
      `undefined` (the second piece of a one-piece split); the model gives
      the empty string, which the page renders the same way. */
  function RowRecord(staff: Staff, cols: Columns, row: Row, index: nat, date: string): (r: CallRecord)
    requires date != ""
    ensures r.date != "" && r.telecaller == staff.name && r.role == staff.role && r.srNo == index + 1
  {
    var time := CellOr(row, cols.time, "");
    var dateTime := CellOr(row, cols.dateTime, "");
    var fromNumber := CellOr(row, cols.fromNumber, "");
    var toNumber := CellOr(row, cols.toNumber, "");
    var duration := CellOr(row, cols.duration, NoDuration);
    var rawType := CellOr(row, cols.callType, "");
    var name := CellOr(row, cols.name, "Customer " + NatToString(index + 1));
    var callType := NormaliseType(Direction(rawType, fromNumber, toNumber, staff.phone), duration);
    var formatted := SlashDate(date);
    var dateTimePieces := Split(dateTime, ' ');
    CallRecord(
      index + 1,
      name,
      fromNumber,
      toNumber,
      formatted,
      if time != "" then time else if dateTime != "" && |dateTimePieces| > 1 then dateTimePieces[1] else "",
      if dateTime != "" then dateTime else formatted + " " + time,
      duration,
      Duration.ParseDuration(duration),
      callType,
      staff.name,
      staff.role,
      name,
      StatusOf(callType),
      "Call with " + name)
  }

  /** A row becomes a record exactly when it has three cells and a date cell
      or a date-and-time cell with text in it; the record's type is the
      normalised direction, its status is `Not Reached` exactly for missed and
      unconnected calls, and its seconds are read from its duration text. */
  lemma ProcessRowKept(staff: Staff, cols: Columns, row: Row, index: nat)
    ensures ProcessRow(staff, cols, row, index).Some? <==>
      |row| >= 3 && (CellOr(row, cols.date, "") != "" || CellOr(row, cols.dateTime, "") != "")
    ensures ProcessRow(staff, cols, row, index).Some? ==>
      var rec := ProcessRow(staff, cols, row, index).value;
      && rec.callType == NormaliseType(
           Direction(CellOr(row, cols.callType, ""), CellOr(row, cols.fromNumber, ""),
                     CellOr(row, cols.toNumber, ""), staff.phone),
           rec.duration)
      && (rec.status == NotReached <==> rec.callType == "Missed" || rec.callType == "Did Not Connect")
      && rec.durationSeconds == Duration.ParseDuration(rec.duration)
      && rec.customerName == rec.name
  {
    RowDateFound(row, cols);
  }

  /** The records of consecutive data rows, the first at position `first`:
      `data.map(processRow).filter(Boolean)`. */
  function ProcessRows(staff: Staff, cols: Columns, data: seq<Row>, first: nat): (r: seq<CallRecord>)
    ensures |r| <= |data|
    ensures forall i :: 0 <= i < |r| ==> IsStaffRecord(r[i], staff)
  {
    MapPresentHolds(data, first, RowResult(staff, cols), (rec: CallRecord) => IsStaffRecord(rec, staff));
    MapPresent(data, first, RowResult(staff, cols))
  }

  /** The result of `ProcessRow` for a row and its position. */
  function RowResult(staff: Staff, cols: Columns): (Row, nat) -> Option<CallRecord>
  {
    (row: Row, i: nat) => ProcessRow(staff, cols, row, i)
  }

  /** The records are exactly the records of the rows `ProcessRow` keeps, in
      sheet order, each numbered by its position among all data rows. */
  lemma ProcessRowsExact(staff: Staff, cols: Columns, data: seq<Row>, first: nat)
    ensures ProcessRows(staff, cols, data, first) == Present(Results(data, first, RowResult(staff, cols)))
  {
    MapPresentExact(data, first, RowResult(staff, cols));
  }

  /** No row that `ProcessRow` keeps is missing from the records. */
  lemma ProcessRowsComplete(staff: Staff, cols: Columns, data: seq<Row>, first: nat, j: nat)
    ensures j < |data| && ProcessRow(staff, cols, data[j], first + j).Some? ==>
      ProcessRow(staff, cols, data[j], first + j).value in ProcessRows(staff, cols, data, first)
  {
    if j < |data| {
      ProcessRowsExact(staff, cols, data, first);
      var s := Results(data, first, RowResult(staff, cols));
      assert s[j] in s;
    }
  }

  /** A record with a date, attributed to `staff`. */
  predicate IsStaffRecord(rec: CallRecord, staff: Staff)
  {
    rec.date != "" && rec.telecaller == staff.name && rec.role == staff.role
  }

  /** One staff member's records from the text the sheet fetch returned;
      `None` is a failed fetch. A failed fetch, a blank sheet and a sheet
      without a header row all give no records. */
  function StaffRecords(staff: Staff, response: Option<string>): (r: seq<CallRecord>)
    ensures response.None? ==> r == []
    ensures response.Some? && Trim(response.value) == "" ==> r == []
    ensures forall i :: 0 <= i < |r| ==> r[i].date != "" && r[i].telecaller == staff.name
  {
    match response
    case None => []
    case Some(text) =>
      if Trim(text) == "" then []
      else
        match LocateHeader(SheetRows(text), IsCallHeader)
        case None => []
        case Some(h) => ProcessRows(staff, MapColumns(h.headers), h.data, 0)
  }

  /** A sheet none of whose rows is a header row gives no records. */
  lemma NoHeaderNoRecords(staff: Staff, text: string)
    requires forall i :: 0 <= i < |SheetRows(text)| ==> !IsCallHeader(SheetRows(text)[i])
    ensures StaffRecords(staff, Some(text)) == []
  {
    LocateHeaderFirst(SheetRows(text), IsCallHeader);
  }

  /** Every staff member's records, in the order of the staff table; there is
      one fetch result per staff member. */
  function AllRecords(responses: seq<Option<string>>): (r: seq<CallRecord>)
    requires |responses| <= |StaffTable|
    ensures forall i :: 0 <= i < |r| ==> r[i].date != "" && r[i].telecaller in StaffNames()
    decreases |responses|
  {
    if responses == [] then []
    else
      var k := |responses| - 1;
      var r := AllRecords(responses[..k]) + StaffRecords(StaffTable[k], responses[k]);
      assert StaffTable[k].name == StaffNames()[k];
      r
  }
}

=== FILE: common.dfy ===
/** Generic building blocks shared by every dashboard: an optional value, the
    order-preserving `filter` of JavaScript arrays, counting, summing, and
    frequency tables (the `counts[key] = (counts[key] || 0) + 1` idiom). */
module Common {

  /** A value that may be missing: JavaScript's `undefined` for an absent cell,
      an unparseable date, a source that failed to load. */
  datatype Option<+T> = None | Some(value: T)

  /** `xs.filter(p)`: keeps the elements that satisfy `p`, in their original order. */
  function Filter<T(!new)>(xs: seq<T>, p: T -> bool): (r: seq<T>)
    ensures |r| <= |xs|
    ensures forall x :: x in r <==> x in xs && p(x)
    ensures forall i :: 0 <= i < |r| ==> p(r[i])
    decreases |xs|
  {
    if xs == [] then []
    else if p(xs[0]) then [xs[0]] + Filter(xs[1..], p)
    else Filter(xs[1..], p)
  }

  /** Filtering distributes over concatenation: the result is the in-order
      subsequence of the accepted elements. */
  lemma {:induction false} FilterAppend<T(!new)>(a: seq<T>, b: seq<T>, p: T -> bool)
    ensures Filter(a + b, p) == Filter(a, p) + Filter(b, p)
    decreases |a|
  {
    if a == [] {
      assert a + b == b;
    } else {
      assert (a + b)[1..] == a[1..] + b;
      FilterAppend(a[1..], b, p);
    }
  }

  /** Applying the same filter twice changes nothing. */
  lemma {:induction false} FilterIdempotent<T(!new)>(xs: seq<T>, p: T -> bool)
    ensures Filter(Filter(xs, p), p) == Filter(xs, p)
    decreases |xs|
  {
    if xs != [] {
      FilterIdempotent(xs[1..], p);
    }
  }

  /** A filter that admits everything returns its input unchanged. */
  lemma {:induction false} FilterAll<T(!new)>(xs: seq<T>, p: T -> bool)
    requires forall x :: x in xs ==> p(x)
    ensures Filter(xs, p) == xs
    decreases |xs|
  {
    if xs != [] {
      assert forall x :: x in xs[1..] ==> x in xs;
      FilterAll(xs[1..], p);
    }
  }

  /** Two filters that agree on every element select the same elements. */
  lemma {:induction false} FilterCongruent<T(!new)>(xs: seq<T>, p: T -> bool, q: T -> bool)
    requires forall x :: x in xs ==> p(x) == q(x)
    ensures Filter(xs, p) == Filter(xs, q)
    decreases |xs|
  {
    if xs != [] {
      assert forall x :: x in xs[1..] ==> x in xs;
      FilterCongruent(xs[1..], p, q);
    }
  }

  /** `a` is `b` with some elements left out, the rest in their order. */
  predicate SubsequenceOf<T(==)>(a: seq<T>, b: seq<T>)
    decreases |b|
  {
    if a == [] then true
    else if b == [] then false
    else (a[0] == b[0] && SubsequenceOf(a[1..], b[1..])) || SubsequenceOf(a, b[1..])
  }

  /** A filter keeps its elements in their original order. */
  lemma {:induction false} FilterSubsequence<T(!new)>(xs: seq<T>, p: T -> bool)
    ensures SubsequenceOf(Filter(xs, p), xs)
    decreases |xs|
  {
    if xs != [] {
      FilterSubsequence(xs[1..], p);
      if p(xs[0]) {
        assert Filter(xs, p)[1..] == Filter(xs[1..], p);
      }
    }
  }

  /** `xs.map((x, index) => f(x, n + index))`: each element with its
      position, counted from `n`. */
  function Numbered<T, U>(xs: seq<T>, n: nat, f: (T, nat) -> U): (r: seq<U>)
    ensures |r| == |xs|
    ensures forall i :: 0 <= i < |xs| ==> r[i] == f(xs[i], n + i)
  {
    seq(|xs|, i requires 0 <= i < |xs| => f(xs[i], n + i))
  }

  /** `xs.map((x, i) => f(x, n + i)).filter(Boolean)`: the present results
      of `f` on each element and its position, in order. */
  function MapPresent<T, U>(xs: seq<T>, n: nat, f: (T, nat) -> Option<U>): (r: seq<U>)
    ensures |r| <= |xs|
    decreases |xs|
  {
    if xs == [] then []
    else (if f(xs[0], n).Some? then [f(xs[0], n).value] else []) + MapPresent(xs[1..], n + 1, f)
  }

  /** The results of `f` on each element and its position. */
  function Results<T, U>(xs: seq<T>, n: nat, f: (T, nat) -> Option<U>): (r: seq<Option<U>>)
    ensures |r| == |xs|
    ensures forall j :: 0 <= j < |xs| ==> r[j] == f(xs[j], n + j)
  {
    seq(|xs|, j requires 0 <= j < |xs| => f(xs[j], n + j))
  }

  /** Mapping then dropping the absent results keeps exactly the present
      ones, in order. */
  lemma {:induction false} MapPresentExact<T, U(!new)>(xs: seq<T>, n: nat, f: (T, nat) -> Option<U>)
    ensures MapPresent(xs, n, f) == Present(Results(xs, n, f))
    decreases |xs|
  {
    if xs != [] {
      MapPresentExact(xs[1..], n + 1, f);
      var s := Results(xs, n, f);
      var t := Results(xs[1..], n + 1, f);
      forall j | 0 <= j < |t|
        ensures s[1..][j] == t[j]
      {
        assert xs[1..][j] == xs[j + 1];
        assert n + 1 + j == n + (j + 1);
      }
      assert s[1..] == t;
    }
  }

  /** A property every present result has holds of every kept value. */
  lemma {:induction false} MapPresentHolds<T, U>(xs: seq<T>, n: nat, f: (T, nat) -> Option<U>, p: U -> bool)
    requires forall x, i :: f(x, i).Some? ==> p(f(x, i).value)
    ensures forall k :: 0 <= k < |MapPresent(xs, n, f)| ==> p(MapPresent(xs, n, f)[k])
    decreases |xs|
  {
    if xs != [] {
      MapPresentHolds(xs[1..], n + 1, f, p);
    }
  }

  /** The values of the present options, in order. */
  function Present<T(!new)>(xs: seq<Option<T>>): (r: seq<T>)
    ensures |r| <= |xs|
    ensures forall x :: x in r <==> Some(x) in xs
    decreases |xs|
  {
    if xs == [] then []
    else
      assert forall o :: o in xs <==> o == xs[0] || o in xs[1..];
      (if xs[0].Some? then [xs[0].value] else []) + Present(xs[1..])
  }

  /** `xs.filter(p).length`. */
  function Count<T(!new)>(xs: seq<T>, p: T -> bool): (n: nat)
    ensures n <= |xs|
  {
    |Filter(xs, p)|
  }

  /** Counting along a concatenation adds up. */
  lemma CountAppend<T(!new)>(a: seq<T>, b: seq<T>, p: T -> bool)
    ensures Count(a + b, p) == Count(a, p) + Count(b, p)
  {
    FilterAppend(a, b, p);
  }

  /** One more element at the end counts once more exactly when it qualifies. */
  lemma CountSnoc<T(!new)>(xs: seq<T>, x: T, p: T -> bool)
    ensures Count(xs + [x], p) == Count(xs, p) + (if p(x) then 1 else 0)
  {
    CountAppend(xs, [x], p);
    assert Filter([x], p) == (if p(x) then [x] else []) by {
      assert [x][1..] == [];
    }
  }

  /** A predicate that implies another is counted at most as often. */
  lemma {:induction false} CountMonotone<T(!new)>(xs: seq<T>, p: T -> bool, q: T -> bool)
    requires forall x :: x in xs && p(x) ==> q(x)
    ensures Count(xs, p) <= Count(xs, q)
    decreases |xs|
  {
    if xs != [] {
      assert forall x :: x in xs[1..] ==> x in xs;
      CountMonotone(xs[1..], p, q);
    }
  }

  /** Two predicates that never hold together count no more than the elements. */
  lemma {:induction false} CountDisjoint<T(!new)>(xs: seq<T>, p: T -> bool, q: T -> bool)
    requires forall x :: x in xs ==> !(p(x) && q(x))
    ensures Count(xs, p) + Count(xs, q) <= |xs|
    decreases |xs|
  {
    if xs != [] {
      assert forall x :: x in xs[1..] ==> x in xs;
      CountDisjoint(xs[1..], p, q);
    }
  }

  /** A predicate and its negation split the elements exactly. */
  lemma {:induction false} CountComplement<T(!new)>(xs: seq<T>, p: T -> bool, q: T -> bool)
    requires forall x :: x in xs ==> (q(x) <==> !p(x))
    ensures Count(xs, p) + Count(xs, q) == |xs|
    decreases |xs|
  {
    if xs != [] {
      assert forall x :: x in xs[1..] ==> x in xs;
      CountComplement(xs[1..], p, q);
    }
  }

  /** The count of `p` equals the number of indices where `p` holds, expressed
      through the multiset of accepted elements. */
  lemma {:induction false} CountOfEqual<T(!new)>(xs: seq<T>, k: T)
    ensures Count(xs, x => x == k) == multiset(xs)[k]
    decreases |xs|
  {
    if xs != [] {
      assert xs == [xs[0]] + xs[1..];
      CountOfEqual(xs[1..], k);
    }
  }

  /** `xs.reduce((s, x) => s + f(x), 0)`. */
  function Sum<T>(xs: seq<T>, f: T -> int): int
    decreases |xs|
  {
    if xs == [] then 0 else f(xs[0]) + Sum(xs[1..], f)
  }

  /** Summing along a concatenation adds up. */
  lemma {:induction false} SumAppend<T>(a: seq<T>, b: seq<T>, f: T -> int)
    ensures Sum(a + b, f) == Sum(a, f) + Sum(b, f)
    decreases |a|
  {
    if a == [] {
      assert a + b == b;
    } else {
      assert (a + b)[1..] == a[1..] + b;
      SumAppend(a[1..], b, f);
    }
  }

  /** The sum of all values of a table of counts (the height of a bar chart). */
  ghost function MapSum<K>(m: map<K, nat>): nat
    decreases |m|
  {
    if m == map[] then 0
    else
      var k :| k in m;
      m[k] + MapSum(m - {k})
  }

  /** The sum does not depend on which key is taken out first. */
  lemma {:induction false} MapSumRemove<K>(m: map<K, nat>, k: K)
    requires k in m
    ensures MapSum(m) == m[k] + MapSum(m - {k})
    decreases |m|
  {
    var j :| j in m && MapSum(m) == m[j] + MapSum(m - {j});
    if j != k {
      var mj := m - {j};
      var mk := m - {k};
      assert |mj| < |m| && |mk| < |m|;
      MapSumRemove(mj, k);
      MapSumRemove(mk, j);
      assert mj - {k} == mk - {j};
    }
  }

  /** Overwriting one entry changes the sum by the difference of the two values. */
  lemma MapSumUpdate<K>(m: map<K, nat>, k: K, v: nat)
    ensures k in m ==> MapSum(m[k := v]) + m[k] == MapSum(m) + v
    ensures k !in m ==> MapSum(m[k := v]) == MapSum(m) + v
  {
    var m' := m[k := v];
    MapSumRemove(m', k);
    assert m' - {k} == m - {k};
    if k in m {
      MapSumRemove(m, k);
    } else {
      assert m - {k} == m;
    }
  }

  /** A table whose every entry is zero sums to zero. */
  lemma {:induction false} MapSumZero<K>(m: map<K, nat>)
    requires forall k :: k in m ==> m[k] == 0
    ensures MapSum(m) == 0
    decreases |m|
  {
    if m != map[] {
      var k :| k in m;
      MapSumRemove(m, k);
      MapSumZero(m - {k});
    }
  }

  /** One more occurrence of `k`: `m[k] = (m[k] || 0) + 1`. */
  function Bump<K(!new)>(m: map<K, nat>, k: K): (r: map<K, nat>)
    ensures r.Keys == m.Keys + {k}
    ensures r[k] == (if k in m then m[k] else 0) + 1
    ensures forall j :: j in m && j != k ==> r[j] == m[j]
  {
    m[k := if k in m then m[k] + 1 else 1]
  }

  /** The frequency table of `xs`, built left to right as the dashboards do. */
  function Tally<K(!new)>(xs: seq<K>): (r: map<K, nat>)
    ensures forall k :: k in r <==> k in xs
    ensures forall k :: k in r ==> r[k] == multiset(xs)[k]
    decreases |xs|
  {
    if xs == [] then map[]
    else
      var init := xs[..|xs| - 1];
      assert xs == init + [xs[|xs| - 1]];
      Bump(Tally(init), xs[|xs| - 1])
  }

  /** Every element is counted exactly once: the table sums to the length. */
  lemma {:induction false} TallyTotal<K(!new)>(xs: seq<K>)
    ensures MapSum(Tally(xs)) == |xs|
    decreases |xs|
  {
    if xs != [] {
      var init := xs[..|xs| - 1];
      var k := xs[|xs| - 1];
      TallyTotal(init);
      MapSumUpdate(Tally(init), k, if k in Tally(init) then Tally(init)[k] + 1 else 1);
    }
  }

  /** The distinct values `f` takes on the elements: `new Set(xs.map(f))`. */
  function Image<T, U(==,!new)>(xs: seq<T>, f: T -> U): (r: set<U>)
    ensures forall y :: y in r <==> exists i :: 0 <= i < |xs| && f(xs[i]) == y
  {
    set i | 0 <= i < |xs| :: f(xs[i])
  }

  /** There are no more distinct values than elements. */
  lemma {:induction false} ImageBound<T, U(!new)>(xs: seq<T>, f: T -> U)
    ensures |Image(xs, f)| <= |xs|
    decreases |xs|
  {
    if xs != [] {
      ImageBound(xs[1..], f);
      assert Image(xs, f) == Image(xs[1..], f) + {f(xs[0])} by {
        forall y | y in Image(xs, f)
          ensures y in Image(xs[1..], f) + {f(xs[0])}
        {
          var i :| 0 <= i < |xs| && f(xs[i]) == y;
          if i > 0 {
            assert f(xs[1..][i - 1]) == y;
          }
        }
        forall y | y in Image(xs[1..], f)
          ensures y in Image(xs, f)
        {
          var i :| 0 <= i < |xs[1..]| && f(xs[1..][i]) == y;
          assert f(xs[i + 1]) == y;
        }
      }
    }
  }

  /** `a` is the mean of `count` values adding up to `total`, or 0 when
      there are none. */
  predicate IsMean(a: real, total: int, count: nat)
  {
    (count == 0 ==> a == 0.0) && (count > 0 ==> a * count as real == total as real)
  }

  /** `count > 0 ? total / count : 0`. */
  function Average(total: int, count: nat): (a: real)
    ensures IsMean(a, total, count)
  {
    if count > 0 then total as real / count as real else 0.0
  }

  /** `whole > 0 ? (part / whole) * 100 : 0`: a percentage, between 0 and
      100 when the part is a part of the whole. */
  function Percent(part: nat, whole: nat): (r: real)
    ensures whole == 0 ==> r == 0.0
    ensures part <= whole ==> 0.0 <= r <= 100.0
    ensures whole > 0 ==> r * whole as real == part as real * 100.0
  {
    if whole > 0 then PercentBound(part, whole); (part as real / whole as real) * 100.0 else 0.0
  }

  lemma PercentBound(part: nat, whole: nat)
    requires whole > 0
    ensures part <= whole ==> 0.0 <= (part as real / whole as real) * 100.0 <= 100.0
    ensures (part as real / whole as real) * 100.0 * whole as real == part as real * 100.0
  {
    var q := part as real / whole as real;
    assert q * whole as real == part as real;
    if part <= whole {
      assert q <= 1.0;
    }
  }

  /** `Math.round`: the nearest integer, halves rounding up. */
  function Round(x: real): (n: int)
    ensures n as real <= x + 0.5 < n as real + 1.0
  {
    (x + 0.5).Floor
  }

  /** `r` is `100 * part / whole` rounded half up, computed exactly. */
  predicate IsHalfUpPercent(r: int, part: nat, whole: nat)
  {
    2 * r * whole <= 200 * part + whole < 2 * (r + 1) * whole
  }

  /** `r` is a nearest whole number to `100 * part / whole`: within one half
      of it, either way at an exact half. Both exact half-up rounding and
      `Math.round` of the double-precision quotient meet this. */
  predicate IsNearestPercent(r: int, part: nat, whole: nat)
  {
    whole * (2 * r - 1) <= 200 * part <= whole * (2 * r + 1)
  }

  lemma MulLe(a: real, b: real, c: real)
    requires a <= b && c > 0.0
    ensures a * c <= b * c
  {
  }

  lemma MulLt(a: real, b: real, c: real)
    requires a < b && c > 0.0
    ensures a * c < b * c
  {
  }

  lemma CastMul(a: int, b: int)
    ensures (a * b) as real == a as real * b as real
  {
  }

  /** Bounds around `x` scale by a positive factor. */
  lemma ScaleBounds(n: real, x: real, w: real, p: real)
    requires w > 0.0 && x * w == p
    requires n <= x + 0.5 < n + 1.0
    ensures n * w <= p + 0.5 * w < n * w + w
  {
    MulLe(n, x + 0.5, w);
    MulLt(x + 0.5, n + 1.0, w);
  }

  /** A value `x` with `x * whole == 100 * part`, rounded half up to `n`,
      makes `n` the half-up percentage. */
  lemma RoundedShare(x: real, n: int, part: nat, whole: nat)
    requires whole > 0
    requires x * whole as real == part as real * 100.0
    requires n as real <= x + 0.5 < n as real + 1.0
    ensures IsHalfUpPercent(n, part, whole)
  {
    ScaleBounds(n as real, x, whole as real, part as real * 100.0);
    CastMul(n, whole);
    var k := n * whole;
    assert 2 * k <= 200 * part + whole < 2 * k + 2 * whole;
    assert 2 * n * whole == 2 * k;
    assert 2 * (n + 1) * whole == 2 * k + 2 * whole;
  }

  /** A half-up percentage is a nearest one. */
  lemma HalfUpIsNearest(r: int, part: nat, whole: nat)
    requires IsHalfUpPercent(r, part, whole)
    ensures IsNearestPercent(r, part, whole)
  {
    assert whole * (2 * r - 1) == 2 * r * whole - whole;
    assert whole * (2 * r + 1) == 2 * (r + 1) * whole - whole;
  }

  /** `Math.round` of a percentage, taken on exact reals, is the half-up
      percentage and so a nearest whole percentage. */
  lemma RoundPercent(part: nat, whole: nat)
    requires whole > 0
    ensures IsHalfUpPercent(Round(Percent(part, whole)), part, whole)
    ensures IsNearestPercent(Round(Percent(part, whole)), part, whole)
  {
    RoundedShare(Percent(part, whole), Round(Percent(part, whole)), part, whole);
    HalfUpIsNearest(Round(Percent(part, whole)), part, whole);
  }

  /** Multiplying by a positive factor keeps the order. */
  lemma MulMonotone(a: int, b: int, w: int)
    requires a <= b && w > 0
    ensures w * a <= w * b
  {
    assert w * b - w * a == w * (b - a);
  }

  /** A nearest percentage of a part of the whole lies between 0 and 100. */
  lemma NearestPercentBounds(r: int, part: nat, whole: nat)
    requires whole > 0
    requires IsNearestPercent(r, part, whole)
    ensures 0 <= r
    ensures part <= whole ==> r <= 100
  {
    if r < 0 {
      MulMonotone(2 * r + 1, -1, whole);
      assert false;
    }
    if part <= whole && r > 100 {
      MulMonotone(201, 2 * r - 1, whole);
      assert false;
    }
  }
}

=== FILE: coordinator.dfy ===
/** The sales-coordinator dashboard: the visit filter of its visits tab and
    the month navigation of its calendar. The visits are the built-in sample
    data; the calendar month is counted from 0 (January) to 11 (December) as
    `Date.getMonth` does. */
module Coordinator {
  import opened Common
  import opened Text

  // ----------------------------------------------------------------- visits

  /** One site visit as the dashboard lists it. */
  datatype Visit = Visit(
    id: nat,
    customerName: string,
    project: string,
    status: string,
    date: string,
    time: string,
    phone: string,
    address: string,
    notes: string)

  /** The search box and the two drop-downs of the visits tab. */
  datatype VisitFilter = VisitFilter(search: string, status: string, project: string)

  /** The reset button: empty search, every status, every project. */
  const ResetVisitFilter: VisitFilter := VisitFilter("", "all", "all")

  /** Case-insensitive in the customer name and the project, exact in the
      phone; an empty query admits every visit. */
  predicate SearchMatches(v: Visit, q: string)
  {
    || q == ""
    || Contains(ToLower(v.customerName), ToLower(q))
    || Contains(ToLower(v.project), ToLower(q))
    || Contains(v.phone, q)
  }

  predicate VisitMatches(f: VisitFilter, v: Visit)
  {
    && SearchMatches(v, f.search)
    && (f.status == "all" || v.status == f.status)
    && (f.project == "all" || v.project == f.project)
  }

  /** `filteredVisits`: the visits that pass all three tests. */
  function FilteredVisits(visits: seq<Visit>, f: VisitFilter): (r: seq<Visit>)
    ensures |r| <= |visits|
    ensures forall v :: v in r <==>
      && v in visits
      && SearchMatches(v, f.search)
      && (f.status == "all" || v.status == f.status)
      && (f.project == "all" || v.project == f.project)
  {
    Filter(visits, (v: Visit) => VisitMatches(f, v))
  }

  /** The listed visits keep the order of the sample data. */
  lemma FilteredVisitsInOrder(visits: seq<Visit>, f: VisitFilter)
    ensures SubsequenceOf(FilteredVisits(visits, f), visits)
  {
    FilterSubsequence(visits, (v: Visit) => VisitMatches(f, v));
  }

  /** After a reset every visit is listed, in order. */
  lemma ResetShowsAllVisits(visits: seq<Visit>)
    ensures FilteredVisits(visits, ResetVisitFilter) == visits
  {
    FilterAll(visits, (v: Visit) => VisitMatches(ResetVisitFilter, v));
  }

  /** With an empty search, choosing a project lists exactly that project's
      visits, and choosing a status exactly the visits with that status. */
  lemma DropDownsSelect(visits: seq<Visit>, status: string, project: string)
    requires status != "all" && project != "all"
    ensures FilteredVisits(visits, VisitFilter("", "all", project)) == Filter(visits, (v: Visit) => v.project == project)
    ensures FilteredVisits(visits, VisitFilter("", status, "all")) == Filter(visits, (v: Visit) => v.status == status)
  {
    FilterCongruent(visits, (v: Visit) => VisitMatches(VisitFilter("", "all", project), v), (v: Visit) => v.project == project);
    FilterCongruent(visits, (v: Visit) => VisitMatches(VisitFilter("", status, "all"), v), (v: Visit) => v.status == status);
  }

  /** The name and project search ignores the case of what is typed: when
      no phone contains the query in either spelling, the query and its
      lower-cased form list the same visits. */
  lemma SearchIgnoresNameCase(visits: seq<Visit>, f: VisitFilter)
    requires f.search != "" && forall v :: v in visits ==> !Contains(v.phone, f.search) && !Contains(v.phone, ToLower(f.search))
    ensures FilteredVisits(visits, f) == FilteredVisits(visits, f.(search := ToLower(f.search)))
  {
    var g := f.(search := ToLower(f.search));
    ToLowerIdempotent(f.search);
    assert ToLower(g.search) == ToLower(f.search);
    assert g.search != "";
    FilterCongruent(visits, (v: Visit) => VisitMatches(f, v), (v: Visit) => VisitMatches(g, v));
  }

  // --------------------------------------------------------------- calendar

  /** The month shown by the calendar. */
  datatype CalendarMonth = CalendarMonth(month: int, year: int)

  /** A month index as `Date.getMonth` gives it. */
  predicate ValidMonth(c: CalendarMonth)
  {
    0 <= c.month <= 11
  }

  /** The months elapsed since January of year 0: an independent count that
      each navigation step moves by one. */
  function MonthNumber(c: CalendarMonth): int
  {
    c.year * 12 + c.month
  }

  /** The "previous" button: from January back to December of the year before. */
  function PrevMonth(c: CalendarMonth): (r: CalendarMonth)
    ensures ValidMonth(c) ==> ValidMonth(r) && MonthNumber(r) == MonthNumber(c) - 1
  {
    if c.month == 0 then CalendarMonth(11, c.year - 1) else CalendarMonth(c.month - 1, c.year)
  }

  /** The "next" button: from December on to January of the year after. */
  function NextMonth(c: CalendarMonth): (r: CalendarMonth)
    ensures ValidMonth(c) ==> ValidMonth(r) && MonthNumber(r) == MonthNumber(c) + 1
  {
    if c.month == 11 then CalendarMonth(0, c.year + 1) else CalendarMonth(c.month + 1, c.year)
  }

  /** Two valid months with the same number are the same month. */
  lemma MonthNumberInjective(a: CalendarMonth, b: CalendarMonth)
    requires ValidMonth(a) && ValidMonth(b) && MonthNumber(a) == MonthNumber(b)
    ensures a == b
  {
  }

  /** Next undoes previous and previous undoes next. */
  lemma NavigationRoundTrip(c: CalendarMonth)
    requires ValidMonth(c)
    ensures NextMonth(PrevMonth(c)) == c
    ensures PrevMonth(NextMonth(c)) == c
  {
    MonthNumberInjective(NextMonth(PrevMonth(c)), c);
    MonthNumberInjective(PrevMonth(NextMonth(c)), c);
  }

  /** `n` presses of "next". */
  function Forward(c: CalendarMonth, n: nat): CalendarMonth
    decreases n
  {
    if n == 0 then c else NextMonth(Forward(c, n - 1))
  }

  /** Each press of "next" moves the month number on by one. */
  lemma {:induction false} ForwardCount(c: CalendarMonth, n: nat)
    requires ValidMonth(c)
    ensures ValidMonth(Forward(c, n))
    ensures MonthNumber(Forward(c, n)) == MonthNumber(c) + n
    decreases n
  {
    if n > 0 {
      ForwardCount(c, n - 1);
    }
  }

  /** Twelve presses of "next" per year reach the same month that many
      years later. */
  lemma ForwardYears(c: CalendarMonth, k: nat)
    requires ValidMonth(c)
    ensures Forward(c, 12 * k) == CalendarMonth(c.month, c.year + k)
  {
    ForwardCount(c, 12 * k);
    MonthNumberInjective(Forward(c, 12 * k), CalendarMonth(c.month, c.year + k));
  }
}

=== FILE: duration.dfy ===
/** Call durations: reading the `"HHh MMm SSs"` text of the call-log sheets
    into seconds (`parseDuration`), and the clock renderings used on screen
    (`formatDuration`, `formatTotalDuration`, and the route dashboard's `M:SS`). */
module Duration {
  import opened Common
  import opened Text

  /** The length of the run of digits at the start of `s`. */
  function DigitRun(s: string): (n: nat)
    ensures n <= |s|
    ensures forall k :: 0 <= k < n ==> IsDigit(s[k])
    ensures n == |s| || !IsDigit(s[n])
  {
    if s != [] && IsDigit(s[0]) then 1 + DigitRun(s[1..]) else 0
  }

  /** The length of the run of white space (`\s`) at the start of `s`. */
  function SpaceRun(s: string): (n: nat)
    ensures n <= |s|
    ensures forall k :: 0 <= k < n ==> IsSpace(s[k])
    ensures n == |s| || !IsSpace(s[n])
  {
    if s != [] && IsSpace(s[0]) then 1 + SpaceRun(s[1..]) else 0
  }

  /** `(\d+)` followed by the letter `unit` at the start of `s`: the digits
      and the text after the letter. Greedy matching is exact here because
      the letter is not a digit, so backtracking can never succeed. */
  function Field(s: string, unit: char): (r: Option<(string, string)>)
    ensures r.Some? ==> IsDigits(r.value.0) && |r.value.1| < |s|
  {
    var n := DigitRun(s);
    if n > 0 && n < |s| && s[n] == unit then Some((s[..n], s[n + 1..])) else None
  }

  /** The regular expression `(\d+)h\s+(\d+)m\s+(\d+)s` anchored at the
      start of `s`, giving `h * 3600 + m * 60 + s` when it matches. */
  function MatchPrefix(s: string): Option<nat>
  {
    var hours := Field(s, 'h');
    if hours.None? then None
    else
      var r1 := hours.value.1;
      var sp := SpaceRun(r1);
      if sp == 0 then None
      else
        var minutes := Field(r1[sp..], 'm');
        if minutes.None? then None
        else
          var r2 := minutes.value.1;
          var sp' := SpaceRun(r2);
          if sp' == 0 then None
          else
            var secs := Field(r2[sp'..], 's');
            if secs.None? then None
            else Some(DigitsValue(hours.value.0) * 3600 + DigitsValue(minutes.value.0) * 60
              + DigitsValue(secs.value.0))
  }

  /** `String.prototype.match` without the global flag: the value read at
      the leftmost position where the expression matches. */
  function Search(s: string): Option<nat>
    decreases |s|
  {
    var here := MatchPrefix(s);
    if here.Some? then here
    else if s == [] then None
    else Search(s[1..])
  }

  /** `parseDuration`: seconds from the first `<h>h <m>m <s>s` in the text,
      and 0 for empty text or text without that pattern. */
  function ParseDuration(text: string): nat
  {
    if text == "" || text == "00h 00m 00s" then 0
    else
      match Search(text)
      case Some(v) => v
      case None => 0
  }

  /** The digit run of `d + tail` is all of `d` when `tail` does not go on
      with a digit. */
  lemma {:induction false} DigitRunExact(d: string, tail: string)
    requires forall k :: 0 <= k < |d| ==> IsDigit(d[k])
    requires tail == [] || !IsDigit(tail[0])
    ensures DigitRun(d + tail) == |d|
    decreases |d|
  {
    if d == [] {
      assert d + tail == tail;
    } else {
      assert (d + tail)[1..] == d[1..] + tail;
      DigitRunExact(d[1..], tail);
    }
  }

  /** A field written as digits `d` and the letter `unit` reads back, and
      matching goes on with the text after the letter. */
  lemma FieldOf(d: string, unit: char, tail: string)
    requires IsDigits(d) && !IsDigit(unit)
    ensures Field(d + [unit] + tail, unit) == Some((d, tail))
  {
    var s := d + [unit] + tail;
    assert s == d + ([unit] + tail);
    DigitRunExact(d, [unit] + tail);
    assert s[..|d|] == d;
    assert s[|d| + 1..] == tail;
  }

  /** A single blank before a digit is a white-space run of length one. */
  lemma OneSpace(tail: string)
    requires |tail| > 0 && IsDigit(tail[0])
    ensures SpaceRun(" " + tail) == 1
    ensures (" " + tail)[1..] == tail
  {
    assert (" " + tail)[1..] == tail;
    assert !IsSpace(tail[0]);
  }

  /** The layout `<h>h <m>m <s>s` of a sheet duration, followed by any text. */
  function SheetText(a: string, b: string, c: string, rest: string): string
  {
    a + "h " + b + "m " + c + "s" + rest
  }

  /** The text `<h>h <m>m <s>s...` regrouped so that each field starts a suffix. */
  lemma SheetLayout(a: string, b: string, c: string, rest: string)
    ensures SheetText(a, b, c, rest)
      == a + ['h'] + (" " + (b + ['m'] + (" " + (c + ['s'] + rest))))
  {
  }

  lemma MatchPrefixFields(a: string, b: string, c: string, rest: string)
    requires IsDigits(a) && IsDigits(b) && IsDigits(c)
    ensures MatchPrefix(a + ['h'] + (" " + (b + ['m'] + (" " + (c + ['s'] + rest)))))
      == Some(DigitsValue(a) * 3600 + DigitsValue(b) * 60 + DigitsValue(c))
  {
    var t3 := c + ['s'] + rest;
    var t2 := b + ['m'] + (" " + t3);
    FieldOf(a, 'h', " " + t2);
    OneSpace(t2);
    FieldOf(b, 'm', " " + t3);
    OneSpace(t3);
    FieldOf(c, 's', rest);
  }

  /** The expression matches at the start of `<h>h <m>m <s>s...` (digits
      `a`, `b`, `c`) and reads `h * 3600 + m * 60 + s`. */
  lemma MatchPrefixReads(a: string, b: string, c: string, rest: string)
    requires IsDigits(a) && IsDigits(b) && IsDigits(c)
    ensures MatchPrefix(SheetText(a, b, c, rest))
      == Some(DigitsValue(a) * 3600 + DigitsValue(b) * 60 + DigitsValue(c))
  {
    SheetLayout(a, b, c, rest);
    MatchPrefixFields(a, b, c, rest);
  }

  /** The all-zero sheet value, which `parseDuration` returns early for,
      is also what the expression would read as 0. */
  lemma MatchPrefixZero()
    ensures MatchPrefix("00h 00m 00s") == Some(0)
  {
    ZeroField();
    MatchPrefixReads("00", "00", "00", "");
    assert SheetText("00", "00", "00", "") == "00h 00m 00s" by {
      ZeroLayout();
    }
  }

  lemma ZeroField()
    ensures IsDigits("00") && DigitsValue("00") == 0
  {
  }

  lemma ZeroLayout()
    ensures "00" + "h " + "00" + "m " + "00" + "s" + "" == "00h 00m 00s"
  {
  }

  /** Where the expression matches at the very start, `parseDuration`
      returns what it reads. */
  lemma ParseDurationOfPrefix(s: string)
    ensures MatchPrefix(s).Some? ==> ParseDuration(s) == MatchPrefix(s).value
  {
    if s == "00h 00m 00s" {
      MatchPrefixZero();
    }
  }

  /** `parseDuration` needs the letter `h`: text without it, such as every
      `"MM:SS"` or `"HH:MM:SS"` form, reads as 0. */
  lemma ParseDurationNeedsH(text: string)
    requires 'h' !in text
    ensures ParseDuration(text) == 0
  {
    NoMatchWithoutH(text);
  }

  lemma {:induction false} NoMatchWithoutH(s: string)
    requires 'h' !in s
    ensures Search(s).None?
    decreases |s|
  {
    var n := DigitRun(s);
    if n < |s| {
      assert s[n] in s;
    }
    assert MatchPrefix(s).None?;
    if s != [] {
      assert forall x :: x in s[1..] ==> x in s;
      NoMatchWithoutH(s[1..]);
    }
  }

  /** The `"HHh MMm SSs"` rendering the call-log sheets use. */
  function HmsText(seconds: nat): string
  {
    SheetText(Pad2(NatToString(seconds / 3600)), Pad2(NatToString(seconds % 3600 / 60)),
      Pad2(NatToString(seconds % 60)), "")
  }

  /** Reading a sheet duration back gives the seconds it was written from. */
  lemma ParseHmsText(seconds: nat)
    ensures ParseDuration(HmsText(seconds)) == seconds
  {
    var a := Pad2(NatToString(seconds / 3600));
    var b := Pad2(NatToString(seconds % 3600 / 60));
    var c := Pad2(NatToString(seconds % 60));
    Pad2Value(seconds / 3600);
    Pad2Value(seconds % 3600 / 60);
    Pad2Value(seconds % 60);
    HmsArith(seconds);
    MatchPrefixReads(a, b, c, "");
    ParseDurationOfPrefix(HmsText(seconds));
  }


  /** Math.floor(a / b) for a positive divisor (Dafny's division is already
      the floor when the divisor is positive). */
  function FloorDiv(a: int, b: int): int
    requires b > 0
  {
    a / b
  }

  /** JavaScript's `a % b`, whose sign follows the dividend. */
  function JsRem(a: int, b: int): (r: int)
    requires b > 0
    ensures a >= 0 ==> 0 <= r < b
    ensures a < 0 ==> -b < r <= 0
  {
    if a >= 0 then a % b else -((-a) % b)
  }

  /** The values of a list of digit fields. */
  function FieldValues(parts: seq<string>): (r: seq<nat>)
    requires forall i :: 0 <= i < |parts| ==> IsDigits(parts[i])
    ensures |r| == |parts|
    ensures forall i :: 0 <= i < |parts| ==> IsDigits(parts[i]) && r[i] == DigitsValue(parts[i])
  {
    seq(|parts|, i requires 0 <= i < |parts| && IsDigits(parts[i]) => DigitsValue(parts[i]))
  }

  /** The numbers of a `"A:B"` or `"A:B:C"` clock text whose fields are all
      decimal digits; `None` otherwise. */
  function ClockFields(text: string): (r: Option<seq<nat>>)
    ensures r.Some? ==> |r.value| == |Split(text, ':')|
  {
    var f := Split(text, ':');
    if forall i :: 0 <= i < |f| ==> IsDigits(f[i]) then Some(FieldValues(f)) else None
  }

  /** The seconds a list of clock fields denotes, read in base 60. */
  function ClockValue(f: seq<nat>): nat
    decreases |f|
  {
    if f == [] then 0 else ClockValue(f[..|f| - 1]) * 60 + f[|f| - 1]
  }

  /** Clock fields, each zero-padded to two digits, joined with colons. */
  function ClockText(ns: seq<nat>): string
  {
    Join(seq(|ns|, i requires 0 <= i < |ns| => PadField(ns[i])), ':')
  }

  /** One clock field: at least two digits, zero-padded. */
  function PadField(n: nat): string
  {
    Pad2(NatToString(n))
  }

  lemma ClockTextTwo(m: nat, r: nat)
    ensures ClockText([m, r]) == PadField(m) + ":" + PadField(r)
  {
    var parts := seq(2, i requires 0 <= i < 2 => PadField([m, r][i]));
    assert parts == [PadField(m), PadField(r)];
    JoinTwo(PadField(m), PadField(r), ':');
  }

  lemma ClockTextThree(h: nat, m: nat, r: nat)
    ensures ClockText([h, m, r]) == PadField(h) + ":" + PadField(m) + ":" + PadField(r)
  {
    var parts := seq(3, i requires 0 <= i < 3 => PadField([h, m, r][i]));
    assert parts == [PadField(h), PadField(m), PadField(r)];
    JoinThree(PadField(h), PadField(m), PadField(r), ':');
  }

  /** A colon-joined text of digit fields reads back as the fields' values. */
  lemma ClockOfDigits(parts: seq<string>)
    requires |parts| >= 1
    requires forall i :: 0 <= i < |parts| ==> IsDigits(parts[i])
    ensures Split(Join(parts, ':'), ':') == parts
    ensures ClockFields(Join(parts, ':')) == Some(FieldValues(parts))
  {
    assert forall i :: 0 <= i < |parts| ==> ':' !in parts[i] by {
      forall i | 0 <= i < |parts|
        ensures ':' !in parts[i]
      {
        assert IsDigits(parts[i]);
        assert !IsDigit(':');
      }
    }
    SplitJoin(parts, ':');
  }

  /** A clock text built from zero-padded fields reads back as those fields. */
  lemma ClockOfPadded(ns: seq<nat>)
    requires |ns| >= 1
    ensures ClockFields(ClockText(ns)) == Some(ns)
  {
    var parts := seq(|ns|, i requires 0 <= i < |ns| => PadField(ns[i]));
    forall i | 0 <= i < |ns|
      ensures IsDigits(parts[i]) && DigitsValue(parts[i]) == ns[i]
    {
      Pad2Value(ns[i]);
    }
    ClockOfDigits(parts);
    assert FieldValues(parts) == ns;
  }

  /** Hours, minutes and seconds recombine to the count they were taken from. */
  lemma HmsArith(seconds: nat)
    ensures seconds / 3600 * 3600 + seconds % 3600 / 60 * 60 + seconds % 60 == seconds
    ensures seconds < 3600 ==> seconds / 60 * 60 + seconds % 60 == seconds
  {
    var q := seconds / 3600;
    var r := seconds % 3600;
    var k := q * 60 + r / 60;
    assert seconds == k * 60 + r % 60;
    Mod60(seconds, k, r % 60);
  }

  lemma Mod60(x: int, k: int, r: int)
    requires 0 <= r < 60 && x == k * 60 + r
    ensures x % 60 == r
  {
  }

  lemma ClockValueTwo(m: nat, r: nat)
    ensures ClockValue([m, r]) == m * 60 + r
  {
    assert [m, r][..1] == [m];
    assert [m][..0] == [];
    assert ClockValue([m]) == m;
  }

  lemma ClockValueThree(h: nat, m: nat, r: nat)
    ensures ClockValue([h, m, r]) == h * 3600 + m * 60 + r
  {
    assert [h, m, r][..2] == [h, m];
    ClockValueTwo(h, m);
  }

  /** The clock fields of a count of seconds: minutes and seconds below an
      hour, hours, minutes and seconds from an hour on. */
  function Hms(seconds: nat): (f: seq<nat>)
    ensures |f| == (if seconds < 3600 then 2 else 3)
  {
    if seconds < 3600 then [seconds / 60, seconds % 60]
    else [seconds / 3600, seconds % 3600 / 60, seconds % 60]
  }

  /** The fields read back in base 60 give the seconds; every field is under
      60 except the leading hours. */
  lemma HmsValue(seconds: nat)
    ensures ClockValue(Hms(seconds)) == seconds
    ensures forall i :: 0 <= i < |Hms(seconds)| && (i > 0 || seconds < 3600) ==> Hms(seconds)[i] < 60
  {
    var f := Hms(seconds);
    HmsArith(seconds);
    if seconds < 3600 {
      ClockValueTwo(f[0], f[1]);
    } else {
      ClockValueThree(f[0], f[1], f[2]);
    }
  }

  /** `formatDuration` of the call-analytics page: `MM:SS` below an hour,
      `HH:MM:SS` from an hour on, with JavaScript's floor division and
      remainder (there is no guard for negative input). */
  function FormatDuration(seconds: int): (r: string)
    ensures seconds == 0 ==> r == "00:00"
  {
    if seconds == 0 then "00:00"
    else
      var hours := FloorDiv(seconds, 3600);
      var minutes := FloorDiv(JsRem(seconds, 3600), 60);
      var rem := JsRem(seconds, 60);
      if hours > 0 then
        Pad2(IntToString(hours)) + ":" + Pad2(IntToString(minutes)) + ":" + Pad2(IntToString(rem))
      else
        Pad2(IntToString(minutes)) + ":" + Pad2(IntToString(rem))
  }

  /** For a count of seconds that is not negative, `formatDuration` prints
      exactly the padded clock fields (the early `"00:00"` included). */
  lemma FormatDurationIsClock(seconds: nat)
    ensures FormatDuration(seconds) == ClockText(Hms(seconds))
  {
    if seconds == 0 {
      ClockTextTwo(0, 0);
      assert PadField(0) == "00";
    } else if seconds < 3600 {
      FormatDurationShort(seconds);
      ClockTextTwo(seconds / 60, seconds % 60);
    } else {
      FormatDurationLong(seconds);
      ClockTextThree(seconds / 3600, seconds % 3600 / 60, seconds % 60);
    }
  }

  lemma FormatDurationShort(seconds: nat)
    requires 0 < seconds < 3600
    ensures FormatDuration(seconds) == PadField(seconds / 60) + ":" + PadField(seconds % 60)
  {
    assert FloorDiv(seconds, 3600) == 0;
    assert FloorDiv(JsRem(seconds, 3600), 60) == seconds / 60;
    assert JsRem(seconds, 60) == seconds % 60;
  }

  lemma FormatDurationLong(seconds: nat)
    requires seconds >= 3600
    ensures FormatDuration(seconds) == PadField(seconds / 3600) + ":" + PadField(seconds % 3600 / 60) + ":" + PadField(seconds % 60)
  {
    var h := seconds / 3600;
    var m := seconds % 3600 / 60;
    var r := seconds % 60;
    assert h >= 1 by {
      assert seconds == h * 3600 + seconds % 3600;
    }
    assert FloorDiv(seconds, 3600) == h;
    assert FloorDiv(JsRem(seconds, 3600), 60) == m;
    assert JsRem(seconds, 60) == r;
    assert IntToString(h) == NatToString(h);
    assert IntToString(m) == NatToString(m);
    assert IntToString(r) == NatToString(r);
  }

  /** Every rendering of a count of seconds that is not negative is a clock
      text: two fields below an hour and three from an hour on, every field
      after the first (and the first too, below an hour) under 60, and the
      fields read in base 60 give back the seconds. */
  lemma FormatDurationReadsBack(seconds: nat)
    ensures ClockFields(FormatDuration(seconds)) == Some(Hms(seconds))
    ensures |Hms(seconds)| == (if seconds < 3600 then 2 else 3)
    ensures ClockValue(Hms(seconds)) == seconds
    ensures forall i :: 0 <= i < |Hms(seconds)| && (i > 0 || seconds < 3600) ==> Hms(seconds)[i] < 60
  {
    FormatDurationIsClock(seconds);
    ClockOfPadded(Hms(seconds));
    HmsValue(seconds);
  }

  /** `formatTotalDuration`: always `HH:MM:SS`. */
  function FormatTotalDuration(seconds: int): string
  {
    var hours := FloorDiv(seconds, 3600);
    var minutes := FloorDiv(JsRem(seconds, 3600), 60);
    var rem := JsRem(seconds, 60);
    Pad2(IntToString(hours)) + ":" + Pad2(IntToString(minutes)) + ":" + Pad2(IntToString(rem))
  }

  /** For a count of seconds that is not negative, the total is always the
      three padded fields hours, minutes and seconds. */
  lemma FormatTotalDurationIsClock(seconds: nat)
    ensures FormatTotalDuration(seconds) == ClockText([seconds / 3600, seconds % 3600 / 60, seconds % 60])
  {
    ClockTextThree(seconds / 3600, seconds % 3600 / 60, seconds % 60);
  }


  /** The total reads back as three fields, minutes and seconds under 60,
      whose base-60 value is the seconds. */
  lemma FormatTotalDurationReadsBack(seconds: nat)
    ensures ClockFields(FormatTotalDuration(seconds)) == Some([seconds / 3600, seconds % 3600 / 60, seconds % 60])
    ensures ClockValue([seconds / 3600, seconds % 3600 / 60, seconds % 60]) == seconds
  {
    var f := [seconds / 3600, seconds % 3600 / 60, seconds % 60];
    FormatTotalDurationIsClock(seconds);
    ClockOfPadded(f);
    HmsArith(seconds);
    ClockValueThree(f[0], f[1], f[2]);
  }

  /** The route dashboard's `formatDuration`: unpadded minutes, a colon, and
      the seconds padded to two digits. */
  function FormatMinSec(seconds: int): string
  {
    var minutes := FloorDiv(seconds, 60);
    var rem := JsRem(seconds, 60);
    IntToString(minutes) + ":" + (if rem < 10 then "0" else "") + IntToString(rem)
  }

  /** For a count of seconds that is not negative, the minutes print
      unpadded and the seconds padded to two digits. */
  lemma FormatMinSecIsText(seconds: nat)
    ensures FormatMinSec(seconds) == NatToString(seconds / 60) + ":" + Pad2(NatToString(seconds % 60))
  {
    var rem := seconds % 60;
    if rem < 10 {
      assert Pad2(NatToString(rem)) == "0" + NatToString(rem);
    }
  }

  /** Two fields, the seconds exactly two digits and under 60, reading back
      as `minutes * 60 + seconds`. */
  lemma FormatMinSecReadsBack(seconds: nat)
    ensures ClockFields(FormatMinSec(seconds)) == Some([seconds / 60, seconds % 60])
    ensures ClockValue([seconds / 60, seconds % 60]) == seconds
    ensures |Split(FormatMinSec(seconds), ':')[1]| == 2
  {
    var a := NatToString(seconds / 60);
    var b := Pad2(NatToString(seconds % 60));
    Pad2Value(seconds % 60);
    FormatMinSecIsText(seconds);
    JoinTwo(a, b, ':');
    ClockOfDigits([a, b]);
    assert FieldValues([a, b]) == [seconds / 60, seconds % 60];
    assert Split(FormatMinSec(seconds), ':') == [a, b];
    ClockValueTwo(seconds / 60, seconds % 60);
  }

  /** `formatDuration` has no guard for a negative count: it renders minus
      signs instead of `"00:00"`. */
  lemma FormatDurationNegative()
    ensures FormatDuration(-5) != "00:00"
  {
    var r := FormatDuration(-5);
    assert JsRem(-5, 60) == -5;
    assert r[|r| - 2] == '-';
  }
}

=== FILE: home.dfy ===
/** The home dashboard: the three lead sheets are read, each with a loose
    header test and a phone column, and the rows with a plausible phone
    number are summarised into distinct leads, converted deals, scheduled
    and completed visits, leads by source and by project, and the five
    newest recent leads. Fetching is a parameter: each sheet arrives as its
    text or not at all. Dates are read by two oracles, `parse` for
    `new Date(text)` and `calendar` for `new Date(year, month - 1, day)`,
    both giving milliseconds or `None` for an invalid date. */
module Home {
  import opened Common
  import opened Text
  import opened Table
  import opened Sorting

  // ------------------------------------------------------------- sources

  /** The header test: some non-empty cell mentions a date, a name or a
      number. */
  predicate IsHomeHeader(row: Row)
  {
    exists i :: 0 <= i < |row| && row[i] != "" &&
      (Contains(row[i], "DATE/TIME") || Contains(row[i], "DATE") || Contains(row[i], "NAME") || Contains(row[i], "NUMBER"))
  }

  /** A sheet with its trimmed header and the rows under it. */
  datatype LeadSource = LeadSource(headers: Row, data: seq<Row>)

  /** One sheet's text: `None` when no row passes the header test, and the
      sheet is skipped. */
  function LoadSource(text: string): Option<LeadSource>
  {
    match LocateHeader(CommaRows(text), IsHomeHeader)
    case None => None
    case Some(h) => Some(LeadSource(h.headers, h.data))
  }

  lemma LoadSourceSkipped(text: string)
    ensures var rows := CommaRows(text);
      LoadSource(text).None? <==> forall i :: 0 <= i < |rows| ==> !IsHomeHeader(rows[i])
  {
    LocateHeaderFirst(CommaRows(text), IsHomeHeader);
  }

  /** The sheets that arrived and have a header, in source order. */
  function LoadSources(results: seq<Option<string>>): (r: seq<LeadSource>)
    ensures |r| <= |results|
    decreases |results|
  {
    if results == [] then []
    else
      var rest := LoadSources(results[1..]);
      match results[0]
      case None => rest
      case Some(text) =>
        match LoadSource(text)
        case None => rest
        case Some(s) => [s] + rest
  }

  // ------------------------------------------------------------- columns

  datatype HomeColumns = HomeColumns(
    phone: int, status: int, visitDate: int, visitStatus: int,
    source: int, project: int, date: int, name: int)

  /** The header words of the phone column. */
  const PhoneKeys: seq<string> := ["NUMBER", "PHONE", "MOBILE"]

  /** The header words of each column, in the order of `HomeColumns`. */
  const ColumnKeys: seq<seq<string>> := [
    PhoneKeys,
    ["STATUS"],
    ["VISIT DATE", "1ST VISIT DATE"],
    ["VISIT STATUS", "1ST VISIT STATUS", "VISIT DONE"],
    ["SOURCE", "GOOGLE", "FACEBOOK", "INSTAGRAM"],
    ["PROJECT", "VIRAT GREENS", "VIRAT CROWN"],
    ["DATE/TIME", "DATE"],
    ["NAME"]]

  function HomeColumnsOf(headers: Row): HomeColumns
  {
    var x := seq(|ColumnKeys|, i requires 0 <= i < |ColumnKeys| => ColumnWith(headers, ColumnKeys[i]));
    HomeColumns(x[0], x[1], x[2], x[3], x[4], x[5], x[6], x[7])
  }

  /** The phone column is the first header mentioning a number, a phone or a
      mobile. */
  lemma PhoneColumn(headers: Row)
    ensures HomeColumnsOf(headers).phone == ColumnWith(headers, PhoneKeys)
    ensures var k := HomeColumnsOf(headers).phone;
      && -1 <= k < |headers|
      && (k == -1 <==> forall i, j :: 0 <= i < |headers| && 0 <= j < |PhoneKeys| ==> !Contains(headers[i], PhoneKeys[j]))
      && (k >= 0 ==> exists j :: 0 <= j < |PhoneKeys| && Contains(headers[k], PhoneKeys[j]))
      && (k >= 0 ==> forall i, j :: 0 <= i < k && 0 <= j < |PhoneKeys| ==> !Contains(headers[i], PhoneKeys[j]))
  {
  }

  // ---------------------------------------------------------- lead rows

  /** A phone worth counting: non-empty and at least ten characters. */
  predicate IsLeadPhone(p: string)
  {
    p != "" && |p| >= 10
  }

  /** A row contributes when its trimmed phone cell is a lead phone. */
  predicate Contributes(c: HomeColumns, row: Row)
  {
    0 <= c.phone < |row| && IsLeadPhone(Trim(row[c.phone]))
  }

  /** A contributing row with the columns of its sheet. */
  datatype LeadRow = LeadRow(cols: HomeColumns, row: Row)

  function Phone(r: LeadRow): string
  {
    if 0 <= r.cols.phone < |r.row| then Trim(r.row[r.cols.phone]) else ""
  }

  /** The contributing rows of a sheet, each with the sheet's columns, in
      sheet order: exactly the rows that pass `Contributes`. */
  function RowsOf(c: HomeColumns, data: seq<Row>): (r: seq<LeadRow>)
    ensures |r| <= |data|
    ensures forall i :: 0 <= i < |r| ==> r[i].cols == c && Contributes(c, r[i].row) && r[i].row in data
    ensures |r| == |Filter(data, (row: Row) => Contributes(c, row))|
    ensures forall i :: 0 <= i < |r| ==> r[i] == LeadRow(c, Filter(data, (row: Row) => Contributes(c, row))[i])
    decreases |data|
  {
    if data == [] then []
    else (if Contributes(c, data[0]) then [LeadRow(c, data[0])] else []) + RowsOf(c, data[1..])
  }

  /** The contributing rows of one sheet; a sheet without a phone column
      contributes nothing. */
  function SourceRows(s: LeadSource): seq<LeadRow>
  {
    var c := HomeColumnsOf(s.headers);
    if c.phone == -1 then [] else RowsOf(c, s.data)
  }

  function AllRows(sources: seq<LeadSource>): seq<LeadRow>
    decreases |sources|
  {
    if sources == [] then [] else SourceRows(sources[0]) + AllRows(sources[1..])
  }

  lemma SourceRowsContribute(s: LeadSource)
    ensures forall r :: r in SourceRows(s) ==> Contributes(r.cols, r.row)
  {
    var c := HomeColumnsOf(s.headers);
    if c.phone != -1 {
      var rs := RowsOf(c, s.data);
      forall r | r in rs
        ensures Contributes(r.cols, r.row)
      {
        var i :| 0 <= i < |rs| && rs[i] == r;
      }
    }
  }

  /** Every counted row has a phone of at least ten characters. */
  lemma {:induction false} AllRowsHavePhones(sources: seq<LeadSource>)
    ensures forall r :: r in AllRows(sources) ==> IsLeadPhone(Phone(r))
    decreases |sources|
  {
    if sources != [] {
      AllRowsHavePhones(sources[1..]);
      SourceRowsContribute(sources[0]);
      assert AllRows(sources) == SourceRows(sources[0]) + AllRows(sources[1..]);
    }
  }

  /** A sheet none of whose headers mentions a number, a phone or a mobile
      contributes no rows. */
  lemma NoPhoneColumnNoRows(s: LeadSource)
    requires forall i, j :: 0 <= i < |s.headers| && 0 <= j < |PhoneKeys| ==> !Contains(s.headers[i], PhoneKeys[j])
    ensures SourceRows(s) == []
  {
    PhoneColumn(s.headers);
  }

  // ------------------------------------------------------------ counters

  predicate IsConvertedDeal(r: LeadRow)
  {
    var i := r.cols.status;
    0 <= i < |r.row| && r.row[i] != "" &&
      (var st := ToUpper(Trim(r.row[i])); st == "DEAL DONE" || st == "CONVERTED" || st == "CLOSED")
  }

  predicate HasVisitDate(r: LeadRow)
  {
    var i := r.cols.visitDate;
    0 <= i < |r.row| && Trim(r.row[i]) != ""
  }

  /** A completed visit is only looked for on a row with a visit date. */
  predicate VisitCompleted(r: LeadRow)
  {
    var i := r.cols.visitStatus;
    HasVisitDate(r) && 0 <= i < |r.row| && r.row[i] != "" &&
      (var v := ToLower(Trim(r.row[i])); v == "done" || v == "visited" || v == "yes" || v == "completed")
  }

  /** The non-empty trimmed cells of one column of each row. */
  function FieldValues(rs: seq<LeadRow>, col: HomeColumns -> int): (r: seq<string>)
    ensures |r| <= |rs|
    ensures forall v :: v in r ==> v != ""
    decreases |rs|
  {
    if rs == [] then []
    else
      var v := Trimmed(rs[0].row, col(rs[0].cols));
      (if v != "" then [v] else []) + FieldValues(rs[1..], col)
  }

  /** The trimmed cell of one column of a counted row is `v`. */
  predicate CellIs(r: LeadRow, col: HomeColumns -> int, v: string)
  {
    Trimmed(r.row, col(r.cols)) == v
  }

  /** A non-empty value occurs among the field values once per counted row
      whose trimmed cell is that value. */
  lemma {:induction false} FieldValuesCount(rs: seq<LeadRow>, col: HomeColumns -> int, v: string)
    ensures v != "" ==> multiset(FieldValues(rs, col))[v] == Count(rs, (r: LeadRow) => CellIs(r, col, v))
    decreases |rs|
  {
    if rs != [] {
      FieldValuesCount(rs[1..], col, v);
    }
  }

  /** The distinct phones of the counted rows. */
  function Phones(rs: seq<LeadRow>): (r: set<string>)
    ensures forall p :: p in r <==> exists i :: 0 <= i < |rs| && Phone(rs[i]) == p
  {
    Image(rs, Phone)
  }

  /** The recent-leads entry of a row. */
  datatype RecentLead = RecentLead(date: string, name: string, contact: string, status: string)

  /** How a lead's date text is read: day-first when it has three slash
      parts, unreadable with any other number of slash parts, and by the
      general parser otherwise. */
  datatype DateReading = DayMonthYear(day: string, month: string, year: string) | Unreadable | Text(text: string)

  function ReadLeadDate(dateStr: string): DateReading
  {
    if '/' in dateStr then
      var parts := Split(dateStr, '/');
      if |parts| == 3 then DayMonthYear(parts[0], parts[1], parts[2]) else Unreadable
    else Text(dateStr)
  }

  /** Three slash-separated parts are read as day, month and year. */
  lemma ReadLeadDateDayFirst(d: string, m: string, y: string)
    requires '/' !in d && '/' !in m && '/' !in y
    ensures ReadLeadDate(d + "/" + m + "/" + y) == DayMonthYear(d, m, y)
  {
    var s := d + "/" + m + "/" + y;
    JoinThree(d, m, y, '/');
    SplitJoin([d, m, y], '/');
    assert s[|d|] == '/';
  }

  /** The instant of a date reading; `new Date(year, month - 1, day)` for a
      slash date. */
  function LeadInstant(r: DateReading, parse: string -> Option<int>,
                       calendar: (string, string, string) -> Option<int>): Option<int>
  {
    match r
    case DayMonthYear(d, m, y) => calendar(y, m, d)
    case Unreadable => None
    case Text(t) => parse(t)
  }

  const DayMillis: int := 86400000

  /** The recent-leads entry of a row whose date is readable and less than
      seven whole days before `now`. */
  function RecentEntry(r: LeadRow, now: int, parse: string -> Option<int>,
                       calendar: (string, string, string) -> Option<int>): Option<RecentLead>
  {
    var c := r.cols;
    var row := r.row;
    if c.date >= 0 && c.name >= 0 && |row| > c.date && |row| > c.name && row[c.date] != "" then
      var t := LeadInstant(ReadLeadDate(Trim(row[c.date])), parse, calendar);
      if t.Some? && (now - t.value) / DayMillis < 7 then
        Some(RecentLead(
          row[c.date],
          if row[c.name] != "" then row[c.name] else "Unknown",
          Phone(r),
          if 0 <= c.status < |row| && row[c.status] != "" then row[c.status] else "New"))
      else None
    else None
  }

  function RecentEntries(rs: seq<LeadRow>, now: int, parse: string -> Option<int>,
                         calendar: (string, string, string) -> Option<int>): (r: seq<RecentLead>)
    ensures |r| <= |rs|
    decreases |rs|
  {
    if rs == [] then []
    else
      var e := RecentEntry(rs[0], now, parse, calendar);
      (if e.Some? then [e.value] else []) + RecentEntries(rs[1..], now, parse, calendar)
  }

  /** The sort comparator `new Date(b.date) - new Date(a.date)`: newer
      first; an invalid date makes the answer `NaN`, which the sort reads as
      "equal". With such a date the comparator is not consistent, so the
      page's order is engine-defined; the model gives one possible order. */
  function NewerFirst(parse: string -> Option<int>): (RecentLead, RecentLead) -> bool
  {
    (a: RecentLead, b: RecentLead) =>
      parse(a.date).Some? && parse(b.date).Some? && parse(a.date).value > parse(b.date).value
  }

  /** What the dashboard shows. */
  datatype HomeSummary = HomeSummary(
    totalLeads: nat,
    convertedDeals: nat,
    scheduledVisits: nat,
    completedVisits: nat,
    leadsBySource: map<string, nat>,
    leadsByProject: map<string, nat>,
    recentLeads: seq<RecentLead>)

  function Summarise(rs: seq<LeadRow>, now: int, parse: string -> Option<int>,
                     calendar: (string, string, string) -> Option<int>): HomeSummary
  {
    HomeSummary(
      |Phones(rs)|,
      Count(rs, IsConvertedDeal),
      Count(rs, HasVisitDate),
      Count(rs, VisitCompleted),
      Tally(FieldValues(rs, (c: HomeColumns) => c.source)),
      Tally(FieldValues(rs, (c: HomeColumns) => c.project)),
      Take(SortBy(RecentEntries(rs, now, parse, calendar), NewerFirst(parse)), 5))
  }

  // -------------------------------------------------------- the dashboard

  datatype HomeResult = HomeError(message: string) | HomeLoaded(summary: HomeSummary)

  const AllFailed: string :=
    "Failed to load dashboard data: Failed to fetch data from all sources. Please check your internet connection or data source URLs."
  const NoValidData: string :=
    "Failed to load dashboard data: No valid data could be retrieved from any source. Please check the data format."

  /** `fetchDashboardData` once the fetches have settled. */
  function FetchDashboard(results: seq<Option<string>>, now: int, parse: string -> Option<int>,
                          calendar: (string, string, string) -> Option<int>): HomeResult
  {
    if forall i :: 0 <= i < |results| ==> results[i].None? then HomeError(AllFailed)
    else
      var sources := LoadSources(results);
      if sources == [] then HomeError(NoValidData)
      else HomeLoaded(Summarise(AllRows(sources), now, parse, calendar))
  }

  /** Every sheet arrived without a header exactly when no sheet is loaded. */
  lemma {:induction false} LoadSourcesEmpty(results: seq<Option<string>>)
    ensures LoadSources(results) == [] <==>
      forall i :: 0 <= i < |results| ==> results[i].None? || LoadSource(results[i].value).None?
    decreases |results|
  {
    if results != [] {
      LoadSourcesEmpty(results[1..]);
      assert forall i :: 1 <= i < |results| ==> results[i] == results[1..][i - 1];
    }
  }

  /** The dashboard shows an error, never a partial summary, when every
      fetch failed or no sheet that arrived has a header row. */
  lemma FetchDashboardError(results: seq<Option<string>>, now: int, parse: string -> Option<int>,
                            calendar: (string, string, string) -> Option<int>)
    ensures FetchDashboard(results, now, parse, calendar).HomeError? <==>
      forall i :: 0 <= i < |results| ==> results[i].None? || LoadSource(results[i].value).None?
    ensures (forall i :: 0 <= i < |results| ==> results[i].None?) ==>
      FetchDashboard(results, now, parse, calendar) == HomeError(AllFailed)
  {
    LoadSourcesEmpty(results);
  }

  // ------------------------------------------------------------ properties

  /** The counters of the summary: distinct phones at most the counted rows,
      completed visits among the scheduled ones, converted deals at most the
      counted rows. */
  lemma SummaryCounts(rs: seq<LeadRow>, now: int, parse: string -> Option<int>,
                      calendar: (string, string, string) -> Option<int>)
    ensures var s := Summarise(rs, now, parse, calendar);
      && s.totalLeads <= |rs|
      && s.completedVisits <= s.scheduledVisits
      && s.convertedDeals <= |rs|
  {
    ImageBound(rs, Phone);
    CountMonotone(rs, VisitCompleted, HasVisitDate);
  }

  /** The source and project charts count only non-empty values of counted
      rows, so each sums to at most the number of counted rows. */
  lemma SummaryTables(rs: seq<LeadRow>, now: int, parse: string -> Option<int>,
                      calendar: (string, string, string) -> Option<int>)
    ensures var s := Summarise(rs, now, parse, calendar);
      && MapSum(s.leadsBySource) <= |rs|
      && MapSum(s.leadsByProject) <= |rs|
      && "" !in s.leadsBySource && "" !in s.leadsByProject
  {
    TallyTotal(FieldValues(rs, (c: HomeColumns) => c.source));
    TallyTotal(FieldValues(rs, (c: HomeColumns) => c.project));
  }

  /** Each chart counts its rows: a non-empty source (project) is on the
      chart exactly when some counted row names it, and then counts the
      counted rows naming it. */
  lemma SummaryChartCounts(rs: seq<LeadRow>, now: int, parse: string -> Option<int>,
                           calendar: (string, string, string) -> Option<int>, v: string)
    ensures var s := Summarise(rs, now, parse, calendar);
      var bySource := Count(rs, (r: LeadRow) => CellIs(r, (c: HomeColumns) => c.source, v));
      var byProject := Count(rs, (r: LeadRow) => CellIs(r, (c: HomeColumns) => c.project, v));
      v != "" ==>
      && (v in s.leadsBySource <==> bySource > 0)
      && (v in s.leadsBySource ==> s.leadsBySource[v] == bySource)
      && (v in s.leadsByProject <==> byProject > 0)
      && (v in s.leadsByProject ==> s.leadsByProject[v] == byProject)
  {
    var src := FieldValues(rs, (c: HomeColumns) => c.source);
    var prj := FieldValues(rs, (c: HomeColumns) => c.project);
    FieldValuesCount(rs, (c: HomeColumns) => c.source, v);
    FieldValuesCount(rs, (c: HomeColumns) => c.project, v);
    assert v in src <==> multiset(src)[v] > 0;
    assert v in prj <==> multiset(prj)[v] > 0;
  }

  /** The recent-leads entries are exactly the entries of the rows dated
      less than seven whole days before `now`. */
  lemma {:induction false} RecentEntriesRecent(rs: seq<LeadRow>, now: int, parse: string -> Option<int>,
                                               calendar: (string, string, string) -> Option<int>)
    ensures forall e :: e in RecentEntries(rs, now, parse, calendar) ==>
      exists i :: 0 <= i < |rs| && RecentEntry(rs[i], now, parse, calendar) == Some(e)
    ensures forall i :: 0 <= i < |rs| && RecentEntry(rs[i], now, parse, calendar).Some? ==>
      RecentEntry(rs[i], now, parse, calendar).value in RecentEntries(rs, now, parse, calendar)
    decreases |rs|
  {
    if rs != [] {
      RecentEntriesRecent(rs[1..], now, parse, calendar);
      forall i | 0 <= i < |rs| && RecentEntry(rs[i], now, parse, calendar).Some?
        ensures RecentEntry(rs[i], now, parse, calendar).value in RecentEntries(rs, now, parse, calendar)
      {
        if i > 0 {
          assert rs[1..][i - 1] == rs[i];
        }
      }
      forall e | e in RecentEntries(rs, now, parse, calendar)
        ensures exists i :: 0 <= i < |rs| && RecentEntry(rs[i], now, parse, calendar) == Some(e)
      {
        if e !in RecentEntries(rs[1..], now, parse, calendar) {
          assert RecentEntry(rs[0], now, parse, calendar) == Some(e);
        } else {
          var i :| 0 <= i < |rs[1..]| && RecentEntry(rs[1..][i], now, parse, calendar) == Some(e);
          assert rs[1..][i] == rs[i + 1];
        }
      }
    }
  }

  /** The recent leads: at most five, the newest of the recent entries
      first, each one an entry of a recent row. */
  lemma RecentLeadsShown(rs: seq<LeadRow>, now: int, parse: string -> Option<int>,
                         calendar: (string, string, string) -> Option<int>)
    ensures var shown := Summarise(rs, now, parse, calendar).recentLeads;
      && |shown| == (if |RecentEntries(rs, now, parse, calendar)| < 5
                     then |RecentEntries(rs, now, parse, calendar)| else 5)
      && Ordered(shown, NewerFirst(parse))
      && forall e :: e in shown ==> e in RecentEntries(rs, now, parse, calendar)
  {
    var entries := RecentEntries(rs, now, parse, calendar);
    var sorted := SortBy(entries, NewerFirst(parse));
    assert Asymmetric(NewerFirst(parse));
    SortByOrdered(entries, NewerFirst(parse));
    var shown := Take(sorted, 5);
    forall e | e in shown
      ensures e in entries
    {
      var i :| 0 <= i < |shown| && shown[i] == e;
      assert e in multiset(sorted);
    }
  }
}

=== FILE: route_calls.dfy ===
/** The route-level call dashboard: its filter (date range through the end of
    the end day, telecaller with `all` as the wildcard, a lower-cased search
    in the phone number or the customer name), its headline metrics, the
    duration ranges of its chart, and its filter reset. Dates are read by an
    oracle giving the instant in milliseconds, `None` for an invalid date. */
module RouteCalls {
  import opened Common
  import opened Text

  /** One call as the dashboard holds it; types and statuses are lower case
      and the duration is in seconds. */
  datatype Call = Call(
    date: string,
    telecaller: string,
    phoneNumber: string,
    customerName: string,
    callType: string,
    status: string,
    duration: int)

  /** The filter state: the date range, the telecaller and the search box. */
  datatype RouteFilter = RouteFilter(start: string, end: string, telecaller: string, search: string)

  const DayMillis: int := 86400000

  /** `endDate.setHours(23, 59, 59)`: the end moves to the last second of
      its day. */
  const EndOfDayMillis: int := 86399000

  predicate InRange(instantOf: string -> Option<int>, date: string, start: string, end: string)
  {
    var d := instantOf(date);
    var s := instantOf(start);
    var e := instantOf(end);
    d.Some? && s.Some? && e.Some? && s.value <= d.value <= e.value + EndOfDayMillis
  }

  /** The search term (already lower-cased) found in the phone number as it
      is or in the lower-cased customer name. */
  predicate SearchMatches(call: Call, term: string)
  {
    term == "" || Contains(call.phoneNumber, term) || Contains(ToLower(call.customerName), term)
  }

  predicate CallMatches(instantOf: string -> Option<int>, f: RouteFilter, call: Call)
  {
    && InRange(instantOf, call.date, f.start, f.end)
    && (f.telecaller == "all" || call.telecaller == f.telecaller)
    && SearchMatches(call, ToLower(f.search))
  }

  /** `filterCallData`. */
  function FilterCallData(data: seq<Call>, instantOf: string -> Option<int>, f: RouteFilter): (r: seq<Call>)
    ensures |r| <= |data|
    ensures forall c :: c in r <==> c in data && CallMatches(instantOf, f, c)
  {
    Filter(data, (c: Call) => CallMatches(instantOf, f, c))
  }

  /** `handleResetFilters`: every telecaller and an empty search; the new date
      range comes from the clock and is a parameter here. */
  function ResetFilter(start: string, end: string): RouteFilter
  {
    RouteFilter(start, end, "all", "")
  }

  /** After a reset the dashboard shows exactly the calls in the date range,
      in their order. */
  lemma ResetShowsRange(data: seq<Call>, instantOf: string -> Option<int>, start: string, end: string)
    ensures FilterCallData(data, instantOf, ResetFilter(start, end))
         == Filter(data, (c: Call) => InRange(instantOf, c.date, start, end))
  {
    FilterCongruent(data, (c: Call) => CallMatches(instantOf, ResetFilter(start, end), c),
                    (c: Call) => InRange(instantOf, c.date, start, end));
  }

  /** The search ignores the case of what is typed: a query and its
      lower-cased form select the same calls. */
  lemma SearchIgnoresQueryCase(data: seq<Call>, instantOf: string -> Option<int>, f: RouteFilter)
    ensures FilterCallData(data, instantOf, f) == FilterCallData(data, instantOf, f.(search := ToLower(f.search)))
  {
    var g := f.(search := ToLower(f.search));
    ToLowerIdempotent(f.search);
    assert ToLower(g.search) == ToLower(f.search);
    FilterCongruent(data, (c: Call) => CallMatches(instantOf, f, c), (c: Call) => CallMatches(instantOf, g, c));
  }

  // ---------------------------------------------------------------- metrics

  predicate IsResolved(c: Call) { c.status == "completed" || c.status == "resolved" }
  predicate HasDuration(c: Call) { c.duration > 0 }

  /** `Math.ceil(a / b)` for a positive divisor. */
  function CeilDiv(a: int, b: int): (q: int)
    requires b > 0
    ensures q * b >= a && (q - 1) * b < a
  {
    -((-a) / b)
  }

  /** `Math.max(1, Math.ceil((end - start) / one day))`. */
  function DayDiff(s: int, e: int): (d: int)
    ensures d >= 1
    ensures d * DayMillis >= e - s
    ensures d == 1 || (d - 1) * DayMillis < e - s
  {
    var c := CeilDiv(e - s, DayMillis);
    if c > 1 then c else 1
  }

  /** `calls.reduce((sum, c) => sum + c.duration, 0)`. */
  function DurationSum(xs: seq<Call>): int
    decreases |xs|
  {
    if xs == [] then 0 else xs[0].duration + DurationSum(xs[1..])
  }

  /** The seconds of the calls that lasted, each other call counting 0. */
  function LastingSeconds(xs: seq<Call>): nat
    decreases |xs|
  {
    if xs == [] then 0 else (if xs[0].duration > 0 then xs[0].duration else 0) + LastingSeconds(xs[1..])
  }

  /** The dashboard's headline numbers; `callsPerDay` is `None` when a date
      of the range is invalid (the page computes `NaN`). */
  datatype RouteMetrics = RouteMetrics(
    totalCalls: nat,
    incomingCalls: nat,
    outgoingCalls: nat,
    missedCalls: nat,
    averageDuration: real,
    callsPerDay: Option<real>,
    resolutionRate: real)

  /** `calculateMetrics` over the filtered calls. Calls per day is defined
      exactly when both dates of the range are valid, and then divides the
      total by a day count of at least one: the whole days the range spans,
      rounded up. */
  function CalculateRouteMetrics(data: seq<Call>, instantOf: string -> Option<int>, f: RouteFilter): (m: RouteMetrics)
    ensures m.totalCalls == |FilterCallData(data, instantOf, f)|
    ensures m.callsPerDay.Some? <==> instantOf(f.start).Some? && instantOf(f.end).Some?
    ensures m.callsPerDay.Some? ==>
      var d := DayDiff(instantOf(f.start).value, instantOf(f.end).value);
      d >= 1 && IsMean(m.callsPerDay.value, m.totalCalls, d)
  {
    var w := FilterCallData(data, instantOf, f);
    var valid := Filter(w, HasDuration);
    var s := instantOf(f.start);
    var e := instantOf(f.end);
    RouteMetrics(
      |w|,
      |Filter(w, (c: Call) => c.callType == "incoming")|,
      |Filter(w, (c: Call) => c.callType == "outgoing")|,
      |Filter(w, (c: Call) => c.callType == "missed")|,
      Average(DurationSum(valid), |valid|),
      if s.Some? && e.Some? then Some(Average(|w|, DayDiff(s.value, e.value))) else None,
      Percent(|Filter(w, IsResolved)|, |w|))
  }

  lemma {:induction false} ThreeTypesBound(xs: seq<Call>)
    ensures |Filter(xs, (c: Call) => c.callType == "incoming")|
          + |Filter(xs, (c: Call) => c.callType == "outgoing")|
          + |Filter(xs, (c: Call) => c.callType == "missed")| <= |xs|
    decreases |xs|
  {
    if xs != [] {
      ThreeTypesBound(xs[1..]);
    }
  }

  /** The three type counts stay within the total, and the resolution rate
      is a percentage that is 0 without calls. */
  lemma RouteCounts(data: seq<Call>, instantOf: string -> Option<int>, f: RouteFilter)
    ensures var m := CalculateRouteMetrics(data, instantOf, f);
      && m.incomingCalls + m.outgoingCalls + m.missedCalls <= m.totalCalls
      && (m.totalCalls == 0 ==> m.resolutionRate == 0.0)
      && 0.0 <= m.resolutionRate <= 100.0
  {
    ThreeTypesBound(FilterCallData(data, instantOf, f));
  }

  /** The durations of the calls that lasted add up to their seconds. */
  lemma {:induction false} LastingOf(xs: seq<Call>)
    ensures DurationSum(Filter(xs, HasDuration)) == LastingSeconds(xs)
    decreases |xs|
  {
    if xs != [] {
      LastingOf(xs[1..]);
      if HasDuration(xs[0]) {
        assert Filter(xs, HasDuration) == [xs[0]] + Filter(xs[1..], HasDuration);
        assert DurationSum([xs[0]] + Filter(xs[1..], HasDuration)) == xs[0].duration + DurationSum(Filter(xs[1..], HasDuration));
      }
    }
  }

  /** The average is taken over the calls with a positive duration only, and
      is 0 when there are none. */
  lemma RouteAverage(data: seq<Call>, instantOf: string -> Option<int>, f: RouteFilter)
    ensures var w := FilterCallData(data, instantOf, f);
      IsMean(CalculateRouteMetrics(data, instantOf, f).averageDuration, LastingSeconds(w), Count(w, HasDuration))
  {
    LastingOf(FilterCallData(data, instantOf, f));
  }

  // -------------------------------------------------------- duration ranges

  /** The labels of the duration chart, in bucket order. */
  const RangeLabels: seq<string> := ["<1min", "1-3min", "3-5min", "5-10min", ">10min"]

  /** The upper limits, in seconds, of the first four buckets. */
  const Limits: seq<int> := [60, 180, 300, 600]

  /** The bucket of a call that lasted: the first range whose limit it is
      under, or the last. */
  function Bucket(d: int): (i: nat)
    ensures i < |RangeLabels|
  {
    if d < 60 then 0 else if d < 180 then 1 else if d < 300 then 2 else if d < 600 then 3 else 4
  }

  /** A positive duration lies between the limits around its bucket. */
  lemma BucketBounds(d: int)
    requires d > 0
    ensures var i := Bucket(d);
      && (i == 0 || Limits[i - 1] <= d)
      && (i == |Limits| || d < Limits[i])
  {
  }

  /** The bar heights of the duration chart: calls of zero duration are
      skipped, every other call adds one to its bucket. */
  function DurationRanges(xs: seq<Call>): (r: seq<nat>)
    ensures |r| == |RangeLabels|
    decreases |xs|
  {
    if xs == [] then [0, 0, 0, 0, 0]
    else
      var r := DurationRanges(xs[1..]);
      var d := xs[0].duration;
      if d == 0 then r else r[Bucket(d) := r[Bucket(d)] + 1]
  }

  function BarTotal(r: seq<nat>): nat
    requires |r| == 5
  {
    r[0] + r[1] + r[2] + r[3] + r[4]
  }

  /** Each bar counts exactly the calls of non-zero duration in its range. */
  lemma {:induction false} RangesCount(xs: seq<Call>, i: nat)
    requires i < |RangeLabels|
    ensures DurationRanges(xs)[i] == Count(xs, (c: Call) => c.duration != 0 && Bucket(c.duration) == i)
    decreases |xs|
  {
    if xs != [] {
      RangesCount(xs[1..], i);
    }
  }

  /** The bars add up to the number of calls with a non-zero duration. */
  lemma {:induction false} RangesTotal(xs: seq<Call>)
    ensures BarTotal(DurationRanges(xs)) == Count(xs, (c: Call) => c.duration != 0)
    decreases |xs|
  {
    if xs != [] {
      RangesTotal(xs[1..]);
    }
  }
}

=== FILE: salesman.dfy ===
/** The salesman dashboard: two sheets (sales and achievements) whose header
    rows are found by marker words, the deals read from the sales sheet with
    a default for every blank field, the headline counts and the deals per
    project, the deal filter of the deals tab, and the fall-back to the
    built-in sample data when loading fails. Numbers are kept as the text
    handed to `parseFloat`. */
module Salesman {
  import opened Common
  import opened Text
  import opened Table

  // ---------------------------------------------------------------- sheets

  /** What a `fetch` of one sheet gives: a rejection with its message, or a
      response with its `ok` flag, its status code and its body text. */
  datatype Reply = Rejected(message: string) | Reply(ok: bool, status: nat, body: string)

  /** The words that mark the header row of each sheet. */
  const SalesMarkers: seq<string> := ["Customer", "Project", "Date"]
  const AchievementMarkers: seq<string> := ["Salesman", "Target", "Achievement"]

  /** The header test of both sheets: some non-empty cell mentions a marker. */
  predicate MentionsMarker(row: Row, markers: seq<string>)
  {
    exists i, j :: 0 <= i < |row| && 0 <= j < |markers| && row[i] != "" && Contains(row[i], markers[j])
  }

  predicate IsSalesHeader(row: Row) { MentionsMarker(row, SalesMarkers) }
  predicate IsAchievementsHeader(row: Row) { MentionsMarker(row, AchievementMarkers) }

  function SalesHeader(text: string): Option<Header>
  {
    LocateHeader(CommaRows(text), IsSalesHeader)
  }

  function AchievementsHeader(text: string): Option<Header>
  {
    LocateHeader(CommaRows(text), IsAchievementsHeader)
  }

  // ---------------------------------------------------------------- columns

  datatype SalesColumns = SalesColumns(
    customerName: int, project: int, unit: int, status: int, value: int, date: int, phone: int)

  /** The header words of each sales column, in field order. */
  const SalesKeys: seq<seq<string>> :=
    [["Customer"], ["Project"], ["Unit"], ["Status"], ["Value", "Amount"], ["Date"], ["Phone", "Contact"]]

  function SalesColumnsOf(headers: Row): SalesColumns
  {
    var x := seq(|SalesKeys|, i requires 0 <= i < |SalesKeys| => ColumnWith(headers, SalesKeys[i]));
    SalesColumns(x[0], x[1], x[2], x[3], x[4], x[5], x[6])
  }

  /** `Object.values(salesMap)`. */
  function SalesIndices(c: SalesColumns): seq<int>
  {
    [c.customerName, c.project, c.unit, c.status, c.value, c.date, c.phone]
  }

  /** `Math.max(...xs)` for a list that is not empty. */
  function Max(xs: seq<int>): (m: int)
    requires xs != []
    ensures forall i :: 0 <= i < |xs| ==> xs[i] <= m
    ensures m in xs
    decreases |xs|
  {
    if |xs| == 1 then xs[0]
    else
      var m := Max(xs[1..]);
      if xs[0] > m then xs[0] else m
  }

  /** The row-length test: longer than the largest column index. */
  predicate Fits(row: Row, indices: seq<int>)
    requires indices != []
  {
    |row| > Max(indices)
  }

  /** The rows the deals are read from: exactly the data rows that reach
      every mapped column, in sheet order. */
  function KeptRows(data: seq<Row>, c: SalesColumns): (r: seq<Row>)
    ensures |r| <= |data|
    ensures forall row :: row in r <==>
      row in data && forall i :: 0 <= i < |SalesIndices(c)| ==> SalesIndices(c)[i] < |row|
  {
    Filter(data, (row: Row) => Fits(row, SalesIndices(c)))
  }

  // ------------------------------------------------------------------ deals

  /** One deal; `valueText` is what `parseFloat` is given. */
  datatype Deal = Deal(
    id: nat,
    customerName: string,
    project: string,
    unit: string,
    status: string,
    valueText: string,
    date: string,
    phone: string)

  /** The characters the value cleaning keeps: `/[^0-9.-]+/g` removes the rest. */
  predicate IsNumberChar(c: char)
  {
    IsDigit(c) || c == '.' || c == '-'
  }

  /** `s.replace(/[^0-9.-]+/g, '')`. */
  function CleanNumber(s: string): (r: string)
    ensures forall i :: 0 <= i < |r| ==> IsNumberChar(r[i])
    ensures forall c :: c in r <==> c in s && IsNumberChar(c)
  {
    Filter(s, IsNumberChar)
  }

  /** Cleaning twice is cleaning once, and text made of number characters
      only is left as it is. */
  lemma CleanNumberStable(s: string)
    ensures CleanNumber(CleanNumber(s)) == CleanNumber(s)
    ensures (forall i :: 0 <= i < |s| ==> IsNumberChar(s[i])) ==> CleanNumber(s) == s
  {
    FilterIdempotent(s, IsNumberChar);
    if forall i :: 0 <= i < |s| ==> IsNumberChar(s[i]) {
      FilterAll(s, IsNumberChar);
    }
  }

  /** The defaults of the deal fields. */
  const ZeroText: string := "0"
  const NewStatus: string := "new"
  const UnknownProject: string := "Unknown"
  const Dash: string := "-"
  const CustomerPrefix: string := "Customer "

  /** `row[i]?.replace(/[^0-9.-]+/g, '') || '0'`. */
  function ValueText(row: Row, i: int): (r: string)
    ensures r != ""
    ensures forall k :: 0 <= k < |r| ==> IsNumberChar(r[k])
  {
    match Cell(row, i)
    case Some(v) => var t := CleanNumber(v); if t != "" then t else ZeroText
    case None => ZeroText
  }

  /** `row[i]?.trim().toLowerCase() || 'new'`. */
  function StatusOf(row: Row, i: int): (r: string)
    ensures r != ""
    ensures ToLower(r) == r
  {
    var t := ToLower(Trimmed(row, i));
    ToLowerIdempotent(Trimmed(row, i));
    if t != "" then t else NewStatus
  }

  /** The label of the `n`-th deal without a customer name. */
  function NumberedCustomer(n: nat): (r: string)
    ensures r != ""
  {
    CustomerPrefix + NatToString(n)
  }

  /** The deal read from a kept row, numbered `n` from 1. */
  function DealOf(row: Row, c: SalesColumns, n: nat, today: string): Deal
  {
    Deal(
      n,
      TrimmedOr(row, c.customerName, NumberedCustomer(n)),
      TrimmedOr(row, c.project, UnknownProject),
      TrimmedOr(row, c.unit, Dash),
      StatusOf(row, c.status),
      ValueText(row, c.value),
      TrimmedOr(row, c.date, today),
      TrimmedOr(row, c.phone, Dash))
  }

  /** The deals of the sheet: one per kept row, numbered after the
      filtering, so the numbers run 1, 2, 3, ... without gaps. */
  function Deals(data: seq<Row>, c: SalesColumns, today: string): (r: seq<Deal>)
    ensures |r| == |KeptRows(data, c)|
    ensures forall i :: 0 <= i < |r| ==> r[i] == DealOf(KeptRows(data, c)[i], c, i + 1, today)
  {
    Numbered(KeptRows(data, c), 1, (row: Row, k: nat) => DealOf(row, c, k, today))
  }

  /** The deal numbers run 1, 2, 3, ... without gaps. */
  lemma DealIds(data: seq<Row>, c: SalesColumns, today: string)
    ensures forall i :: 0 <= i < |Deals(data, c, today)| ==> Deals(data, c, today)[i].id == i + 1
  {
  }

  /** Every text field of a deal is filled: a blank cell gets its default
      (`Customer <n>`, `Unknown`, `-`, `new`, `0`, today), and the status is
      lower case. */
  lemma DealFieldsFilled(row: Row, c: SalesColumns, n: nat, today: string)
    ensures var d := DealOf(row, c, n, today);
      && d.customerName != "" && d.project != "" && d.unit != "" && d.phone != ""
      && d.status != "" && ToLower(d.status) == d.status
      && d.valueText != ""
      && (today != "" ==> d.date != "")
  {
  }

  /** Each deal is read from its kept row, which reaches every mapped
      column; so a field takes its default exactly when its column is absent
      from the sheet or its cell is blank. */
  lemma DealDefaults(data: seq<Row>, c: SalesColumns, today: string, i: nat)
    requires i < |Deals(data, c, today)|
    ensures var row := KeptRows(data, c)[i];
      var d := Deals(data, c, today)[i];
      && (forall k :: 0 <= k < |SalesIndices(c)| ==> SalesIndices(c)[k] < |row|)
      && d.customerName == (if Trimmed(row, c.customerName) != "" then Trimmed(row, c.customerName) else NumberedCustomer(i + 1))
      && d.project == (if Trimmed(row, c.project) != "" then Trimmed(row, c.project) else UnknownProject)
      && d.unit == (if Trimmed(row, c.unit) != "" then Trimmed(row, c.unit) else Dash)
      && d.phone == (if Trimmed(row, c.phone) != "" then Trimmed(row, c.phone) else Dash)
  {
    var kept := KeptRows(data, c);
    assert kept[i] in kept;
  }

  // ---------------------------------------------------------------- summary

  predicate IsCompleted(d: Deal) { d.status == "completed" || d.status == "done" }
  predicate IsLost(d: Deal) { d.status == "lost" }
  predicate IsPending(d: Deal) { d.status != "completed" && d.status != "done" && d.status != "lost" }

  /** `total > 0 ? Math.round((completed / total) * 100) : 0`. */
  function ConversionRate(completed: nat, total: nat): (r: int)
    ensures total == 0 ==> r == 0
    ensures total > 0 ==> IsNearestPercent(r, completed, total)
    ensures completed <= total ==> 0 <= r <= 100
  {
    if total > 0 then
      RoundPercent(completed, total);
      var r := Round(Percent(completed, total));
      NearestPercentBounds(r, completed, total);
      r
    else 0
  }

  /** The projects of the deals, in deal order. */
  function ProjectsOf(deals: seq<Deal>): (r: seq<string>)
    ensures |r| == |deals|
    ensures forall p :: p in r <==> exists d :: d in deals && d.project == p
    decreases |deals|
  {
    if deals == [] then []
    else
      assert forall d :: d in deals <==> d == deals[0] || d in deals[1..];
      [deals[0].project] + ProjectsOf(deals[1..])
  }

  /** `dealsByProject`: for each project that occurs, the number of its deals. */
  function DealsByProject(deals: seq<Deal>): map<string, nat>
  {
    map p | p in ProjectsOf(deals) :: Count(deals, (d: Deal) => d.project == p)
  }

  lemma {:induction false} ProjectCount(deals: seq<Deal>, p: string)
    ensures Count(deals, (d: Deal) => d.project == p) == multiset(ProjectsOf(deals))[p]
    decreases |deals|
  {
    if deals != [] {
      ProjectCount(deals[1..], p);
    }
  }

  /** The counts of the chart table add up to the number of deals: each deal
      is counted under its one project. */
  lemma DealsByProjectTotal(deals: seq<Deal>)
    ensures MapSum(DealsByProject(deals)) == |deals|
  {
    DealsByProjectTally(deals);
    TallyTotal(ProjectsOf(deals));
  }

  /** The keys of the chart table are exactly the projects of the deals. */
  lemma DealsByProjectKeys(deals: seq<Deal>)
    ensures forall p :: p in DealsByProject(deals) <==> exists d :: d in deals && d.project == p
  {
  }

  /** The per-project counts are the frequency table of the projects. */
  lemma DealsByProjectTally(deals: seq<Deal>)
    ensures DealsByProject(deals) == Tally(ProjectsOf(deals))
  {
    var m := DealsByProject(deals);
    var t := Tally(ProjectsOf(deals));
    forall p | p in m
      ensures p in t && m[p] == t[p]
    {
      ProjectCount(deals, p);
    }
    forall p | p in t
      ensures p in m
    {
    }
  }

  /** Every deal is exactly one of completed, lost or pending. */
  lemma {:induction false} StatusPartition(deals: seq<Deal>)
    ensures Count(deals, IsCompleted) + Count(deals, IsLost) + Count(deals, IsPending) == |deals|
    decreases |deals|
  {
    if deals != [] {
      StatusPartition(deals[1..]);
    }
  }

  /** The headline numbers; revenue, the month's deals and the target are
      not modelled. */
  datatype SalesSummary = SalesSummary(
    totalDeals: nat,
    pendingDeals: nat,
    completedDeals: nat,
    conversionRate: int,
    dealsByProject: map<string, nat>)

  function Summarise(deals: seq<Deal>): SalesSummary
  {
    var completed := Count(deals, IsCompleted);
    SalesSummary(|deals|, Count(deals, IsPending), completed, ConversionRate(completed, |deals|), DealsByProject(deals))
  }

  /** The summary is consistent with its deals: completed, pending and the
      lost deals it leaves out add up to the total, the conversion rate is
      the rounded share of completed deals (0 without deals), and the
      project counts sum to the total. */
  lemma SummaryConsistent(deals: seq<Deal>)
    ensures var s := Summarise(deals);
      && s.completedDeals + s.pendingDeals + Count(deals, IsLost) == s.totalDeals
      && (s.totalDeals == 0 ==> s.conversionRate == 0)
      && (s.totalDeals > 0 ==> IsNearestPercent(s.conversionRate, s.completedDeals, s.totalDeals))
      && 0 <= s.conversionRate <= 100
      && MapSum(s.dealsByProject) == s.totalDeals
  {
    StatusPartition(deals);
    DealsByProjectTotal(deals);
  }

  // ---------------------------------------------------------------- loading

  /** What the dashboard shows: the deals and their summary. The leads list
      always stays the sample one and is not modelled. */
  datatype SalesmanData = SalesmanData(deals: seq<Deal>, summary: SalesSummary)

  datatype Outcome = Failed(message: string) | Done(data: SalesmanData)

  const NoHeaders: string := "Failed to find headers in the CSV data"
  const FallbackPrefix: string := "Failed to load dashboard data. Using sample data instead. Error: "

  /** `fetchData` up to the point where the data is set: the first failure
      in source order becomes the error message. */
  function Load(sales: Reply, achievements: Reply, today: string): Outcome
  {
    if sales.Rejected? then Failed(sales.message)
    else if !sales.ok then Failed("Failed to fetch sales data: " + NatToString(sales.status))
    else if achievements.Rejected? then Failed(achievements.message)
    else if !achievements.ok then Failed("Failed to fetch achievements data: " + NatToString(achievements.status))
    else
      var s := SalesHeader(sales.body);
      var a := AchievementsHeader(achievements.body);
      if s.None? || a.None? then Failed(NoHeaders)
      else
        var deals := Deals(s.value.data, SalesColumnsOf(s.value.headers), today);
        Done(SalesmanData(deals, Summarise(deals)))
  }

  /** The built-in data shown before loading and after a failure. */
  function SampleData(): SalesmanData
  {
    SalesmanData(
      [ Deal(1, "Rahul Sharma", "Virat Greens", "3BHK-A-1204", "new", "9500000", "2023-11-10", "9876543210"),
        Deal(2, "Priya Singh", "Virat Crown", "4BHK-B-1803", "in-progress", "15000000", "2023-11-12", "8765432109"),
        Deal(3, "Amit Verma", "Virat Greens", "2BHK-C-805", "completed", "6500000", "2023-11-06", "7654321098"),
        Deal(4, "Deepika Patel", "Virat Crown", "3BHK-D-1505", "negotiation", "12000000", "2023-11-14", "6543210987"),
        Deal(5, "Raj Malhotra", "Virat Greens", "3BHK-A-902", "lost", "9800000", "2023-11-08", "5432109876") ],
      SalesSummary(27, 12, 15, 28, map["Virat Greens" := 18, "Virat Crown" := 9]))
  }

  /** The dashboard state after loading: the data, and the error text when
      the sample data had to be used. */
  datatype SalesmanView = SalesmanView(data: SalesmanData, error: Option<string>)

  function Dashboard(sales: Reply, achievements: Reply, today: string): (v: SalesmanView)
    ensures v.error.Some? ==> v.data == SampleData()
  {
    match Load(sales, achievements, today)
    case Failed(m) => SalesmanView(SampleData(), Some(FallbackPrefix + m))
    case Done(d) => SalesmanView(d, None)
  }

  /** A sheet has a header exactly when one of its rows passes the test. */
  lemma HeaderFound(text: string)
    ensures SalesHeader(text).Some? <==> exists i :: 0 <= i < |CommaRows(text)| && IsSalesHeader(CommaRows(text)[i])
    ensures AchievementsHeader(text).Some? <==> exists i :: 0 <= i < |CommaRows(text)| && IsAchievementsHeader(CommaRows(text)[i])
  {
    LocateHeaderFirst(CommaRows(text), IsSalesHeader);
    LocateHeaderFirst(CommaRows(text), IsAchievementsHeader);
  }

  /** Loading fails exactly when a sheet does not arrive or has no header
      row; with both sheets in, the only failure is the missing header. */
  lemma LoadFails(sales: Reply, achievements: Reply, today: string)
    ensures Load(sales, achievements, today).Failed? <==>
      || !(sales.Reply? && sales.ok && achievements.Reply? && achievements.ok)
      || SalesHeader(sales.body).None?
      || AchievementsHeader(achievements.body).None?
    ensures sales.Reply? && sales.ok && achievements.Reply? && achievements.ok && Load(sales, achievements, today).Failed? ==>
      Load(sales, achievements, today).message == NoHeaders
  {
  }

  /** Both sheets must arrive and both must have a header row (see
      `HeaderFound`); otherwise the sample data is shown with an error. */
  lemma DashboardFallsBack(sales: Reply, achievements: Reply, today: string)
    ensures var v := Dashboard(sales, achievements, today);
      v.error.None? <==>
        && sales.Reply? && sales.ok && achievements.Reply? && achievements.ok
        && SalesHeader(sales.body).Some? && AchievementsHeader(achievements.body).Some?
  {
    assert Dashboard(sales, achievements, today).error.None? <==> Load(sales, achievements, today).Done?;
    LoadFails(sales, achievements, today);
  }

  /** Once loaded, the deals come from the rows below the sales header and the
      summary is theirs. */
  lemma DashboardLoaded(sales: Reply, achievements: Reply, today: string)
    ensures var v := Dashboard(sales, achievements, today);
      v.error.None? ==>
      && sales.Reply?
      && var h := SalesHeader(sales.body);
      && h.Some?
      && v.data.deals == Deals(h.value.data, SalesColumnsOf(h.value.headers), today)
      && v.data.summary == Summarise(v.data.deals)
  {
    var l := Load(sales, achievements, today);
    if Dashboard(sales, achievements, today).error.None? {
      assert l.Done?;
      assert Dashboard(sales, achievements, today).data == l.data;
    }
  }

  // ----------------------------------------------------------------- filter

  /** The search box and the two drop-downs of the deals tab. */
  datatype DealFilter = DealFilter(search: string, status: string, project: string)

  /** The reset button: empty search, every status, every project. */
  const ResetDealFilter: DealFilter := DealFilter("", "all", "all")

  /** Case-insensitive in the name, project and unit, exact in the phone. */
  predicate SearchMatches(d: Deal, q: string)
  {
    || q == ""
    || Contains(ToLower(d.customerName), ToLower(q))
    || Contains(ToLower(d.project), ToLower(q))
    || Contains(ToLower(d.unit), ToLower(q))
    || Contains(d.phone, q)
  }

  predicate DealMatches(f: DealFilter, d: Deal)
  {
    && SearchMatches(d, f.search)
    && (f.status == "all" || d.status == f.status)
    && (f.project == "all" || d.project == f.project)
  }

  /** `filteredDeals`: the matching deals, in their order. */
  function FilteredDeals(deals: seq<Deal>, f: DealFilter): (r: seq<Deal>)
    ensures |r| <= |deals|
    ensures forall d :: d in r <==> d in deals && DealMatches(f, d)
  {
    Filter(deals, (d: Deal) => DealMatches(f, d))
  }

  /** After a reset every deal is listed, in order. */
  lemma ResetShowsAllDeals(deals: seq<Deal>)
    ensures FilteredDeals(deals, ResetDealFilter) == deals
  {
    FilterAll(deals, (d: Deal) => DealMatches(ResetDealFilter, d));
  }

  /** Choosing a project in the drop-down lists as many deals as the chart
      gives that project. */
  lemma ProjectFilterMatchesChart(deals: seq<Deal>, p: string)
    requires p in DealsByProject(deals) && p != "all"
    ensures |FilteredDeals(deals, DealFilter("", "all", p))| == DealsByProject(deals)[p]
  {
    FilterCongruent(deals, (d: Deal) => DealMatches(DealFilter("", "all", p), d), (d: Deal) => d.project == p);
  }

  /** The filters only narrow: a deal shown under a status and a project is
      also shown when the status is set back to all. */
  lemma StatusFilterNarrows(deals: seq<Deal>, f: DealFilter)
    ensures |FilteredDeals(deals, f)| <= |FilteredDeals(deals, f.(status := "all"))|
  {
    var g := f.(status := "all");
    CountMonotone(deals, (d: Deal) => DealMatches(f, d), (d: Deal) => DealMatches(g, d));
  }
}

=== FILE: sorting.dfy ===
/** `Array.prototype.sort` with a comparator, as the dashboards use it: a
    stable sort, written as insertion sort. `before(a, b)` is "the
    comparator puts `a` first" (a negative answer). For a consistent
    comparator, equal elements keep their order (`SortByStable`). For an
    inconsistent one the engine's order is implementation-defined, and this
    sort gives one possible order. */
module Sorting {
  import opened Common

  /** The comparator never puts two elements each before the other. */
  ghost predicate Asymmetric<T(!new)>(before: (T, T) -> bool)
  {
    forall a, b :: before(a, b) ==> !before(b, a)
  }

  /** Insert `x` before the first element that does not go before it. */
  function Insert<T(==,!new)>(x: T, s: seq<T>, before: (T, T) -> bool): (r: seq<T>)
    ensures |r| == |s| + 1
    ensures multiset(r) == multiset(s) + multiset{x}
    decreases |s|
  {
    if s == [] then [x]
    else if before(s[0], x) then
      assert s == [s[0]] + s[1..];
      [s[0]] + Insert(x, s[1..], before)
    else [x] + s
  }

  function SortBy<T(==,!new)>(xs: seq<T>, before: (T, T) -> bool): (r: seq<T>)
    ensures |r| == |xs|
    ensures multiset(r) == multiset(xs)
    decreases |xs|
  {
    if xs == [] then []
    else
      assert xs == [xs[0]] + xs[1..];
      Insert(xs[0], SortBy(xs[1..], before), before)
  }

  /** No element goes before its left neighbour. */
  predicate Ordered<T>(s: seq<T>, before: (T, T) -> bool)
  {
    forall i :: 0 < i < |s| ==> !before(s[i], s[i - 1])
  }

  lemma {:induction false} InsertOrdered<T(!new)>(x: T, s: seq<T>, before: (T, T) -> bool)
    requires Asymmetric(before)
    requires Ordered(s, before)
    ensures Ordered(Insert(x, s, before), before)
    ensures s != [] ==> Insert(x, s, before)[0] == s[0] || Insert(x, s, before)[0] == x
    decreases |s|
  {
    if s != [] && before(s[0], x) {
      InsertOrdered(x, s[1..], before);
      var t := Insert(x, s[1..], before);
      var u := [s[0]] + t;
      forall i | 0 < i < |u|
        ensures !before(u[i], u[i - 1])
      {
        if i == 1 {
          if |s| > 1 && t[0] == s[1] {
            assert !before(s[1], s[0]);
          }
        } else {
          assert u[i] == t[i - 1] && u[i - 1] == t[i - 2];
        }
      }
    }
  }

  /** The sorted elements are in comparator order. */
  lemma {:induction false} SortByOrdered<T(!new)>(xs: seq<T>, before: (T, T) -> bool)
    requires Asymmetric(before)
    ensures Ordered(SortBy(xs, before), before)
    decreases |xs|
  {
    if xs != [] {
      SortByOrdered(xs[1..], before);
      InsertOrdered(xs[0], SortBy(xs[1..], before), before);
    }
  }

  /** An element that nothing goes before is inserted at the front. */
  lemma InsertFront<T(!new)>(x: T, s: seq<T>, before: (T, T) -> bool)
    requires s == [] || !before(s[0], x)
    ensures Insert(x, s, before) == [x] + s
  {
  }

  /** When the comparator puts no element before another, the order is kept. */
  lemma {:induction false} SortByUnordered<T(!new)>(xs: seq<T>, before: (T, T) -> bool)
    requires forall a, b :: a in xs && b in xs ==> !before(a, b)
    ensures SortBy(xs, before) == xs
    decreases |xs|
  {
    if xs != [] {
      var rest := xs[1..];
      assert forall a :: a in rest ==> a in xs;
      SortByUnordered(rest, before);
      assert rest != [] ==> rest[0] in xs;
      InsertFront(xs[0], rest, before);
      assert xs == [xs[0]] + rest;
    }
  }

  /** Inserting an element of a class the comparator never orders within
      puts it ahead of the other members of its class. */
  lemma {:induction false} InsertStable<T(!new)>(x: T, s: seq<T>, before: (T, T) -> bool, p: T -> bool)
    requires forall a, b :: p(a) && p(b) ==> !before(a, b)
    ensures Filter(Insert(x, s, before), p) == if p(x) then [x] + Filter(s, p) else Filter(s, p)
    decreases |s|
  {
    if s == [] {
      assert Insert(x, s, before) == [x];
    } else if before(s[0], x) {
      InsertStable(x, s[1..], before, p);
      var t := Insert(x, s[1..], before);
      assert ([s[0]] + t)[1..] == t;
      if p(x) {
        assert !p(s[0]);
      }
    } else {
      assert ([x] + s)[1..] == s;
    }
  }

  /** Stability: the elements of a class the comparator never orders within,
      such as the rows sharing one sort key, come out in their input order. */
  lemma {:induction false} SortByStable<T(!new)>(xs: seq<T>, before: (T, T) -> bool, p: T -> bool)
    requires forall a, b :: p(a) && p(b) ==> !before(a, b)
    ensures Filter(SortBy(xs, before), p) == Filter(xs, p)
    decreases |xs|
  {
    if xs != [] {
      SortByStable(xs[1..], before, p);
      InsertStable(xs[0], SortBy(xs[1..], before), before, p);
    }
  }

  /** `xs.slice(0, n)`. */
  function Take<T>(xs: seq<T>, n: nat): (r: seq<T>)
    ensures |r| == if |xs| < n then |xs| else n
    ensures forall i :: 0 <= i < |r| ==> r[i] == xs[i]
  {
    if |xs| <= n then xs else xs[..n]
  }
}

=== FILE: table.dfy ===
/** Raw CSV tables as the dashboards see them: lines split on a separator,
    cells read by position with JavaScript's `undefined` for a missing one,
    the header row located by a marker test, and columns looked up by a
    header test with -1 for "absent". */
module Table {
  import opened Common
  import opened Text

  /** One line of the CSV text, split into cells; rows are not rectangular. */
  type Row = seq<string>

  /** `row[i]`: `undefined` for a negative or out-of-range index. */
  function Cell(row: Row, i: int): (r: Option<string>)
    ensures r.Some? <==> 0 <= i < |row|
    ensures r.Some? ==> r.value == row[i]
  {
    if 0 <= i < |row| then Some(row[i]) else None
  }

  /** `row[i] ? row[i].trim() : d`: the default applies only when the raw
      cell is missing or empty, not when it is blank. */
  function CellOr(row: Row, i: int, d: string): (r: string)
    ensures (0 <= i < |row| && row[i] != "") ==> r == Trim(row[i])
    ensures !(0 <= i < |row| && row[i] != "") ==> r == d
  {
    match Cell(row, i)
    case Some(v) => if v != "" then Trim(v) else d
    case None => d
  }

  /** `row[i]?.trim() || d`: the default applies whenever the trimmed cell is
      missing or empty. */
  function TrimmedOr(row: Row, i: int, d: string): (r: string)
    ensures 0 <= i < |row| && Trim(row[i]) != "" ==> r == Trim(row[i])
    ensures !(0 <= i < |row| && Trim(row[i]) != "") ==> r == d
  {
    match Cell(row, i)
    case Some(v) => if Trim(v) != "" then Trim(v) else d
    case None => d
  }

  /** `row[i]?.trim()` compared with the empty string: the trimmed cell, or
      the empty string for a missing cell. */
  function Trimmed(row: Row, i: int): (r: string)
    ensures r == TrimmedOr(row, i, "")
  {
    TrimmedOr(row, i, "")
  }

  /** `text.trim().split('\n')`. */
  function Lines(text: string): (r: seq<string>)
    ensures |r| >= 1
    ensures Join(r, '\n') == Trim(text)
  {
    JoinSplit(Trim(text), '\n');
    Split(Trim(text), '\n')
  }

  /** `text.trim().split('\n').map(row => row.split(','))`. */
  function CommaRows(text: string): (r: seq<Row>)
    ensures |r| == |Lines(text)|
    ensures forall i :: 0 <= i < |r| ==> r[i] == Split(Lines(text)[i], ',')
  {
    var ls := Lines(text);
    seq(|ls|, i requires 0 <= i < |ls| => Split(ls[i], ','))
  }

  /** `xs.findIndex(p)`: the first index whose element satisfies `p`, or -1. */
  function FindIndex<T>(xs: seq<T>, p: T -> bool): (r: int)
    ensures -1 <= r < |xs|
    ensures r == -1 <==> forall i :: 0 <= i < |xs| ==> !p(xs[i])
    ensures r >= 0 ==> p(xs[r]) && forall i :: 0 <= i < r ==> !p(xs[i])
    decreases |xs|
  {
    if xs == [] then -1
    else if p(xs[0]) then 0
    else
      var k := FindIndex(xs[1..], p);
      assert forall i :: 1 <= i < |xs| ==> xs[i] == xs[1..][i - 1];
      if k == -1 then -1 else k + 1
  }

  /** `xs.indexOf(v)`: the first position holding exactly `v`, or -1. */
  function IndexOf(xs: seq<string>, v: string): (r: int)
    ensures -1 <= r < |xs|
    ensures r == -1 <==> v !in xs
    ensures r >= 0 ==> xs[r] == v && v !in xs[..r]
  {
    FindIndex(xs, (x: string) => x == v)
  }

  /** The first header containing any of `keys`, or -1. */
  function ColumnWith(headers: Row, keys: seq<string>): (r: int)
    ensures -1 <= r < |headers|
    ensures r == -1 <==> forall i, j :: 0 <= i < |headers| && 0 <= j < |keys| ==> !Contains(headers[i], keys[j])
    ensures r >= 0 ==> exists j :: 0 <= j < |keys| && Contains(headers[r], keys[j])
    ensures r >= 0 ==> forall i, j :: 0 <= i < r && 0 <= j < |keys| ==> !Contains(headers[i], keys[j])
  {
    FindIndex(headers, (h: string) => exists j :: 0 <= j < |keys| && Contains(h, keys[j]))
  }

  /** `row.some(p)`. */
  predicate Any(row: Row, p: string -> bool)
  {
    exists i :: 0 <= i < |row| && p(row[i])
  }

  /** `row.map(h => h ? h.trim() : '')`. */
  function TrimAll(row: Row): (r: Row)
    ensures |r| == |row|
    ensures forall i :: 0 <= i < |row| ==> r[i] == Trim(row[i])
  {
    seq(|row|, i requires 0 <= i < |row| => Trim(row[i]))
  }

  /** A located header: its position, its trimmed cells, and the rows below it. */
  datatype Header = Header(index: nat, headers: Row, data: seq<Row>)

  /** The first row accepted by `isHeader` becomes the header; every row after
      it is data. `None` is the "header row not found" condition. */
  function LocateHeader(rows: seq<Row>, isHeader: Row -> bool): Option<Header>
  {
    var k := FindIndex(rows, isHeader);
    if k == -1 then None else Some(Header(k, TrimAll(rows[k]), rows[k + 1..]))
  }

  /** No header exactly when no row qualifies; otherwise the header is the
      first qualifying row, trimmed, and the data are all rows below it. */
  lemma LocateHeaderFirst(rows: seq<Row>, isHeader: Row -> bool)
    ensures LocateHeader(rows, isHeader).None? <==> forall i :: 0 <= i < |rows| ==> !isHeader(rows[i])
    ensures LocateHeader(rows, isHeader).Some? ==>
      var h := LocateHeader(rows, isHeader).value;
      && h.index < |rows|
      && isHeader(rows[h.index])
      && (forall i :: 0 <= i < h.index ==> !isHeader(rows[i]))
      && h.headers == TrimAll(rows[h.index])
      && h.data == rows[h.index + 1..]
  {
  }
}

=== FILE: telecaller.dfy ===
/** The telecaller lead sheet: its header row (the first row with a cell
    exactly `DATE/TIME`), the column map (exact header names, -1 when
    absent), the counting pass over the data rows, the filtered and sorted
    lead table with its sort toggle and reset, and the conversion rate of
    each telecaller. */
module Telecaller {
  import opened Common
  import opened Text
  import opened Table
  import opened Sorting

  // ----------------------------------------------------------------- columns

  /** The column of every field the dashboard reads, -1 when the header is
      missing. */
  datatype LeadColumns = LeadColumns(
    dateTime: int, name: int, number: int, email: int, city: int, occupation: int,
    dealerInvestorEnduser: int, channel: int, telecaller: int, planningVisit: int,
    comment: int, status: int, projectMap: int, photoVideo: int, visitDate: int,
    visitDone: int, postVisitFeedback: int, propertyNeed: int, projectInterest: int,
    plotSize: int, propertyNumber: int, firstVisitStatus: int, secondVisitStatus: int,
    thirdVisitStatus: int, firstVisitDate: int, secondVisitDate: int, thirdVisitDate: int)

  /** The header of each field, in the order of `LeadColumns`. */
  const LeadLabels: seq<string> := [
    "DATE/TIME", "NAME", "NUMBER", "EMAIL", "CITY", "OCCUPATION",
    "Dealer / Invester/ Enduser", "Google add / facebook/ Instagram/ Flex",
    "REACHED BY WHICH TELECALLER", "PLANNING FOR VISIT", "Comment/feedback", "Status",
    "PROJECT MAP/ PAYMENT PLAN SENT ?", "PHOTO/ VIDEO", "Visit Date", "Visit done",
    "POST-VISIT FEEDBACK", "NewPlot/ Villa / Resale plots /Booth/ Flat/ kothi",
    "Virat Greens/ Virat Crown/ Both Projects", "Plot Size Requirement", "PROPERTY NUMBER",
    "1st Visit Status", "2nd Visit Status", "3rd Visit Status",
    "1st Visit Date", "2nd Visit Date", "3rd Visit Date"]

  /** `headers.indexOf(label)` for each field, on the trimmed header cells. */
  function MapLeadColumns(headers: Row): LeadColumns
  {
    var x := seq(|LeadLabels|, i requires 0 <= i < |LeadLabels| => IndexOf(headers, LeadLabels[i]));
    LeadColumns(
      x[0], x[1], x[2], x[3], x[4], x[5], x[6], x[7], x[8], x[9], x[10], x[11], x[12], x[13],
      x[14], x[15], x[16], x[17], x[18], x[19], x[20], x[21], x[22], x[23], x[24], x[25], x[26])
  }

  /** The header test: some cell is exactly `DATE/TIME`, untrimmed. */
  predicate IsLeadHeader(row: Row)
  {
    "DATE/TIME" in row
  }

  // ------------------------------------------------------------ cell reading

  /** `row[i]?.trim() === v`: a missing cell equals nothing. */
  predicate TrimmedIs(row: Row, i: int, v: string)
  {
    0 <= i < |row| && Trim(row[i]) == v
  }

  /** `row[i] && row[i].trim().toLowerCase() === 'done'`. */
  predicate DoneAt(row: Row, i: int)
  {
    0 <= i < |row| && row[i] != "" && ToLower(Trim(row[i])) == "done"
  }

  /** `row[i] && row[i].trim() !== ''`. */
  predicate FilledAt(row: Row, i: int)
  {
    0 <= i < |row| && row[i] != "" && Trim(row[i]) != ""
  }

  /** `row[i]?.toLowerCase() || ''`. */
  function LoweredOr(row: Row, i: int): (r: string)
    ensures |r| == (if 0 <= i < |row| then |row[i]| else 0)
  {
    if 0 <= i < |row| then ToLower(row[i]) else ""
  }

  /** `row[i] || ''`. */
  function RawOr(row: Row, i: int): (r: string)
    ensures 0 <= i < |row| ==> r == row[i]
    ensures !(0 <= i < |row|) ==> r == ""
  {
    if 0 <= i < |row| then row[i] else ""
  }

  // --------------------------------------------------------- counting pass

  /** The statuses the lead-type chart is seeded with. */
  const LeadTypeNames: set<string> := {
    "Good Lead", "Hot Lead", "Transferred to Sales Coordinator", "Junk Lead", "Transferred to Salesman"
  }

  function SeedLeadTypes(): (m: map<string, nat>)
    ensures m.Keys == LeadTypeNames
    ensures "" !in m
    ensures forall k :: k in m ==> m[k] == 0
  {
    map k | k in LeadTypeNames :: 0
  }

  /** The five frequency tables of the counting pass. */
  datatype Tables = Tables(
    telecallers: map<string, nat>,
    channels: map<string, nat>,
    statuses: map<string, nat>,
    propertyNeeds: map<string, nat>,
    projectInterests: map<string, nat>)

  /** The post-visit feedback counters. */
  datatype FeedbackCounts = FeedbackCounts(positive: nat, negative: nat, satisfied: nat, pending: nat)

  /** The visit counters: first visit done, any visit done, any visit dated. */
  datatype VisitCounts = VisitCounts(firstVisitDone: nat, combinedDone: nat, scheduled: nat)

  /** Everything the counting pass over the data rows produces. */
  datatype LeadSummary = LeadSummary(
    tables: Tables,
    leadTypes: map<string, nat>,
    feedback: FeedbackCounts,
    visits: VisitCounts)

  /** `if (v) m[v] = (m[v] || 0) + 1`. */
  function BumpFilled(m: map<string, nat>, v: string): map<string, nat>
  {
    if v != "" then Bump(m, v) else m
  }

  function Inc(n: nat, b: bool): nat
  {
    if b then n + 1 else n
  }

  /** A row counts as a done visit when any of its three visit statuses is done. */
  predicate AnyVisitDone(c: LeadColumns, row: Row)
  {
    DoneAt(row, c.firstVisitStatus) || DoneAt(row, c.secondVisitStatus) || DoneAt(row, c.thirdVisitStatus)
  }

  /** A row counts as scheduled when any of its three visit dates is filled in. */
  predicate AnyVisitDate(c: LeadColumns, row: Row)
  {
    FilledAt(row, c.firstVisitDate) || FilledAt(row, c.secondVisitDate) || FilledAt(row, c.thirdVisitDate)
  }

  /** The lower-cased trimmed post-visit feedback. */
  function Feedback(c: LeadColumns, row: Row): string
  {
    ToLower(Trimmed(row, c.postVisitFeedback))
  }

  function TablesStep(t: Tables, c: LeadColumns, row: Row): Tables
  {
    Tables(
      BumpFilled(t.telecallers, Trimmed(row, c.telecaller)),
      BumpFilled(t.channels, Trimmed(row, c.channel)),
      BumpFilled(t.statuses, Trimmed(row, c.status)),
      BumpFilled(t.propertyNeeds, Trimmed(row, c.propertyNeed)),
      BumpFilled(t.projectInterests, Trimmed(row, c.projectInterest)))
  }

  /** `if (st && m.hasOwnProperty(st)) m[st]++`: only existing keys grow. */
  function BumpKnown(m: map<string, nat>, st: string): (r: map<string, nat>)
    ensures r.Keys == m.Keys
    ensures forall k :: k in m && k != "" ==> r[k] == m[k] + (if k == st then 1 else 0)
  {
    if st != "" && st in m then m[st := m[st] + 1] else m
  }

  /** The lead-type update of one row, by its trimmed status. */
  function LeadTypeStep(m: map<string, nat>, c: LeadColumns, row: Row): map<string, nat>
  {
    BumpKnown(m, Trimmed(row, c.status))
  }

  function FeedbackStep(f: FeedbackCounts, c: LeadColumns, row: Row): FeedbackCounts
  {
    var fb := Feedback(c, row);
    FeedbackCounts(
      Inc(f.positive, fb == "positive"),
      Inc(f.negative, fb == "negative"),
      Inc(f.satisfied, fb == "satisfied"),
      Inc(f.pending, fb == "pending"))
  }

  function VisitStep(v: VisitCounts, c: LeadColumns, row: Row): VisitCounts
  {
    VisitCounts(
      Inc(v.firstVisitDone, DoneAt(row, c.firstVisitStatus)),
      Inc(v.combinedDone, AnyVisitDone(c, row)),
      Inc(v.scheduled, AnyVisitDate(c, row)))
  }

  /** One iteration of the `data.forEach` body. */
  function CountRow(s: LeadSummary, c: LeadColumns, row: Row): LeadSummary
  {
    LeadSummary(
      TablesStep(s.tables, c, row),
      LeadTypeStep(s.leadTypes, c, row),
      FeedbackStep(s.feedback, c, row),
      VisitStep(s.visits, c, row))
  }

  /** The counters before the loop; only the lead types are seeded. */
  function EmptySummary(): LeadSummary
  {
    LeadSummary(Tables(map[], map[], map[], map[], map[]), SeedLeadTypes(),
                FeedbackCounts(0, 0, 0, 0), VisitCounts(0, 0, 0))
  }

  /** The counters after the loop has visited every data row in order. */
  function CountRows(c: LeadColumns, data: seq<Row>): LeadSummary
    decreases |data|
  {
    if data == [] then EmptySummary()
    else CountRow(CountRows(c, data[..|data| - 1]), c, data[|data| - 1])
  }

  // The counter groups never read one another, so each is also the fold of
  // its own step; the lemmas below reason about one group at a time.

  function TablesOf(c: LeadColumns, data: seq<Row>): Tables
    decreases |data|
  {
    if data == [] then Tables(map[], map[], map[], map[], map[])
    else TablesStep(TablesOf(c, data[..|data| - 1]), c, data[|data| - 1])
  }

  /** The known-key counts after `data`, starting from `m0`. */
  function CountKnown(m0: map<string, nat>, c: LeadColumns, data: seq<Row>): map<string, nat>
    decreases |data|
  {
    if data == [] then m0
    else LeadTypeStep(CountKnown(m0, c, data[..|data| - 1]), c, data[|data| - 1])
  }

  function LeadTypesOf(c: LeadColumns, data: seq<Row>): map<string, nat>
  {
    CountKnown(SeedLeadTypes(), c, data)
  }

  function FeedbackOf(c: LeadColumns, data: seq<Row>): FeedbackCounts
    decreases |data|
  {
    if data == [] then FeedbackCounts(0, 0, 0, 0)
    else FeedbackStep(FeedbackOf(c, data[..|data| - 1]), c, data[|data| - 1])
  }

  function VisitsOf(c: LeadColumns, data: seq<Row>): VisitCounts
    decreases |data|
  {
    if data == [] then VisitCounts(0, 0, 0)
    else VisitStep(VisitsOf(c, data[..|data| - 1]), c, data[|data| - 1])
  }

  /** The single pass computes each counter group as its own fold would. */
  lemma {:induction false} CountRowsGroups(c: LeadColumns, data: seq<Row>)
    ensures CountRows(c, data) == LeadSummary(TablesOf(c, data), LeadTypesOf(c, data), FeedbackOf(c, data), VisitsOf(c, data))
    decreases |data|
  {
    if data != [] {
      CountRowsGroups(c, data[..|data| - 1]);
    }
  }

  /** The non-empty trimmed values of one column, in row order: what a
      frequency table is built from. */
  function Values(data: seq<Row>, col: int): (r: seq<string>)
    ensures |r| <= |data|
    ensures forall v :: v in r ==> v != ""
    decreases |data|
  {
    if data == [] then []
    else
      var v := Trimmed(data[|data| - 1], col);
      Values(data[..|data| - 1], col) + (if v != "" then [v] else [])
  }

  lemma TallySnoc(xs: seq<string>, v: string)
    ensures Tally(xs + [v]) == Bump(Tally(xs), v)
  {
    assert (xs + [v])[..|xs + [v]| - 1] == xs;
  }

  lemma BumpFilledTally(xs: seq<string>, v: string)
    ensures BumpFilled(Tally(xs), v) == Tally(xs + (if v != "" then [v] else []))
  {
    if v != "" {
      TallySnoc(xs, v);
    } else {
      assert xs + [] == xs;
    }
  }

  /** The five frequency tables are the tallies of their columns' non-empty
      values. */
  lemma {:induction false} TablesTally(c: LeadColumns, data: seq<Row>)
    ensures TablesOf(c, data) == Tables(
      Tally(Values(data, c.telecaller)), Tally(Values(data, c.channel)), Tally(Values(data, c.status)),
      Tally(Values(data, c.propertyNeed)), Tally(Values(data, c.projectInterest)))
    decreases |data|
  {
    if data != [] {
      var init := data[..|data| - 1];
      var row := data[|data| - 1];
      TablesTally(c, init);
      BumpFilledTally(Values(init, c.telecaller), Trimmed(row, c.telecaller));
      BumpFilledTally(Values(init, c.channel), Trimmed(row, c.channel));
      BumpFilledTally(Values(init, c.status), Trimmed(row, c.status));
      BumpFilledTally(Values(init, c.propertyNeed), Trimmed(row, c.propertyNeed));
      BumpFilledTally(Values(init, c.projectInterest), Trimmed(row, c.projectInterest));
    }
  }

  /** A value is tallied once per row whose trimmed cell is that value. */
  lemma {:induction false} ValuesCount(data: seq<Row>, col: int, v: string)
    requires v != ""
    ensures multiset(Values(data, col))[v] == Count(data, (row: Row) => TrimmedIs(row, col, v))
    decreases |data|
  {
    if data != [] {
      var init := data[..|data| - 1];
      var row := data[|data| - 1];
      ValuesCount(init, col, v);
      assert data == init + [row];
      CountSnoc(init, row, (row: Row) => TrimmedIs(row, col, v));
    }
  }

  lemma {:induction false} NoColumnNoValues(data: seq<Row>, col: int)
    requires col < 0
    ensures Values(data, col) == []
    decreases |data|
  {
    if data != [] {
      NoColumnNoValues(data[..|data| - 1], col);
    }
  }

  /** A frequency table: its keys are the non-empty values of the column,
      each counted once per row carrying it, and it sums to at most the
      number of rows; an absent column leaves it empty. */
  lemma FrequencyTable(data: seq<Row>, col: int)
    ensures var m := Tally(Values(data, col));
      && (forall k :: k in m ==> k != "" && m[k] == Count(data, (row: Row) => TrimmedIs(row, col, k)))
      && MapSum(m) <= |data|
      && (col < 0 ==> m == map[])
  {
    var m := Tally(Values(data, col));
    forall k | k in m
      ensures k != "" && m[k] == Count(data, (row: Row) => TrimmedIs(row, col, k))
    {
      ValuesCount(data, col, k);
    }
    TallyTotal(Values(data, col));
    if col < 0 {
      NoColumnNoValues(data, col);
    }
  }

  /** The telecaller table of a loaded sheet counts, for each telecaller,
      the rows naming them, and sums to at most the number of rows. */
  lemma TelecallerTable(c: LeadColumns, data: seq<Row>)
    ensures var m := CountRows(c, data).tables.telecallers;
      && (forall k :: k in m ==> k != "" && m[k] == Count(data, (row: Row) => TrimmedIs(row, c.telecaller, k)))
      && MapSum(m) <= |data|
  {
    CountRowsGroups(c, data);
    TablesTally(c, data);
    FrequencyTable(data, c.telecaller);
  }

  /** Counting known keys never adds or removes a key. */
  lemma {:induction false} CountKnownKeys(m0: map<string, nat>, c: LeadColumns, data: seq<Row>)
    ensures CountKnown(m0, c, data).Keys == m0.Keys
    decreases |data|
  {
    if data != [] {
      CountKnownKeys(m0, c, data[..|data| - 1]);
    }
  }

  /** A known non-empty key gains one per row whose trimmed status is that key. */
  lemma {:induction false} CountKnownCount(m0: map<string, nat>, c: LeadColumns, data: seq<Row>, k: string)
    requires k in m0 && k != ""
    ensures k in CountKnown(m0, c, data)
    ensures CountKnown(m0, c, data)[k] == m0[k] + Count(data, (row: Row) => TrimmedIs(row, c.status, k))
    decreases |data|
  {
    CountKnownKeys(m0, c, data);
    if data != [] {
      var init := data[..|data| - 1];
      var row := data[|data| - 1];
      CountKnownCount(m0, c, init, k);
      CountKnownKeys(m0, c, init);
      assert data == init + [row];
      CountSnoc(init, row, (row: Row) => TrimmedIs(row, c.status, k));
    }
  }

  /** The lead types of a loaded sheet keep the five seeded keys and no
      other. */
  lemma LeadTypesSeeded(c: LeadColumns, data: seq<Row>)
    ensures CountRows(c, data).leadTypes.Keys == LeadTypeNames
  {
    CountRowsGroups(c, data);
    CountKnownKeys(SeedLeadTypes(), c, data);
  }

  /** Each lead type of a loaded sheet counts the rows whose trimmed status
      is exactly that type. */
  lemma LeadTypesCounted(c: LeadColumns, data: seq<Row>, k: string)
    requires k in LeadTypeNames
    ensures k in CountRows(c, data).leadTypes
    ensures CountRows(c, data).leadTypes[k] == Count(data, (row: Row) => TrimmedIs(row, c.status, k))
  {
    CountRowsGroups(c, data);
    CountKnownCount(SeedLeadTypes(), c, data, k);
  }

  /** Each visit counter counts the rows passing its test. */
  lemma {:induction false} VisitsCount(c: LeadColumns, data: seq<Row>)
    ensures VisitsOf(c, data) == VisitCounts(
      Count(data, (row: Row) => DoneAt(row, c.firstVisitStatus)),
      Count(data, (row: Row) => AnyVisitDone(c, row)),
      Count(data, (row: Row) => AnyVisitDate(c, row)))
    decreases |data|
  {
    if data != [] {
      var init := data[..|data| - 1];
      var row := data[|data| - 1];
      VisitsCount(c, init);
      assert data == init + [row];
      CountSnoc(init, row, (row: Row) => DoneAt(row, c.firstVisitStatus));
      CountSnoc(init, row, (row: Row) => AnyVisitDone(c, row));
      CountSnoc(init, row, (row: Row) => AnyVisitDate(c, row));
    }
  }

  /** The visit counters of a loaded sheet: a first visit done is also a
      visit done, so the first count never exceeds the combined one, and
      the scheduled count is the number of rows with any visit date. */
  lemma VisitCounters(c: LeadColumns, data: seq<Row>)
    ensures var v := CountRows(c, data).visits;
      && v.firstVisitDone <= v.combinedDone <= |data|
      && v.scheduled == Count(data, (row: Row) => AnyVisitDate(c, row))
  {
    CountRowsGroups(c, data);
    VisitsCount(c, data);
    CountMonotone(data, (row: Row) => DoneAt(row, c.firstVisitStatus), (row: Row) => AnyVisitDone(c, row));
  }

  /** The lower-cased trimmed feedback of a row is `word`. */
  predicate FeedbackIs(c: LeadColumns, row: Row, word: string)
  {
    Feedback(c, row) == word
  }

  /** Each feedback counter counts the rows whose lower-cased trimmed
      feedback is its word. */
  lemma {:induction false} FeedbackCount(c: LeadColumns, data: seq<Row>)
    ensures FeedbackOf(c, data) == FeedbackCounts(
      Count(data, (row: Row) => FeedbackIs(c, row, "positive")),
      Count(data, (row: Row) => FeedbackIs(c, row, "negative")),
      Count(data, (row: Row) => FeedbackIs(c, row, "satisfied")),
      Count(data, (row: Row) => FeedbackIs(c, row, "pending")))
    decreases |data|
  {
    if data != [] {
      var init := data[..|data| - 1];
      var row := data[|data| - 1];
      FeedbackCount(c, init);
      assert data == init + [row];
      CountSnoc(init, row, (row: Row) => FeedbackIs(c, row, "positive"));
      CountSnoc(init, row, (row: Row) => FeedbackIs(c, row, "negative"));
      CountSnoc(init, row, (row: Row) => FeedbackIs(c, row, "satisfied"));
      CountSnoc(init, row, (row: Row) => FeedbackIs(c, row, "pending"));
    }
  }

  /** The four feedback counters look for different words, so together they
      count at most one per row. */
  lemma {:induction false} FeedbackBound(c: LeadColumns, data: seq<Row>)
    ensures var f := FeedbackOf(c, data);
      f.positive + f.negative + f.satisfied + f.pending <= |data|
    decreases |data|
  {
    if data != [] {
      FeedbackBound(c, data[..|data| - 1]);
    }
  }

  // ------------------------------------------------------------ loading

  /** The result of `fetchData`: the error message, or the column map, the
      data rows and the counters. */
  datatype LeadSheet =
    | LoadError(message: string)
    | Loaded(columns: LeadColumns, rows: seq<Row>, summary: LeadSummary)

  const FetchError: string := "Error fetching data. Please try again later."

  /** `fetchData` after the text has arrived: comma rows, the `DATE/TIME`
      header, the column map and the counting pass. */
  function LoadLeads(csvText: string): LeadSheet
  {
    match LocateHeader(CommaRows(csvText), IsLeadHeader)
    case None => LoadError(FetchError)
    case Some(h) =>
      var c := MapLeadColumns(h.headers);
      Loaded(c, h.data, CountRows(c, h.data))
  }

  /** The sheet fails to load exactly when no row has a cell that is exactly
      `DATE/TIME`. */
  lemma LoadLeadsError(csvText: string)
    ensures var rows := CommaRows(csvText);
      LoadLeads(csvText).LoadError? <==> forall i :: 0 <= i < |rows| ==> !IsLeadHeader(rows[i])
  {
    LocateHeaderFirst(CommaRows(csvText), IsLeadHeader);
  }

  /** A loaded sheet's data are all the rows under the first header row. */
  lemma LoadLeadsRows(csvText: string)
    ensures var rows := CommaRows(csvText);
      LoadLeads(csvText).Loaded? ==>
        exists k :: 0 <= k < |rows| && IsLeadHeader(rows[k])
          && (forall i :: 0 <= i < k ==> !IsLeadHeader(rows[i]))
          && LoadLeads(csvText).rows == rows[k + 1..]
  {
    var rows := CommaRows(csvText);
    LocateHeaderFirst(rows, IsLeadHeader);
    var h := LocateHeader(rows, IsLeadHeader);
    if h.Some? {
      var k := h.value.index;
      assert IsLeadHeader(rows[k]) && LoadLeads(csvText).rows == rows[k + 1..];
    }
  }

  /** `DATE/TIME` has no surrounding white space. */
  lemma DateTimeLabelTrimmed()
    ensures Trim(LeadLabels[0]) == LeadLabels[0]
  {
    var t := LeadLabels[0];
    assert t[0] == 'D' && t[|t| - 1] == 'E';
    TrimNoop(t);
  }

  /** A header row with a `DATE/TIME` cell yields a date column. */
  lemma DateColumnFound(headers: Row)
    requires LeadLabels[0] in headers
    ensures MapLeadColumns(headers).dateTime >= 0
  {
  }

  /** The header row's `DATE/TIME` cell survives trimming, so a loaded
      sheet always has its date column. */
  lemma LoadLeadsDateColumn(csvText: string)
    ensures LoadLeads(csvText).Loaded? ==> LoadLeads(csvText).columns.dateTime >= 0
  {
    var rows := CommaRows(csvText);
    LocateHeaderFirst(rows, IsLeadHeader);
    var h := LocateHeader(rows, IsLeadHeader);
    if h.Some? {
      var row := rows[h.value.index];
      var j :| 0 <= j < |row| && row[j] == "DATE/TIME";
      DateTimeLabelTrimmed();
      assert h.value.headers[j] == LeadLabels[0];
      DateColumnFound(h.value.headers);
    }
  }

  // ------------------------------------------------------- filter and sort

  /** A sort direction; `handleSort` flips between the two. */
  datatype Direction = Asc | Desc

  function Flip(d: Direction): Direction
  {
    if d == Asc then Desc else Asc
  }

  /** The filter and sort state of the lead table; `""` switches a
      criterion off. */
  datatype LeadFilters = LeadFilters(
    propertySearch: string,
    phoneSearch: string,
    status: string,
    telecaller: string,
    channel: string,
    propertyNeed: string,
    project: string,
    visit: string,
    sortField: string,
    sortDirection: Direction)

  /** `resetFilters`. */
  function ResetFilters(): LeadFilters
  {
    LeadFilters("", "", "", "", "", "", "", "", "", Asc)
  }

  /** `handleSort(field)`: the same field flips the direction, another field
      becomes the sort field in ascending order. */
  function HandleSort(f: LeadFilters, field: string): (r: LeadFilters)
    ensures r.sortField == field
    ensures r.(sortField := f.sortField, sortDirection := f.sortDirection) == f
  {
    if f.sortField == field then f.(sortDirection := Flip(f.sortDirection))
    else f.(sortField := field, sortDirection := Asc)
  }

  /** Clicking a column twice restores the direction it had when it was
      already the sort field, and leaves it descending when it was not. */
  lemma HandleSortTwice(f: LeadFilters, field: string)
    ensures f.sortField == field ==> HandleSort(HandleSort(f, field), field) == f
    ensures f.sortField != field ==> HandleSort(HandleSort(f, field), field).sortDirection == Desc
    ensures HandleSort(f, field).sortField != f.sortField ==> HandleSort(f, field).sortDirection == Asc
  {
  }

  /** The visit filter: `done`, `pending` (no visit-done value) and
      `scheduled` (a visit date); any other value admits every row. */
  predicate VisitMatches(visit: string, c: LeadColumns, row: Row)
  {
    if visit == "done" then ToLower(Trimmed(row, c.visitDone)) == "done"
    else if visit == "pending" then Trimmed(row, c.visitDone) == ""
    else if visit == "scheduled" then FilledAt(row, c.visitDate)
    else true
  }

  /** The `done` and `pending` visit filters select disjoint rows. */
  lemma DoneExcludesPending(c: LeadColumns, row: Row)
    ensures !(VisitMatches("done", c, row) && VisitMatches("pending", c, row))
  {
    if Trimmed(row, c.visitDone) == "" {
      assert ToLower("") == "";
    }
  }

  /** Every active criterion of the lead table, combined with AND. The
      searches are case-insensitive; the drop-downs compare trimmed cells
      exactly. */
  predicate RowMatches(f: LeadFilters, c: LeadColumns, row: Row)
  {
    && (f.propertySearch == ""
        || Contains(LoweredOr(row, c.propertyNumber), ToLower(f.propertySearch))
        || Contains(LoweredOr(row, c.name), ToLower(f.propertySearch)))
    && (f.phoneSearch == "" || Contains(LoweredOr(row, c.number), ToLower(f.phoneSearch)))
    && (f.status == "" || Trimmed(row, c.status) == f.status)
    && (f.telecaller == "" || Trimmed(row, c.telecaller) == f.telecaller)
    && (f.channel == "" || Trimmed(row, c.channel) == f.channel)
    && (f.propertyNeed == "" || Trimmed(row, c.propertyNeed) == f.propertyNeed)
    && (f.project == "" || Trimmed(row, c.projectInterest) == f.project)
    && (f.visit == "" || VisitMatches(f.visit, c, row))
  }

  /** JavaScript's `<` on strings: lexicographic on characters. */
  predicate StrLess(a: string, b: string)
    decreases |a|
  {
    if a == [] then b != []
    else if b == [] then false
    else if a[0] != b[0] then a[0] < b[0]
    else StrLess(a[1..], b[1..])
  }

  lemma {:induction false} StrLessAsymmetric(a: string, b: string)
    ensures StrLess(a, b) ==> !StrLess(b, a)
    decreases |a|
  {
    if a != [] && b != [] && a[0] == b[0] {
      StrLessAsymmetric(a[1..], b[1..]);
    }
  }

  lemma {:induction false} StrLessIrreflexive(a: string)
    ensures !StrLess(a, a)
    decreases |a|
  {
    if a != [] {
      StrLessIrreflexive(a[1..]);
    }
  }

  /** The comparator says `a` goes before `b`. */
  predicate Precedes(a: string, b: string, d: Direction)
  {
    if d == Asc then StrLess(a, b) else StrLess(b, a)
  }

  /** The sort key of a row: the lower-cased name, status or property need,
      or the raw number; every row has the same key for any other field,
      where the comparator answers 0. */
  function SortKey(field: string, c: LeadColumns, row: Row): string
  {
    if field == "name" then LoweredOr(row, c.name)
    else if field == "number" then RawOr(row, c.number)
    else if field == "status" then LoweredOr(row, c.status)
    else if field == "propertyNeed" then LoweredOr(row, c.propertyNeed)
    else ""
  }

  predicate IsSortField(field: string)
  {
    field == "name" || field == "number" || field == "status" || field == "propertyNeed"
  }

  /** The comparator of `filteredData`'s sort. */
  function RowOrder(field: string, c: LeadColumns, d: Direction): (Row, Row) -> bool
  {
    (a: Row, b: Row) => Precedes(SortKey(field, c, a), SortKey(field, c, b), d)
  }

  /** The comparator never puts two rows each before the other. */
  lemma RowOrderAsymmetric(field: string, c: LeadColumns, d: Direction)
    ensures Asymmetric(RowOrder(field, c, d))
  {
    forall a: Row, b: Row
      ensures RowOrder(field, c, d)(a, b) ==> !RowOrder(field, c, d)(b, a)
    {
      StrLessAsymmetric(SortKey(field, c, a), SortKey(field, c, b));
    }
  }

  /** `filteredData`: the rows passing every active criterion, sorted when
      a sort field is set. */
  function FilteredData(data: seq<Row>, c: LeadColumns, f: LeadFilters): seq<Row>
  {
    var rows := Filter(data, (row: Row) => RowMatches(f, c, row));
    if f.sortField != "" then SortBy(rows, RowOrder(f.sortField, c, f.sortDirection)) else rows
  }

  /** The table holds exactly the matching rows, each as often as in the
      sheet. */
  lemma FilteredDataRows(data: seq<Row>, c: LeadColumns, f: LeadFilters)
    ensures multiset(FilteredData(data, c, f)) == multiset(Filter(data, (row: Row) => RowMatches(f, c, row)))
    ensures forall row :: row in FilteredData(data, c, f) <==> row in data && RowMatches(f, c, row)
  {
    var rows := Filter(data, (row: Row) => RowMatches(f, c, row));
    var r := FilteredData(data, c, f);
    assert multiset(r) == multiset(rows);
    forall row
      ensures row in r <==> row in rows
    {
      assert row in r <==> row in multiset(r);
      assert row in rows <==> row in multiset(rows);
    }
  }

  /** With a sort field the table is ordered by that field's key, in the
      chosen direction. */
  lemma FilteredDataOrdered(data: seq<Row>, c: LeadColumns, f: LeadFilters)
    requires f.sortField != ""
    ensures Ordered(FilteredData(data, c, f), RowOrder(f.sortField, c, f.sortDirection))
  {
    RowOrderAsymmetric(f.sortField, c, f.sortDirection);
    SortByOrdered(Filter(data, (row: Row) => RowMatches(f, c, row)), RowOrder(f.sortField, c, f.sortDirection));
  }

  /** Rows with the same sort key keep their sheet order: the sort is stable. */
  lemma FilteredDataStable(data: seq<Row>, c: LeadColumns, f: LeadFilters, k: string)
    ensures Filter(FilteredData(data, c, f), (row: Row) => SortKey(f.sortField, c, row) == k)
         == Filter(Filter(data, (row: Row) => RowMatches(f, c, row)), (row: Row) => SortKey(f.sortField, c, row) == k)
  {
    if f.sortField != "" {
      var before := RowOrder(f.sortField, c, f.sortDirection);
      var p := (row: Row) => SortKey(f.sortField, c, row) == k;
      StrLessIrreflexive(k);
      assert forall a, b :: p(a) && p(b) ==> !before(a, b);
      SortByStable(Filter(data, (row: Row) => RowMatches(f, c, row)), before, p);
    }
  }

  /** An unknown sort field leaves the filtered rows in sheet order. */
  lemma UnknownSortFieldKeepsOrder(data: seq<Row>, c: LeadColumns, f: LeadFilters)
    requires !IsSortField(f.sortField)
    ensures FilteredData(data, c, f) == Filter(data, (row: Row) => RowMatches(f, c, row))
  {
    if f.sortField != "" {
      StrLessIrreflexive("");
      SortByUnordered(Filter(data, (row: Row) => RowMatches(f, c, row)), RowOrder(f.sortField, c, f.sortDirection));
    }
  }

  /** After a reset the table shows every row in sheet order. */
  lemma ResetShowsAll(data: seq<Row>, c: LeadColumns)
    ensures FilteredData(data, c, ResetFilters()) == data
  {
    FilterAll(data, (row: Row) => RowMatches(ResetFilters(), c, row));
  }

  // -------------------------------------------------------- conversion rate

  /** A converted lead: transferred to a coordinator or a salesman, or hot. */
  predicate IsConverted(c: LeadColumns, row: Row)
  {
    || TrimmedIs(row, c.status, "Transferred to Sales Coordinator")
    || TrimmedIs(row, c.status, "Transferred to Salesman")
    || TrimmedIs(row, c.status, "Hot Lead")
  }

  /** The converted leads of one telecaller. */
  function ConvertedCount(data: seq<Row>, c: LeadColumns, name: string): nat
  {
    Count(data, (row: Row) => TrimmedIs(row, c.telecaller, name) && IsConverted(c, row))
  }

  /** `count > 0 ? Math.round(converted / count * 100) : 0`. */
  function ConversionRate(converted: nat, count: nat): (r: int)
    ensures count == 0 ==> r == 0
    ensures count > 0 ==> IsNearestPercent(r, converted, count)
    ensures converted <= count ==> 0 <= r <= 100
  {
    if count > 0 then
      RoundPercent(converted, count);
      NearestPercentBounds(Round(Percent(converted, count)), converted, count);
      Round(Percent(converted, count))
    else 0
  }

  /** The rate shown for a telecaller of the table is a percentage: the
      converted leads are among that telecaller's leads. */
  lemma ConversionRateBounded(c: LeadColumns, data: seq<Row>, name: string)
    requires name in CountRows(c, data).tables.telecallers
    ensures var count := CountRows(c, data).tables.telecallers[name];
      && ConvertedCount(data, c, name) <= count
      && 0 <= ConversionRate(ConvertedCount(data, c, name), count) <= 100
  {
    TelecallerTable(c, data);
    CountMonotone(data, (row: Row) => TrimmedIs(row, c.telecaller, name) && IsConverted(c, row),
                  (row: Row) => TrimmedIs(row, c.telecaller, name));
  }
}

=== FILE: text.dfy ===
/** The JavaScript string built-ins the dashboards rely on, over `seq<char>`:
    `trim`, ASCII `toLowerCase`/`toUpperCase`, `includes`, `split` on one
    character, `padStart`, and decimal conversion of whole numbers. */
module Text {

  /** The characters `trim()` removes and the regular-expression class `\s`
      matches: ECMAScript WhiteSpace and LineTerminator. */
  predicate IsSpace(c: char)
  {
    c == ' ' || c == '\t' || c == '\n' || c == '\r' || c == '\U{000B}' || c == '\U{000C}'
    || c == '\U{00A0}' || c == '\U{1680}' || ('\U{2000}' <= c <= '\U{200A}')
    || c == '\U{2028}' || c == '\U{2029}' || c == '\U{202F}' || c == '\U{205F}'
    || c == '\U{3000}' || c == '\U{FEFF}'
  }

  /** The regular-expression class `\d`. */
  predicate IsDigit(c: char)
  {
    '0' <= c <= '9'
  }

  function Lower(c: char): char
  {
    if 'A' <= c <= 'Z' then (c as int + 32) as char else c
  }

  function Upper(c: char): char
  {
    if 'a' <= c <= 'z' then (c as int - 32) as char else c
  }

  /** `s.toLowerCase()`, restricted to the ASCII letters. */
  function ToLower(s: string): (r: string)
    ensures |r| == |s|
    ensures forall i :: 0 <= i < |s| ==> r[i] == Lower(s[i])
  {
    seq(|s|, i requires 0 <= i < |s| => Lower(s[i]))
  }

  /** `s.toUpperCase()`, restricted to the ASCII letters. */
  function ToUpper(s: string): (r: string)
    ensures |r| == |s|
    ensures forall i :: 0 <= i < |s| ==> r[i] == Upper(s[i])
  {
    seq(|s|, i requires 0 <= i < |s| => Upper(s[i]))
  }

  /** Lower-casing twice is lower-casing once. */
  lemma ToLowerIdempotent(s: string)
    ensures ToLower(ToLower(s)) == ToLower(s)
  {
  }

  /** `s.trimStart()`. */
  function TrimStart(s: string): (r: string)
    ensures |r| <= |s|
    decreases |s|
  {
    if |s| > 0 && IsSpace(s[0]) then TrimStart(s[1..]) else s
  }

  /** `s.trimEnd()`. */
  function TrimEnd(s: string): (r: string)
    ensures |r| <= |s|
    decreases |s|
  {
    if |s| > 0 && IsSpace(s[|s| - 1]) then TrimEnd(s[..|s| - 1]) else s
  }

  /** `s.trim()`. */
  function Trim(s: string): (r: string)
    ensures |r| <= |s|
  {
    TrimEnd(TrimStart(s))
  }

  /** `trimStart` drops exactly the leading white space: a suffix remains,
      everything before it is white space, and it does not start with any. */
  lemma {:induction false} TrimStartSpec(s: string)
    ensures TrimStart(s) == s[|s| - |TrimStart(s)|..]
    ensures forall i :: 0 <= i < |s| - |TrimStart(s)| ==> IsSpace(s[i])
    ensures |TrimStart(s)| > 0 ==> !IsSpace(TrimStart(s)[0])
    decreases |s|
  {
    if |s| > 0 && IsSpace(s[0]) {
      TrimStartSpec(s[1..]);
      assert forall i :: 1 <= i < |s| ==> s[i] == s[1..][i - 1];
    }
  }

  /** `trimEnd` drops exactly the trailing white space. */
  lemma {:induction false} TrimEndSpec(s: string)
    ensures TrimEnd(s) == s[..|TrimEnd(s)|]
    ensures forall i :: |TrimEnd(s)| <= i < |s| ==> IsSpace(s[i])
    ensures |TrimEnd(s)| > 0 ==> !IsSpace(TrimEnd(s)[|TrimEnd(s)| - 1])
    decreases |s|
  {
    if |s| > 0 && IsSpace(s[|s| - 1]) {
      TrimEndSpec(s[..|s| - 1]);
    }
  }

  /** `trim()` keeps the slice of `s` between its leading and its trailing
      white space: the slice starts and ends with a character that is not
      white space, and everything outside it is white space. */
  lemma TrimSpec(s: string)
    ensures OccursAt(s, Trim(s), |s| - |TrimStart(s)|)
    ensures |Trim(s)| > 0 ==> !IsSpace(Trim(s)[0]) && !IsSpace(Trim(s)[|Trim(s)| - 1])
    ensures forall i :: 0 <= i < |s| - |TrimStart(s)| ==> IsSpace(s[i])
    ensures forall i :: |s| - |TrimStart(s)| + |Trim(s)| <= i < |s| ==> IsSpace(s[i])
  {
    var t := TrimStart(s);
    var r := TrimEnd(t);
    TrimStartSpec(s);
    TrimEndSpec(t);
    var k := |s| - |t|;
    assert r == s[k..k + |r|];
    forall i | k + |r| <= i < |s|
      ensures IsSpace(s[i])
    {
      assert s[i] == t[i - k];
    }
  }

  /** A string with no white space at its ends is its own trim. */
  lemma TrimNoop(s: string)
    requires |s| > 0 ==> !IsSpace(s[0]) && !IsSpace(s[|s| - 1])
    ensures Trim(s) == s
  {
  }

  /** Trimming is idempotent. */
  lemma TrimIdempotent(s: string)
    ensures Trim(Trim(s)) == Trim(s)
  {
    TrimSpec(s);
    TrimNoop(Trim(s));
  }

  /** Trimming leaves nothing exactly when the string is all white space. */
  lemma TrimEmptyIffBlank(s: string)
    ensures Trim(s) == "" <==> forall i :: 0 <= i < |s| ==> IsSpace(s[i])
  {
    TrimSpec(s);
    if Trim(s) != "" {
      var k := |s| - |TrimStart(s)|;
      assert s[k] == Trim(s)[0];
    }
  }

  /** `t` occurs in `s` starting at index `i`. */
  predicate OccursAt(s: string, t: string, i: int)
  {
    0 <= i && i + |t| <= |s| && s[i..i + |t|] == t
  }

  /** `s.includes(t)`: `t` occurs in `s` as a contiguous slice. */
  predicate Contains(s: string, t: string)
    decreases |s|
  {
    t <= s || (|s| > 0 && Contains(s[1..], t))
  }

  /** `includes` is exactly "occurs at some position". */
  lemma {:induction false} ContainsIff(s: string, t: string)
    ensures Contains(s, t) <==> exists i :: OccursAt(s, t, i)
    decreases |s|
  {
    if t <= s {
      assert OccursAt(s, t, 0);
    }
    if |s| > 0 {
      ContainsIff(s[1..], t);
      if Contains(s[1..], t) {
        var i :| OccursAt(s[1..], t, i);
        assert s[i + 1..i + 1 + |t|] == s[1..][i..i + |t|];
        assert OccursAt(s, t, i + 1);
      }
      if i :| OccursAt(s, t, i) {
        if i > 0 {
          assert s[1..][i - 1..i - 1 + |t|] == s[i..i + |t|];
          assert OccursAt(s[1..], t, i - 1);
        } else {
          assert s[..|t|] == t;
        }
      }
    } else {
      if i :| OccursAt(s, t, i) {
        assert t == [];
      }
    }
  }

  /** Every string occurs inside a string built around it. */
  lemma ContainsMiddle(a: string, t: string, b: string)
    ensures Contains(a + t + b, t)
  {
    var s := a + t + b;
    assert s[|a|..|a| + |t|] == t;
    assert OccursAt(s, t, |a|);
    ContainsIff(s, t);
  }

  /** A string cannot contain a text whose first character it lacks. */
  lemma ContainsFirstChar(s: string, t: string)
    requires |t| > 0 && t[0] !in s
    ensures !Contains(s, t)
  {
    ContainsIff(s, t);
    forall i | 0 <= i && i + |t| <= |s|
      ensures !OccursAt(s, t, i)
    {
      assert s[i] in s;
      assert s[i..i + |t|][0] == s[i];
    }
  }

  /** `s.split(c)` for a one-character separator: the pieces between the
      separators, always at least one. */
  function Split(s: string, c: char): (r: seq<string>)
    ensures |r| >= 1
    ensures forall i :: 0 <= i < |r| ==> c !in r[i]
    decreases |s|
  {
    if s == [] then [""]
    else
      var rest := Split(s[1..], c);
      if s[0] == c then [""] + rest
      else [[s[0]] + rest[0]] + rest[1..]
  }

  /** `parts.join(c)`. */
  function Join(parts: seq<string>, c: char): string
    decreases |parts|
  {
    if parts == [] then ""
    else if |parts| == 1 then parts[0]
    else parts[0] + [c] + Join(parts[1..], c)
  }

  /** Joining the pieces with the separator gives back the original text. */
  lemma {:induction false} JoinSplit(s: string, c: char)
    ensures Join(Split(s, c), c) == s
    decreases |s|
  {
    if s != [] {
      var rest := Split(s[1..], c);
      JoinSplit(s[1..], c);
      if s[0] != c {
        if |rest| == 1 {
        } else {
          assert [[s[0]] + rest[0]] + rest[1..] == [[s[0]] + rest[0]] + rest[1..];
          assert Join(rest, c) == rest[0] + [c] + Join(rest[1..], c);
        }
      }
    }
  }

  /** Splitting is the inverse of joining pieces that do not contain the
      separator: the pieces come back exactly. */
  lemma {:induction false} SplitJoin(parts: seq<string>, c: char)
    requires |parts| >= 1
    requires forall i :: 0 <= i < |parts| ==> c !in parts[i]
    ensures Split(Join(parts, c), c) == parts
    decreases |parts|, |parts[0]|
  {
    var p := parts[0];
    if p == [] {
      if |parts| == 1 {
      } else {
        var rest := parts[1..];
        assert Join(parts, c) == [c] + Join(rest, c);
        assert (Join(parts, c))[1..] == Join(rest, c);
        SplitJoin(rest, c);
      }
    } else {
      var parts' := [p[1..]] + parts[1..];
      assert forall i :: 0 <= i < |parts'| ==> c !in parts'[i] by {
        assert forall x :: x in p[1..] ==> x in p;
      }
      assert Join(parts, c) == [p[0]] + Join(parts', c) by {
        if |parts| > 1 {
          assert Join(parts', c) == p[1..] + [c] + Join(parts[1..], c);
        }
      }
      assert (Join(parts, c))[1..] == Join(parts', c);
      assert p[0] != c;
      SplitJoin(parts', c);
      assert [p[0]] + p[1..] == p;
      assert parts'[1..] == parts[1..];
      assert [[p[0]] + p[1..]] + parts'[1..] == parts;
    }
  }

  lemma JoinTwo(x: string, y: string, c: char)
    ensures Join([x, y], c) == x + [c] + y
  {
    assert [x, y][1..] == [y];
  }

  lemma JoinThree(x: string, y: string, z: string, c: char)
    ensures Join([x, y, z], c) == x + [c] + y + [c] + z
  {
    assert [x, y, z][1..] == [y, z];
    JoinTwo(y, z, c);
  }

  /** A text without the separator splits into itself alone. */
  lemma {:induction false} SplitWithout(s: string, c: char)
    requires c !in s
    ensures Split(s, c) == [s]
    decreases |s|
  {
    if s != [] {
      assert c !in s[1..] by {
        assert forall x :: x in s[1..] ==> x in s;
      }
      SplitWithout(s[1..], c);
      assert [s[0]] + s[1..] == s;
    }
  }

  /** The first piece of a text that does not start with the separator is
      not empty: it begins with the text's first character. */
  lemma SplitFirstPiece(s: string, c: char)
    requires |s| > 0 && s[0] != c
    ensures |Split(s, c)[0]| > 0 && Split(s, c)[0][0] == s[0]
  {
  }

  /** Every character of a contained text occurs in the containing one. */
  lemma ContainsCharsIn(s: string, t: string)
    requires Contains(s, t)
    ensures forall j :: 0 <= j < |t| ==> t[j] in s
  {
    ContainsIff(s, t);
    var i :| OccursAt(s, t, i);
    forall j | 0 <= j < |t|
      ensures t[j] in s
    {
      assert s[i..i + |t|][j] == s[i + j];
    }
  }

  /** `s.padStart(n, c)` with a one-character pad. */
  function PadStart(s: string, n: nat, c: char): (r: string)
    ensures |r| == if |s| >= n then |s| else n
    ensures r[|r| - |s|..] == s
    ensures forall i :: 0 <= i < |r| - |s| ==> r[i] == c
  {
    if |s| >= n then s else seq(n - |s|, _ => c) + s
  }

  /** `s.padStart(2, '0')`, the zero padding of clock fields. */
  function Pad2(s: string): (r: string)
    ensures |r| == if |s| >= 2 then |s| else 2
  {
    PadStart(s, 2, '0')
  }

  /** A non-empty run of decimal digits (the regular expression `\d+`). */
  predicate IsDigits(s: string)
  {
    |s| > 0 && forall i :: 0 <= i < |s| ==> IsDigit(s[i])
  }

  function DigitValue(c: char): nat
    requires IsDigit(c)
  {
    c as int - '0' as int
  }

  /** `parseInt(s, 10)` of a string of digits. */
  function DigitsValue(s: string): nat
    requires forall i :: 0 <= i < |s| ==> IsDigit(s[i])
    decreases |s|
  {
    if s == [] then 0 else 10 * DigitsValue(s[..|s| - 1]) + DigitValue(s[|s| - 1])
  }

  function DigitChar(d: nat): (c: char)
    requires d < 10
    ensures IsDigit(c) && DigitValue(c) == d
  {
    ('0' as int + d) as char
  }

  /** `n.toString()` for a whole number that is not negative. */
  function NatToString(n: nat): (r: string)
    ensures IsDigits(r)
    ensures DigitsValue(r) == n
    ensures |r| == 1 <==> n < 10
    ensures |r| >= 2 ==> n >= 10
    ensures n == 0 || r[0] != '0'
    decreases n
  {
    if n < 10 then [DigitChar(n)]
    else
      var r := NatToString(n / 10) + [DigitChar(n % 10)];
      assert r[..|r| - 1] == NatToString(n / 10);
      r
  }

  /** `n.toString()` for any whole number: a minus sign before the digits of
      a negative value. */
  function IntToString(n: int): (r: string)
    ensures |r| > 0
    ensures n >= 0 <==> IsDigits(r)
    ensures n < 0 ==> r[0] == '-'
  {
    if n < 0 then
      var r := "-" + NatToString(-n);
      assert !IsDigit(r[0]);
      r
    else NatToString(n)
  }

  /** `z` zero digits. */
  function Zeros(z: nat): (r: string)
    ensures |r| == z
    ensures forall i :: 0 <= i < z ==> r[i] == '0'
  {
    seq(z, _ => '0')
  }

  /** Leading zeros do not change the value of a digit string. */
  lemma {:induction false} DigitsValueLeadingZeros(z: nat, s: string)
    requires forall i :: 0 <= i < |s| ==> IsDigit(s[i])
    ensures forall i :: 0 <= i < z + |s| ==> IsDigit((Zeros(z) + s)[i])
    ensures DigitsValue(Zeros(z) + s) == DigitsValue(s)
    decreases |s|
  {
    var t := Zeros(z) + s;
    if s == [] {
      assert t == Zeros(z);
      ZerosValue(z);
    } else {
      assert t[..|t| - 1] == Zeros(z) + s[..|s| - 1];
      DigitsValueLeadingZeros(z, s[..|s| - 1]);
    }
  }

  lemma {:induction false} ZerosValue(z: nat)
    ensures DigitsValue(Zeros(z)) == 0
    decreases z
  {
    if z > 0 {
      assert Zeros(z)[..z - 1] == Zeros(z - 1);
      ZerosValue(z - 1);
    }
  }

  /** The zero-padded decimal rendering of `n` reads back as `n`. */
  lemma Pad2Value(n: nat)
    ensures IsDigits(Pad2(NatToString(n)))
    ensures DigitsValue(Pad2(NatToString(n))) == n
  {
    var s := NatToString(n);
    if |s| < 2 {
      DigitsValueLeadingZeros(2 - |s|, s);
      assert Pad2(s) == Zeros(2 - |s|) + s;
    }
  }
}
